=== FILE: README.md ===
# fintree back-office dashboard: a Dafny model of its table and tab logic

fintree is a Next.js/React back-office dashboard for a lending business.
Two kinds of screen make up its logic.

- **Entity tables** for companies, departments, roles, users and pages. Each one
  fetches a list and then, on the client, filters it by a search box, sorts it
  by a clicked column and cuts it into pages of ten. It also validates add and
  edit forms, builds request payloads and patches the local list after a
  create, edit, toggle or delete.
- **Loan-review tabs** that turn server-supplied applicant data into what is
  shown: the EMI history grids of the bureau tab and trade-line dialog, the
  bank summary with its averages and red flags, the document lists of the FI,
  PDI, login and documents tabs, and the approve/reject/hold buttons.

The Redux slices for users, roles and departments are modelled too. So is the
tenant login page's choice of brand.

This project restates that logic in Dafny, over a small model of JavaScript
values. It then proves what each handler computes and the properties that
relate the handlers to each other. Examples:

- a search keeps exactly the matching rows, in order;
- the pages of a list concatenate back to the list;
- a toggle applied twice is undone;
- a second identical update changes nothing;
- a form passes validation exactly when every field rule holds;
- the pages table's guarded Previous/Next handlers keep the page number in range, whereas the equality-disabled buttons of the company, role and department tables let Next leave the range of an empty table.

Layout, one module per file unless noted:

- `wrappers.dfy` (`Wrappers`): `Option`.
- `js_value.dfy` (`JsValue`, `JsObject`): JavaScript values and plain objects.
  - A value is `undefined`, `null`, a boolean, an integer, `NaN`, a string or an array.
  - `Completion` is a result that either has a value or has thrown.
  - Also here: truthiness, `||`, `??`, `===`, `Number()`, `parseInt`, `String()`, property access and object spread.
- `numeric.dfy` (`Numeric`): decimal rendering and parsing of integers.
- `text.dfy` (`Text`): ASCII case mapping, `includes`, `trim`, `split`, `indexOf` and `replace` of the first occurrence.
- `seqs.dfy` (`Seqs`): `filter`, `map`, `findIndex`, `slice`, `flat` and subsequences.
- `search.dfy` (`Search`): the search tests the tables use, and a filter whose callback may throw.
- `sorting.dfy` (`Sorting`): the sort-config toggle, the three-way comparator and a comparator sort.
- `paging.dfy` (`Paging`, `Selection`): pages of ten, the two Previous/Next rules, and row selection.
- `table_view.dfy` (`TableView`): filter, then sort, then paginate.
- `schema.dfy` (`Schema`): the subset of zod the forms use: required strings, email, issues, `flatten().fieldErrors`.
- `slices.dfy` (`EntityList`, `UserSlice`, `RoleSlice`, `DepartmentSlice`): the reducers.
- One file per table:
  - `company_table.dfy`
  - `department_table.dfy`
  - `roles_table.dfy`
  - `user_table.dfy`
  - `pages_table.dfy`
- One file per tab or helper:
  - `emi_history.dfy` (`EmiHistory`, `TradeLine`, `Bureau`)
  - `bank_tab.dfy`
  - `question_docs.dfy`
  - `fi_tab.dfy`
  - `pdi_tab.dfy`
  - `login_tab.dfy`
  - `documents_tab.dfy`
  - `approval_tab.dfy`
  - `tenant_login.dfy`

Effects are parameters:

- the session token and the stored company id;
- the record the server returns after a create;
- the date and currency formatters.

Each handler is a function from the component state and its inputs to an outcome. The outcome says:

- which request would be sent, with which body;
- or which message stops the handler;
- and what the new local state is.

Two details of the code shape the model:

- The hold button of the approval tab switches to the tab named `"docs"`.
- The department table never changes its sort configuration. Its sort key stays empty and its rows are shown in fetched order, so `DepartmentTable.View` filters and paginates only.

## Model

| member | source | states |
|---|---|---|
| DepartmentSlice.NewDepartment | src/redux/slice/departmentSlice.js:46-52 | The added department has the payload's keys plus `subDepartments` and `isActive`. `subDepartments` defaults to `[]` when the payload's is falsy. `isActive` defaults to `true` only when the payload's is null or undefined. Every other field is the payload's. |
| DepartmentSlice.AddDepartment | src/redux/slice/departmentSlice.js:46-52 | Adding appends exactly one record, the defaulted department, and leaves every earlier record unchanged. |
| DepartmentSlice.AddDepartmentKeepsInactive | src/redux/slice/departmentSlice.js:50 | An explicit `isActive: false` survives the add, because `??` defaults only null or undefined. |
| DepartmentSlice.AddDepartmentEmptySubDepartments | src/redux/slice/departmentSlice.js:49 | An empty-string `subDepartments` is replaced by `[]`, because `\|\|` defaults every falsy value. |
| DepartmentSlice.RemoveDepartment | src/redux/slice/departmentSlice.js:53-54 | Removal keeps, in order, exactly the departments with another id. Removing the same id again changes nothing. |
| DepartmentSlice.Merge | src/redux/slice/departmentSlice.js:58-63 | The merged record has the union of keys. The payload wins on every key it has, except that a falsy `subDepartments` keeps the old list and a nullish `isActive` keeps the old flag. |
| DepartmentSlice.MergeIdempotent | src/redux/slice/departmentSlice.js:58-63 | Merging the same payload twice gives the same record as merging it once. |
| DepartmentSlice.MergeKeepsId | src/redux/slice/departmentSlice.js:56-60 | The merged record carries the payload's id, so it is still found by that id. |
| DepartmentSlice.UpdateDepartment | src/redux/slice/departmentSlice.js:55-65 | The length is kept. An unknown id leaves the list unchanged. Only the first department with the id changes, and it becomes the merge of its old value with the payload. |
| DepartmentSlice.UpdateDepartmentIdempotent | src/redux/slice/departmentSlice.js:55-65 | Dispatching the same update twice gives the same list as dispatching it once. |
| EntityList.RemoveByIdKeeps | src/redux/slice/userSlice.js:58-59 | Removing by id keeps exactly the records with another id, as a subsequence. It is idempotent, and it is the identity when no record has the id. |
| EntityList.IndexOfId | src/redux/slice/userSlice.js:61 | `findIndex` returns the first position holding the id, or -1 exactly when none does. |
| EntityList.UpdateByIdAgain | src/redux/slice/departmentSlice.js:56-57 | An update that preserves the id leaves the record in the position the next lookup of that id finds. |
| EntityList.ReplaceByIdIdempotent | src/redux/slice/roleSlice.js:30-35 | Replacing the record with the payload's id twice gives the same list as replacing it once. |
| UserSlice.AddUser | src/redux/slice/userSlice.js:55-57 | The payload is appended after the unchanged earlier users. |
| UserSlice.RemoveUser | src/redux/slice/userSlice.js:58-59 | The result is a subsequence of the list, so order and repeats are kept. It holds exactly the users with another id. Removing the same id again changes nothing. |
| UserSlice.UpdateUser | src/redux/slice/userSlice.js:60-65 | The first user with the payload's id is replaced wholesale by the payload, with no field merge. All others are untouched. An unknown id changes nothing. |
| UserSlice.UpdateUserIdempotent | src/redux/slice/userSlice.js:60-65 | Applying the same update twice gives the same list as applying it once. |
| RoleSlice.AddRole | src/redux/slice/roleSlice.js:25-27 | The payload is appended after the unchanged earlier roles. |
| RoleSlice.RemoveRole | src/redux/slice/roleSlice.js:28-29 | The result is a subsequence of the list, so order and repeats are kept. It holds exactly the roles with another id. Removing the same id again changes nothing. |
| RoleSlice.UpdateRole | src/redux/slice/roleSlice.js:30-35 | The first role with the payload's id becomes the payload. All others are untouched. An unknown id changes nothing. |
| Paging.TotalPages | src/components/atoms/tables/DepartmentTE.jsx:159 | The page count is zero exactly for an empty list. Otherwise it is the least number of ten-row pages that holds every row. |
| Paging.PageContents | src/components/atoms/tables/DepartmentTE.jsx:155-158 | Page `p` is non-empty exactly when `p` is at most the page count. When it is, it is the block of rows from `10(p-1)`. |
| Paging.PageMembers | src/components/atoms/tables/DepartmentTE.jsx:155-158 | Every row shown on a page is a row of the list. |
| Paging.AllPages | src/components/atoms/tables/DepartmentTE.jsx:155-159 | Concatenating pages 1 to the page count gives back the whole list. |
| Paging.PrevByEquality | src/components/atoms/tables/DepartmentTE.jsx:465-469 | The department Previous button moves back one page unless the page is 1. |
| Paging.NextByEquality | src/components/atoms/tables/DepartmentTE.jsx:475-479 | The department Next button moves forward one page unless the page equals the page count. |
| Paging.EqualityStaysPositive | src/components/atoms/tables/DepartmentTE.jsx:465-479 | Under the equality rule, any sequence of clicks keeps the page number at least 1. |
| Paging.EqualityEscapesEmptyTable | src/components/atoms/tables/DepartmentTE.jsx:475-479 | With no rows the page count is 0. Next then moves from page 1 to 2 and on without bound, out of range. |
| Paging.EqualityPastEndKeepsGoing | src/components/atoms/tables/DepartmentTE.jsx:475-479 | Once the page number is past the count, Next still advances, and the page shown is empty. |
| Paging.PrevGuarded | src/components/atoms/tables/PagesTE.jsx:99-101 | The guarded Previous moves back only from a page above 1. |
| Paging.NextGuarded | src/components/atoms/tables/PagesTE.jsx:95-97 | The guarded Next moves forward only from a page below the count. |
| Paging.GuardedStaysInRange | src/components/atoms/tables/PagesTE.jsx:95-101 | Under the guarded rule, any sequence of clicks from an in-range page stays in range. |
| Selection.Toggle | src/components/atoms/tables/DepartmentTE.jsx:161-165 | A selected id is removed by strict inequality. An unselected one is appended. |
| Selection.ToggleMembership | src/components/atoms/tables/DepartmentTE.jsx:161-165 | For any id other than `NaN`, a toggle flips that id's membership and keeps every other id's membership. |
| Selection.ToggleNaNStuck | src/components/atoms/tables/DepartmentTE.jsx:163 | A `NaN` id is never removed, because `NaN !== NaN`. Once present, toggling it leaves the selection unchanged. |
| Selection.ToggleNoDuplicates | src/components/atoms/tables/RolesTE.jsx:150-154 | Toggling keeps a duplicate-free selection duplicate-free. |
| Selection.ToggleTwice | src/components/atoms/tables/CompanyTable.jsx:410-414 | Toggling an id twice gives back the same set of selected ids. From an unselected id it gives back the very same list. |
| Selection.ToggleAll | src/components/atoms/tables/CompanyTable.jsx:416-422 | Select-all clears the selection when its size equals the page's. Otherwise it selects exactly the page's ids. |
| Selection.ToggleAllComparesSizes | src/components/atoms/tables/CompanyTable.jsx:417 | Select-all compares sizes only. A selection of other rows, as large as the page, is cleared and leaves none of the page selected. |
| Selection.ToggleSingle | src/components/atoms/tables/UserTE.jsx:366 | Expanding a row collapses it when it is the expanded one, and otherwise expands it. |
| Selection.ToggleSingleTwice | src/components/atoms/tables/UserTE.jsx:366 | Two clicks on the same row leave it expanded only if it was expanded before. |
| Sorting.HandleSort | src/components/atoms/tables/CompanyTable.jsx:403-408 | A click sorts by the clicked key. The direction is descending exactly when that key was already sorted ascending. |
| Sorting.HandleSortCycle | src/components/atoms/tables/CompanyTable.jsx:403-408 | Clicking a column cycles ascending, descending, ascending. Clicking a new column starts ascending. |
| Sorting.Compare | src/components/atoms/tables/DepartmentTE.jsx:146-152 | The comparator returns -1, 0 or 1. It returns 0 exactly when neither key is less. Ascending puts the lesser key first, and descending reverses that. |
| Sorting.SortBy | src/components/atoms/tables/DepartmentTE.jsx:146 | Sorting returns a permutation of its input. |
| Sorting.SortBySorted | src/components/atoms/tables/DepartmentTE.jsx:146-152 | With a comparator that is a total preorder on the input, the output is ordered by it. |
| Sorting.SortRows | src/components/atoms/tables/CompanyTable.jsx:386-395 | With no sort key the rows keep their order. Otherwise they are permuted. |
| Sorting.SortRowsOrdered | src/components/atoms/tables/CompanyTable.jsx:386-395 | When every row's key is a string, or every one a number, the sorted rows are a permutation in the chosen direction's order. |
| TableView.Sorted | src/components/atoms/tables/CompanyTable.jsx:386-395 | The sorted view throws exactly when the search throws. Otherwise it is a permutation of the search result, and that very result when no key is set. |
| TableView.Shown | src/components/atoms/tables/CompanyTable.jsx:397-401 | The rows shown throw exactly when the search throws, and are at most ten. |
| TableView.ShownRowsMatch | src/components/atoms/tables/CompanyTable.jsx:376-401 | Every row shown matches the search. The sorted view holds each matching row as often as the list does, and no other row. Its pages together give it back entire. |
| Search.LowerIncludes | src/components/atoms/tables/PagesTE.jsx:85 | `v.toLowerCase().includes(q)` throws exactly when `v` is not a string. Otherwise it is case-insensitive containment. |
| Search.OptLowerIncludes | src/components/atoms/tables/CompanyTable.jsx:378-383 | The `?.` form is false for null or undefined and otherwise behaves as the unguarded test, throwing on non-strings. |
| Search.GuardedLowerIncludes | src/components/atoms/tables/RolesTE.jsx:124 | The `&&`-guarded form is false for any falsy value and otherwise behaves as the unguarded test. |
| Search.OptStringIncludes | src/components/atoms/tables/UserTE.jsx:207 | `v?.toString()` never throws. It is false for null or undefined and otherwise is containment in the value's string form. |
| Search.OrElse | src/components/atoms/tables/CompanyTable.jsx:378-383 | `\|\|` short-circuits. The result is true exactly when the left is true, or the left is false and the right is true. It throws exactly when the left throws, or the left is false and the right throws. |
| Search.FilterThrowing | src/components/atoms/tables/DepartmentTE.jsx:137-142 | `filter` throws exactly when its callback throws on some element. Otherwise it keeps the elements the callback accepts. |
| Search.FilterThrowingMeaning | src/components/atoms/tables/PagesTE.jsx:83-87 | A callback that never throws and agrees with a predicate makes `filter` keep, in order, exactly the elements satisfying the predicate. |
| Text.Includes | src/components/atoms/tables/PagesTE.jsx:85 | `includes` is true exactly when the needle occurs as a contiguous block of the string. |
| Text.Trim | src/components/molecules/tabs/DocumentsTab.jsx:20-21 | `trim` is empty exactly for an all-whitespace string. Otherwise it starts and ends with non-space and is the block of the input after its leading whitespace. |
| Text.Split | src/components/molecules/tabs/TradeLineDialog.jsx:29 | `split` yields at least one field, and no field contains the separator. |
| Text.JoinSplit | src/components/molecules/tabs/TradeLineDialog.jsx:29 | Joining the fields with the separator gives back the original string. |
| Text.SplitAfterField | src/components/molecules/tabs/TradeLineDialog.jsx:29 | Splitting `a + sep + b` with `a` free of the separator gives `a` followed by the fields of `b`. |
| Text.IndexOf | src/components/molecules/tabs/LoginTab.jsx:21 | `indexOf` finds the first occurrence, or -1 exactly when there is none. |
| Text.ReplaceFirst | src/components/molecules/tabs/LoginTab.jsx:21 | Replacing a character changes only its first occurrence, keeps the length, and changes nothing when the character is absent. |
| Text.ReplaceFirstAfter | src/components/molecules/tabs/LoginTab.jsx:21 | In `a + from + b` with `from` not in `a`, the replacement happens at the joint. |
| JsValue.Or | src/redux/slice/departmentSlice.js:49 | `a \|\| b` is `a` when truthy, else `b`. |
| JsValue.Coalesce | src/redux/slice/departmentSlice.js:50 | `a ?? b` is `a` unless null or undefined, else `b`. |
| JsValue.OrVersusCoalesce | src/redux/slice/departmentSlice.js:49-50 | On a falsy but non-nullish value such as `false`, `0` or `""`, `\|\|` takes the default and `??` keeps the value. |
| JsValue.NumberOfEmpty | src/components/atoms/tables/UserTE.jsx:161-162 | `Number("")` is 0, so an unselected role or department is sent as id 0. |
| JsValue.NumberOfString | src/components/atoms/tables/UserTE.jsx:161-162 | `Number(String(n))` gives back `n` for every integer. |
| JsValue.ParseIntOfString | src/components/atoms/tables/DepartmentTE.jsx:181-183 | `parseInt(String(n))` gives back `n` for every integer. |
| Numeric.ParseIntOfIntToString | src/components/atoms/tables/DepartmentTE.jsx:182 | Parsing the decimal rendering of any integer gives the integer back. |
| JsObject.Spread | src/components/atoms/tables/PagesTE.jsx:119 | `{...base, ...over}` has the union of keys. It takes `over`'s value where present and `base`'s otherwise. |
| Schema.FieldIssues | src/components/atoms/tables/CompanyTable.jsx:37-44 | A field rule yields no issue exactly when the value passes. Otherwise it yields one issue at the field's key with its message. |
| Schema.Issues | src/components/atoms/tables/CompanyTable.jsx:164 | `safeParse` succeeds exactly when every field rule holds. |
| Schema.IssuesName | src/components/atoms/tables/CompanyTable.jsx:164-169 | Every issue reported names a field whose rule fails, with that rule's message. |
| Schema.InvalidFieldHasIssue | src/components/atoms/tables/CompanyTable.jsx:164-169 | Every field whose rule fails is reported by some issue. |
| Schema.ErrorMapLastWins | src/components/atoms/tables/CompanyTable.jsx:166-169 | The error map has a key exactly for each path with an issue. Its message is that of the last such issue. |
| Schema.ErrorMapOfIssues | src/components/atoms/tables/CompanyTable.jsx:164-170 | A rule's key is in the error map exactly when the rule fails on the draft, and it maps to the rule's message. |
| Schema.FieldErrors | src/components/atoms/tables/DepartmentTE.jsx:219 | `flatten().fieldErrors` has an entry exactly for each path with an issue. |
| Schema.FieldErrorsOfIssues | src/components/atoms/tables/RolesTE.jsx:193 | The flattened errors of a form have an entry exactly for the fields whose rules fail. |
| CompanyTable.SchemaAccepts | src/components/atoms/tables/CompanyTable.jsx:37-44 | The company schema accepts a draft exactly when the name, logo, colour and admin name are non-empty strings, the email is a string that `isEmail` accepts, and the password is a string of at least 4 characters. |
| CompanyTable.ErrorsPerField | src/components/atoms/tables/CompanyTable.jsx:164-170 | Each field has an error exactly when its rule fails, and the error is the rule's message. |
| CompanyTable.HandleAddCompany | src/components/atoms/tables/CompanyTable.jsx:162-193 | An invalid draft stops with a non-empty error map. A valid draft with no token stops. Otherwise the POST body maps the draft fields to the server's names. |
| CompanyTable.NonEmptyErrors | src/components/atoms/tables/CompanyTable.jsx:165-170 | A draft the schema rejects always produces at least one field error. |
| CompanyTable.HandleUpdateCompany | src/components/atoms/tables/CompanyTable.jsx:274-307 | The update validates with the full add-schema. It stops on errors or a missing token. Otherwise it sends a PUT to the edited company's id, with the same body as an add; it never posts. |
| CompanyTable.EditDraft | src/components/atoms/tables/CompanyTable.jsx:259-263 | The edit draft holds only name, logo and colour. |
| CompanyTable.EditDraftBlocked | src/components/atoms/tables/CompanyTable.jsx:259-284 | Saving an unchanged edit draft is always refused, with "Required" on the three admin fields, because those fields are not in the draft. |
| CompanyTable.MissingFieldRequired | src/components/atoms/tables/CompanyTable.jsx:41-43 | A missing field is reported as "Required". |
| CompanyTable.FetchedRow | src/components/atoms/tables/CompanyTable.jsx:137-146 | A fetched company shows its name, a domain defaulting to "-", and truthy domain, username and password cells. |
| CompanyTable.CreatedRow | src/components/atoms/tables/CompanyTable.jsx:205-214 | A created company shows the returned admin name as username, "-" as domain, and a masked password. |
| CompanyTable.ApplyUpdate | src/components/atoms/tables/CompanyTable.jsx:319-331 | Rows with another id are untouched. The edited row gets the updated name, logo and colour, takes its username from `admin_name`, and keeps every other field. |
| CompanyTable.ApplyUpdateIdempotent | src/components/atoms/tables/CompanyTable.jsx:319-331 | Applying the same update twice gives the same rows as applying it once. |
| CompanyTable.DeleteCompany | src/components/atoms/tables/CompanyTable.jsx:364 | Exactly the companies with another id remain, in order. |
| CompanyTable.MatchesFromSound | src/components/atoms/tables/CompanyTable.jsx:376-384 | On rows whose searched fields are strings or absent, the test never throws and is true exactly when some searched field contains the query, case-insensitively. |
| CompanyTable.FilterRowsSound | src/components/atoms/tables/CompanyTable.jsx:376-384 | On such rows the search keeps, in order, exactly the rows whose name, domain, logo, colour, username or password cell contains the query. |
| CompanyTable.FetchedRowSearchable | src/components/atoms/tables/CompanyTable.jsx:137-146 | A fetched row can be searched without throwing exactly when the server's name, logo and colour are strings or absent, and its domain, username and password are strings or falsy. Those three fall back to "-". |
| CompanyTable.CreatedRowSearchable | src/components/atoms/tables/CompanyTable.jsx:205-214 | A created row can be searched without throwing exactly when the returned name, logo, colour and admin name are strings or absent. |
| CompanyTable.LoadedRowsSearch | src/components/atoms/tables/CompanyTable.jsx:376-384 | On the fetched rows followed by the created ones, with such server fields, the search never throws and keeps, in order, exactly the rows with a searched cell containing the query. |
| CompanyTable.ToggleAllRows | src/components/atoms/tables/CompanyTable.jsx:416-422 | Select-all on the current page selects exactly that page's ids, or clears the selection when it is as large as the page. |
| DepartmentTable.Payload | src/components/atoms/tables/DepartmentTE.jsx:179-185 | The payload carries the name and the company id. Its parent id is null for an empty choice and otherwise a number parsed from the choice, possibly `NaN`. |
| DepartmentTable.HandleAddDepartment | src/components/atoms/tables/DepartmentTE.jsx:168-185 | An empty name stops with the "required" message on the name. A missing token stops. Otherwise the payload is posted. |
| DepartmentTable.ParentIdRoundTrip | src/components/atoms/tables/DepartmentTE.jsx:181-183 | Choosing a parent by the string form of its numeric id posts exactly that id. |
| DepartmentTable.CreatedRow | src/components/atoms/tables/DepartmentTE.jsx:202-211 | A created department's row has four columns. Its Sub-Department is the raw `parent_id` when truthy, else "-". |
| DepartmentTable.FetchedRow | src/components/atoms/tables/DepartmentTE.jsx:259-266 | A fetched department's row has four columns. Its parent name is the server's when truthy, else "-", so it is always truthy. |
| DepartmentTable.FetchedRows | src/components/atoms/tables/DepartmentTE.jsx:259-266 | The fetched list maps department by department, keeping length and order. |
| DepartmentTable.FilterRowsSound | src/components/atoms/tables/DepartmentTE.jsx:137-142 | Whenever the search does not throw, it keeps, in order, exactly the rows whose department or truthy sub-department contains the query. |
| DepartmentTable.EmptySearchKeepsRows | src/components/atoms/tables/DepartmentTE.jsx:137-142 | When every department name is a string, an empty search keeps every row, because `includes("")` is true and short-circuits. |
| DepartmentTable.FetchedRowSearchedByName | src/components/atoms/tables/DepartmentTE.jsx:137-142 | A fetched row with a string name is found exactly when its name contains the query. |
| DepartmentTable.CreatedRowSearchThrows | src/components/atoms/tables/DepartmentTE.jsx:202-211 | A row created with a numeric `parent_id`, searched for a query not in its name, makes the search throw. |
| DepartmentTable.FilterRowsFixedTotal | src/components/atoms/tables/DepartmentTE.jsx:137-142 | When every department column is a string or nullish, the corrected search never throws, whatever the sub-department holds. It agrees with the original wherever the original does not throw. |
| DepartmentTable.View | src/components/atoms/tables/DepartmentTE.jsx:144-159 | The rows shown are the given page of the search result. They throw exactly when the search does. |
| DepartmentTable.AddRow | src/components/atoms/tables/DepartmentTE.jsx:202-212 | A create appends the created row after the unchanged list. |
| DepartmentTable.DeleteRow | src/components/atoms/tables/DepartmentTE.jsx:117-120 | Exactly the rows with another `ID` remain, in order. |
| RolesTable.RulesAgree | src/components/atoms/tables/RolesTE.jsx:27-30 | The role schema accepts a draft exactly when its name is a non-empty string and its description is undefined or any string, the empty string included. |
| RolesTable.HandleUpdateRole | src/components/atoms/tables/RolesTE.jsx:157-182 | Without a role being edited nothing happens. An invalid draft stops with errors on name or description only. A missing token stops. Otherwise a PUT to the role's id carries exactly the draft's name and description. |
| RolesTable.ErrorsOf | src/components/atoms/tables/RolesTE.jsx:192-193 | The field errors name exactly the failing fields among name and description, and at least one of them. |
| RolesTable.NullDescriptionBlocksUpdate | src/components/atoms/tables/RolesTE.jsx:411-417 | Editing a role whose description is null and saving unchanged is refused with an error on the description. |
| RolesTable.HandleAddRole | src/components/atoms/tables/RolesTE.jsx:202-227 | An invalid draft stops. A missing token or a company id that is zero, `NaN` or missing stops. Otherwise the body carries the non-zero numeric company id, the name and the description. |
| RolesTable.AddWithoutCompanyAborts | src/components/atoms/tables/RolesTE.jsx:208-214 | With no stored company id, or an empty one, adding a role always stops before the request. |
| RolesTable.FilterRowsSound | src/components/atoms/tables/RolesTE.jsx:120-125 | Whenever the search does not throw, it keeps, in order, exactly the roles whose name, company or truthy description contains the query. |
| RolesTable.MissingCompanyThrows | src/components/atoms/tables/RolesTE.jsx:120-125 | A role without a company, searched for a query not in its name, makes the search throw. |
| RolesTable.FilterRowsFixedTotal | src/components/atoms/tables/RolesTE.jsx:120-125 | On roles with a string name and a string or absent company and description, the corrected search never throws. It agrees with the original wherever the original does not throw. |
| RolesTable.DeleteRole | src/components/atoms/tables/RolesTE.jsx:274 | Exactly the roles with another id remain, in order, and deleting again changes nothing. |
| UserTable.MapUser | src/components/atoms/tables/UserTE.jsx:97-109 | A fetched user keeps id and email. Company name, role, department and password fall back to a dash or a mask when falsy. The created date is always a string. |
| UserTable.MapResponse | src/components/atoms/tables/UserTE.jsx:97 | A single user and a list are both mapped user by user, in order. |
| UserTable.MapUserSearchable | src/components/atoms/tables/UserTE.jsx:97-109 | A mapped row can be searched without throwing exactly when the API user's email and type are strings or absent, and its company name is a string or falsy. A falsy company name falls back to a dash. |
| UserTable.FetchedUsersSearch | src/components/atoms/tables/UserTE.jsx:205-211 | On the rows mapped from a response whose users have such fields, the search never throws and keeps, in order, exactly the rows it finds. |
| UserTable.HandleAddUser | src/components/atoms/tables/UserTE.jsx:151-166 | A missing name, email or password stops. Otherwise the payload carries the three fields unchanged and the numeric conversions of the company, role and department ids. |
| UserTable.AddUserDefaultIds | src/components/atoms/tables/UserTE.jsx:160-162 | With no stored company and blank role and department choices, all three ids are sent as 0. |
| UserTable.PickedIdsRoundTrip | src/components/atoms/tables/UserTE.jsx:159-162 | When the pickers hold `String(id)` of the chosen role and department, and the session holds `String(companyId)`, the payload carries exactly those three ids as numbers. |
| UserTable.AddCreated | src/components/atoms/tables/UserTE.jsx:179-180 | The created user is appended after the unchanged list. |
| UserTable.HandleEditUser | src/components/atoms/tables/UserTE.jsx:191-199 | A missing required field stops. Otherwise every user with the edited id is replaced by a copy of the draft, and every other user is untouched. |
| UserTable.HandleEditUserIdempotent | src/components/atoms/tables/UserTE.jsx:197-199 | Saving the same edit twice gives the same list as saving it once. |
| UserTable.ToggleActive | src/components/atoms/tables/UserTE.jsx:214-218 | Users with the id get their `active` flag negated and keep every other field. All other users are untouched. |
| UserTable.ToggleActiveTwice | src/components/atoms/tables/UserTE.jsx:214-218 | Toggling the same user twice restores the list, when the flag is a boolean. |
| UserTable.ToggleActiveMissingField | src/components/atoms/tables/UserTE.jsx:216 | A user with no `active` flag gains `active: false` after two toggles, so the round trip does not hold there. |
| UserTable.DeleteUser | src/components/atoms/tables/UserTE.jsx:221-225 | Exactly the users with another id remain, in order. |
| UserTable.MatchesMeaning | src/components/atoms/tables/UserTE.jsx:205-211 | On users whose email, type and company name are strings or absent, the test never throws and is true exactly when company id, email, type or company name contains the query. |
| UserTable.FilterUsersSound | src/components/atoms/tables/UserTE.jsx:205-211 | On such users the search keeps, in order, exactly the matching users. |
| UserTable.CreatedUserMatchesByEmail | src/components/atoms/tables/UserTE.jsx:205-211 | A user appended from the server's raw record has none of the mapped fields but `email`, so the search tests only its email. |
| PagesTable.FilteredSound | src/components/atoms/tables/PagesTE.jsx:83-87 | On pages with string names and urls, the search keeps, in order, exactly the pages whose name or url contains the query. |
| PagesTable.CurrentRecords | src/components/atoms/tables/PagesTE.jsx:90-92 | The records shown throw exactly when the search throws, and are at most ten. |
| PagesTable.SetSearch | src/components/atoms/tables/PagesTE.jsx:172-175 | Typing a query sets it and returns to page 1, leaving the list and the form alone. |
| PagesTable.SetSearchShowsFirstPage | src/components/atoms/tables/PagesTE.jsx:172-175 | After a new query the page number is in range for any result size, and the records shown are the first ten results. |
| PagesTable.Navigate | src/components/atoms/tables/PagesTE.jsx:95-101 | Previous and Next move by the guarded rule against the filtered page count, and throw only when the search throws. |
| PagesTable.NavigateStaysInRange | src/components/atoms/tables/PagesTE.jsx:95-101 | From an in-range page, a click stays in range and above zero. |
| PagesTable.EditClick | src/components/atoms/tables/PagesTE.jsx:261-264 | Editing remembers the page and copies its name and url into the form. |
| PagesTable.MergeEdit | src/components/atoms/tables/PagesTE.jsx:117-121 | Pages with the edited id take the form's fields over their own. All other pages are untouched. |
| PagesTable.SavePage | src/components/atoms/tables/PagesTE.jsx:104-156 | An empty name or url refuses and a missing token redirects, both without changing state. Otherwise an edit is merged locally or the created page is appended, and the form is cleared. |
| PagesTable.SaveTwiceRefused | src/components/atoms/tables/PagesTE.jsx:104-151 | A save right after a successful save is refused, because the form was cleared. |
| PagesTable.SaveUnchangedEdit | src/components/atoms/tables/PagesTE.jsx:117-121 | Opening a page for edit and saving unchanged leaves the list as it was, when the page has a name and url and owns its id. |
| PagesTable.DeletePage | src/components/atoms/tables/PagesTE.jsx:159-163 | Exactly the pages with another id remain, in order. The search, page number and form are unchanged. |
| EmiHistory.YearMonth | src/components/molecules/tabs/TradeLineDialog.jsx:29 | The year read from a date never contains a dash. |
| EmiHistory.YearMonthOfDate | src/components/molecules/tabs/TradeLineDialog.jsx:29 | `YYYY-MM` and `YYYY-MM-DD` dates give back their year and month. |
| EmiHistory.YearMonthWithoutDash | src/components/molecules/tabs/BureauTab.jsx:55 | A date without a dash is all year, with month `undefined`. |
| EmiHistory.Put | src/components/molecules/tabs/TradeLineDialog.jsx:30-31 | Recording a cell adds its year to the grid's years and no other. |
| EmiHistory.GroupFromYears | src/components/molecules/tabs/TradeLineDialog.jsx:27-33 | The grid's years are the initial years plus the years of the cells. |
| EmiHistory.GroupFromLastWins | src/components/molecules/tabs/BureauTab.jsx:54-62 | A grid slot holds the status of the last cell for that year and month, or the initial one if no cell names it. |
| TradeLine.StoredStatus | src/components/molecules/tabs/TradeLineDialog.jsx:31 | The stored status is the item's, or "NR" when it is null or undefined. |
| TradeLine.CellOf | src/components/molecules/tabs/TradeLineDialog.jsx:28-31 | A missing item or falsy date is skipped. A truthy non-string date throws. A string date yields its year, month and stored status. |
| TradeLine.Cells | src/components/molecules/tabs/TradeLineDialog.jsx:26-34 | The history throws exactly when some item throws. Otherwise every cell comes from some item. |
| TradeLine.GroupByYear | src/components/molecules/tabs/TradeLineDialog.jsx:26-34 | Grouping throws exactly when reading a date throws. Otherwise it builds the grid from an empty one. |
| TradeLine.GroupByYearSound | src/components/molecules/tabs/TradeLineDialog.jsx:26-34 | Every year shown has a dated item. Each slot holds the status of the last item for that month. |
| TradeLine.EmptyHistory | src/components/molecules/tabs/TradeLineDialog.jsx:26 | No history gives an empty grid. |
| TradeLine.RenderStatus | src/components/molecules/tabs/TradeLineDialog.jsx:37-51 | "OnTime" and "Y" show the tick. "Late" and "N" show the cross. "Disputed" shows the warning. Anything else shows not-reported. |
| TradeLine.MissingStatusNotReported | src/components/molecules/tabs/TradeLineDialog.jsx:31 | An item with no status is drawn as not reported. |
| TradeLine.Currency | src/components/molecules/tabs/TradeLineDialog.jsx:20-23 | Numbers are formatted. Other truthy values show as they are. Falsy values show an em dash. |
| Bureau.EntryStatus | src/components/molecules/tabs/BureauTab.jsx:57-61 | Paid on time gives "paid". Otherwise a truthy delay gives "late", and anything else "disputed". |
| Bureau.CellOf | src/components/molecules/tabs/BureauTab.jsx:55-61 | A non-string month throws. Otherwise the entry yields the month's year and month and its status. |
| Bureau.Cells | src/components/molecules/tabs/BureauTab.jsx:54-62 | The history throws exactly when some entry throws. Otherwise it yields one cell per entry, in order. |
| Bureau.GroupByYear | src/components/molecules/tabs/BureauTab.jsx:44-65 | Grouping throws exactly when an entry throws. Otherwise it fills the five fixed years, 2021 to 2025, with the entries' cells. |
| Bureau.GroupByYearSound | src/components/molecules/tabs/BureauTab.jsx:44-65 | The five fixed years are always shown, and other years only when an entry has them. Each slot holds the last entry's status. |
| Bureau.EmptyHistory | src/components/molecules/tabs/BureauTab.jsx:45-51 | No history gives the five fixed years, all empty. |
| Bureau.Currency | src/components/molecules/tabs/BureauTab.jsx:34-41 | Truthy values are formatted, and falsy ones show an em dash. |
| Bureau.ZeroAmount | src/components/molecules/tabs/BureauTab.jsx:34-41 | A zero amount is formatted by the trade-line dialog but shown as an em dash by the bureau tab. |
| Bureau.CurrencyViews | src/components/molecules/tabs/BureauTab.jsx:34-41 | For every value: both helpers format a non-zero number and show a falsy non-number as an em dash. On 0 and NaN the dialog formats and the tab shows an em dash. On a truthy non-number the dialog shows the value and the tab formats it. |
| ApprovalTab.Press | src/components/molecules/tabs/ApprovalTab.jsx:117-131 | Approve and reject switch to "final" and hold to "docs". Only approve marks the workflow complete, and nothing unmarks it. |
| ApprovalTab.PressIdempotent | src/components/molecules/tabs/ApprovalTab.jsx:117-131 | Pressing the same button twice is the same as pressing it once. |
| ApprovalTab.RunOutcome | src/components/molecules/tabs/ApprovalTab.jsx:117-131 | After any presses the tab is the last press's target. The workflow is complete exactly when it was already, or approve was pressed. |
| DocumentsTab.AddDocument | src/components/molecules/tabs/DocumentsTab.jsx:19-23 | A blank entry changes nothing. Otherwise the trimmed name is appended as pending and the input is cleared. |
| DocumentsTab.AddedDocumentClean | src/components/molecules/tabs/DocumentsTab.jsx:19-23 | The added name is the trimmed input. A second add right after is refused, because the input is empty. |
| DocumentsTab.Flip | src/components/molecules/tabs/DocumentsTab.jsx:50-51 | "verified" becomes "pending", and every other status becomes "verified". |
| DocumentsTab.Click | src/components/molecules/tabs/DocumentsTab.jsx:46-54 | A click at an index within the extra documents flips that one document's status. A click past them changes nothing. |
| DocumentsTab.ClickTwice | src/components/molecules/tabs/DocumentsTab.jsx:48-52 | Two clicks restore the list when the status was "pending" or "verified". |
| DocumentsTab.ClickTwiceLosesStatus | src/components/molecules/tabs/DocumentsTab.jsx:50-51 | Any other status becomes "pending" after two clicks, so it is lost. |
| BankTab.RoundedMean | src/components/molecules/tabs/BankTab.jsx:20-22 | The rounded average is within half a unit of the exact mean, rounding halves up as `Math.round` does. |
| BankTab.RoundedMeanUnique | src/components/molecules/tabs/BankTab.jsx:20-22 | That rounding bound determines the rounded average uniquely. |
| BankTab.RoundedMeanExact | src/components/molecules/tabs/BankTab.jsx:20-22 | An exact mean is returned unrounded. |
| BankTab.AverageBetween | src/components/molecules/tabs/BankTab.jsx:20-22 | The averaged figure lies between the least and greatest per-account figure, missing figures counting as 0. |
| BankTab.AllRedFlagsAppend | src/components/molecules/tabs/BankTab.jsx:23 | The red flags of two account lists are the flags of each, concatenated in order. |
| BankTab.AllRedFlagsMembers | src/components/molecules/tabs/BankTab.jsx:23 | A flag is listed exactly when some account lists it. |
| BankTab.BankSummary | src/components/molecules/tabs/BankTab.jsx:8-34 | With no accounts the supplied summary is shown. Otherwise each supplied figure wins, and missing ones are computed from the accounts or default to 0. |
| BankTab.BankSummaryStable | src/components/molecules/tabs/BankTab.jsx:25-32 | Feeding the shown summary back in as the supplied one shows the same summary. |
| BankTab.ShownFigures | src/components/molecules/tabs/BankTab.jsx:11-16 | The three figures render exactly when all three are present, each as its formatted amount; a missing one makes `toLocaleString` throw (lines 62, 66, 70). |
| BankTab.WithAccountsRenders | src/components/molecules/tabs/BankTab.jsx:19-34 | With at least one account the summary's three figures are all filled in, so the three summary figures (lines 62, 66, 70) always render. |
| BankTab.NoAccountsMissingFigureThrows | src/components/molecules/tabs/BankTab.jsx:8-16 | Without accounts, a supplied summary that lacks one of the three figures makes the tab throw. |
| BankTab.NoBankDataThrows | src/components/molecules/tabs/BankTab.jsx:7-16 | An applicant with neither accounts nor a summary makes the tab throw, although `?? {}` defaults the summary. |
| BankTab.ShownFiguresGuarded | src/components/molecules/tabs/BankTab.jsx:11-16 | With the helper guarded by `?? 0`, the figures always render, a missing one as zero, and they agree with the unguarded helper wherever it renders. |
| BankTab.ComputedAverageInRange | src/components/molecules/tabs/BankTab.jsx:19-28 | Without a supplied summary, the averages shown lie within the accounts' range. |
| QuestionDocs.FromQuestions | src/components/molecules/tabs/FiTab.jsx:33-39 | Question documents are at most one per question, each attached with a truthy name. |
| QuestionDocs.FromQuestionsIsUploads | src/components/molecules/tabs/PdiTab.jsx:33-39 | They are exactly the uploaded documents of the questions, in order. |
| QuestionDocs.NoUploadsNoEntries | src/components/molecules/tabs/PdiTab.jsx:33-39 | Questions with no upload contribute nothing. |
| FiTab.ReportDocs | src/components/molecules/tabs/FiTab.jsx:41-44 | Listed documents keep only name and status, one per document, in order. |
| FiTab.AllDocuments | src/components/molecules/tabs/FiTab.jsx:31-48 | With no data the list is unchanged. Otherwise it is the listed documents followed by the uploaded ones. |
| FiTab.AllDocumentsOrigin | src/components/molecules/tabs/FiTab.jsx:33-46 | Every document shown is either a listed document or an attached upload with a truthy name. |
| PdiTab.AllDocuments | src/components/molecules/tabs/PdiTab.jsx:31-43 | With no data the list is unchanged. Otherwise it is exactly the uploaded documents, and empty when there are no questions. |
| LoginTab.Title | src/components/molecules/tabs/LoginTab.jsx:21 | The title keeps the key's length. The first underscore becomes a space, and every other character is upper-cased. |
| LoginTab.TitleFirstUnderscore | src/components/molecules/tabs/LoginTab.jsx:21 | `a_b` with no underscore in `a` titles as upper `a`, a space, then upper `b`. Later underscores survive. |
| LoginTab.TitleWithoutUnderscore | src/components/molecules/tabs/LoginTab.jsx:21 | A key without an underscore is just upper-cased. |
| LoginTab.Document | src/components/molecules/tabs/LoginTab.jsx:20-23 | A document entry is its value with a computed title, and a title inside the value wins over it. |
| LoginTab.AllDocuments | src/components/molecules/tabs/LoginTab.jsx:18-26 | With no documents info the list is unchanged. Otherwise there is one document per entry, in entry order. |
| LoginTab.DocumentTitles | src/components/molecules/tabs/LoginTab.jsx:20-23 | Each document has its value's keys plus a title: its own if given, otherwise derived from the key. |
| TenantLogin.Brand | src/app/login/page.jsx:23 | The brand is the first tenant whose id is the slug, or else the first tenant. There is none only when there are no tenants. |
| TenantLogin.BrandOfOwnId | src/app/login/page.jsx:23 | Any tenant's own id selects that tenant when the ids are distinct. |
| TenantLogin.MissingSlugFallsBack | src/app/login/page.jsx:15-23 | A missing slug falls back to the first tenant. |
| TenantLogin.ThemeCode | src/app/login/page.jsx:17-21 | The theme code is stored exactly when the slug is truthy, and it is the slug. |
| TenantLogin.ThemeCodeOfBrand | src/app/login/page.jsx:17-23 | When the slug picks a tenant by id, that tenant is the brand shown, and the theme code is stored exactly when its id is truthy, as that id. |

## Left out

- HTTP requests, JSON decoding, session and local storage, and the router. The token, the stored company id and the server's reply to a create are parameters of the handlers. The effect of a request is the outcome value naming it.
- The refetch after a mutation, loading flags, toasts, dialogs and all JSX rendering. Icons are an enumeration.
- Interleaving of asynchronous handlers and late responses. Each handler runs to completion on the state it is given.
- `Date`, `toLocaleString` and `Intl.NumberFormat`. Date and currency formatting are function parameters. The bank tab's `currency` helper is the parameter `format` applied to a present figure; its TypeError on a missing figure is modelled by `BankTab.ShownFigures` for the three summary figures (lines 62, 66, 70) only.
- The bank tab's per-account figures. Each account's header calls `currency(acc.currentBalance)` (BankTab.jsx:84), and its expanded panel calls `currency` on `currentBalance`, `avgBalance`, `avgInflow` and `avgOutflow` (BankTab.jsx:101-113). Those calls throw on a missing figure, even where the summary averages count it as 0. They are not modelled, and `BankTab.Account` has no `currentBalance` field.
- Floating point. Numbers are integers, so the bank averages are integer means rounded half up, as `Math.round` does on them. Non-integer balances are not represented.
- Unicode case mapping. `toLowerCase` and `toUpperCase` map ASCII letters only.
- zod's email grammar, which is the predicate parameter `isEmail`. Forms with no email field use `NoEmailField`.
- zod checks the forms do not use.
- `Object.entries` order, which is the order of the given sequence of entries.
- JavaScript's sort algorithm. The sort is an insertion sort. Its order agrees only where the comparator is consistent: on a column whose keys are all strings or all numbers. For mixed keys only the permutation is stated.
- Array equality. Arrays compare by contents under `===`, where JavaScript compares identity. Ids in the tables are numbers or strings.
- `DocumentsTab.Click`: the model treats documents as values. The source copies the array shallowly and then assigns `status` on the shared element (DocumentsTab.jsx:48-51), so it also mutates the object held by the previous `extraDocs` state. That aliasing is not modelled.
- String order and string length count code points. JavaScript's `<` compares UTF-16 code units and `.length` counts them, as zod's `min` does. The two differ only for characters outside the Basic Multilingual Plane: the password "😀😀" has length 4 in JavaScript and passes `min(4)`, but has length 2 here and fails.
- `Number` on a string reads integers only: an optional sign and decimal digits, or a `0x` prefix. The forms "1.0", "1e3", `0b101`, `0o7` and "Infinity", which JavaScript reads as numbers, are NaN here. The strings the tables convert are built by `String(id)` or stored ids, which are decimal integers.
- `DocumentsTab`'s `allDocuments` prop, which is built by a parent that is not part of this model. Clicks index the displayed list against `extraDocs`, as written.
- The data tables `DataTE` and `DataCTE`, the role-permission editor, the analysis tab and `risk.js`. They are outside the core modelled here, as are the commented-out code in the core files.
- The role table keeps only the server's list. `handleAddRole` posts and then refetches; it never appends a local record. The add form and its request carry `company_id` from the session, not `company`, so a role's `company` is whatever the server sends.
- The department table's sort, which never runs because its sort configuration is never changed. `DepartmentTable.View` does not sort.

## Findings

| source | as written | input that shows it | evidently intended | confidence | as-written member | corrected member |
|---|---|---|---|---|---|---|
| src/components/atoms/tables/DepartmentTE.jsx:465-481 | Next is disabled only when `currentPage === totalPages`. Previous is disabled only when `currentPage === 1`. | A search with no results gives 0 pages on page 1. Next is enabled and moves to page 2, then 3, all empty and out of range. | Disable by `currentPage >= totalPages`, as the pages table does, so the page stays in range. | not executed; high | Paging.EqualityEscapesEmptyTable | Paging.GuardedStaysInRange |
| src/components/atoms/tables/DepartmentTE.jsx:137-142 | The search calls `toLowerCase` on `Sub-Department`, which the create handler fills with the raw numeric `parent_id` (lines 202-211). | Create `{id: 7, name: "Ops", parent_id: 5}`, then search "x". `(5).toLowerCase` throws and the table cannot render. | Search the sub-department's string form, or store the parent's name as the fetch does. | not executed; medium | DepartmentTable.CreatedRowSearchThrows | DepartmentTable.FilterRowsFixedTotal |
| src/components/molecules/tabs/BankTab.jsx:8-16 | The summary defaults to `{}` when absent, and is kept as it is when there are no accounts. `currency(n)` then calls `n.toLocaleString` on each figure (lines 62, 66, 70) without a guard. | An applicant with no `bankAccounts` and no `bankSummary`. `undefined.toLocaleString` throws and the tab cannot render. | Guard the helper, e.g. `(n ?? 0).toLocaleString(...)`, so that the `{}` default renders. | not executed; medium | BankTab.NoBankDataThrows | BankTab.ShownFiguresGuarded |
| src/components/atoms/tables/RolesTE.jsx:120-125 | The search calls `role.company.toLowerCase()` without a guard. Roles are stored as the server sends them (108-110), and the live form and request carry `company_id` from the session, not `company` (208-226, 304). | Roles `[{id: 1, name: "Admin"}]`, search "x". `undefined.toLowerCase` throws. | Guard the company field with `?.`, as the user table guards its searched fields (UserTE.jsx:207-210). | not executed; medium | RolesTable.MissingCompanyThrows | RolesTable.FilterRowsFixedTotal |

=== FILE: approval_tab.dfy ===
/**
 * The approval tab's three buttons. Each one moves the loan workflow to a
 * tab; only Approve also marks the workflow complete.
 */
module ApprovalTab {

  datatype Action = Approve | Reject | Hold

  /** The two pieces of parent state the buttons write. */
  datatype Workflow = Workflow(activeTab: string, complete: bool)

  /** The tab each button opens. */
  function TabOf(a: Action): string {
    match a
    case Approve => "final"
    case Reject => "final"
    case Hold => "docs"
  }

  /**
   * `handleApprove`, `handleReject`, `handleHold`: the tab is the button's
   * tab; completion becomes true on Approve and is otherwise kept.
   */
  function Press(w: Workflow, a: Action): (r: Workflow)
    ensures r.activeTab == TabOf(a)
    ensures r.complete <==> w.complete || a == Approve
  {
    match a
    case Approve => Workflow("final", true)
    case Reject => w.(activeTab := "final")
    case Hold => w.(activeTab := "docs")
  }

  /** Pressing the same button twice is pressing it once. */
  lemma PressIdempotent(w: Workflow, a: Action)
    ensures Press(Press(w, a), a) == Press(w, a)
  {
  }

  /** The buttons pressed one after another. */
  function Run(w: Workflow, presses: seq<Action>): Workflow
    decreases |presses|
  {
    if presses == [] then w else Run(Press(w, presses[0]), presses[1..])
  }

  /**
   * After any presses the tab is the last button's tab, and the workflow is
   * complete iff it was already or Approve was pressed at some point: no
   * button ever clears completion.
   */
  lemma {:induction false} RunOutcome(w: Workflow, presses: seq<Action>)
    ensures presses != [] ==> Run(w, presses).activeTab == TabOf(presses[|presses| - 1])
    ensures presses == [] ==> Run(w, presses) == w
    ensures Run(w, presses).complete <==> w.complete || Approve in presses
    decreases |presses|
  {
    if presses != [] {
      var rest := presses[1..];
      RunOutcome(Press(w, presses[0]), rest);
      assert presses == [presses[0]] + rest;
      assert Approve in presses <==> presses[0] == Approve || Approve in rest;
    }
  }
}

=== FILE: bank_tab.dfy ===
/**
 * The bank tab's summary: when the applicant has bank accounts, the average
 * balance, inflow and outflow are averaged over the accounts and rounded,
 * the red flags of all accounts are concatenated, and any field the
 * applicant's own summary already has takes precedence.
 */
module BankTab {
  import opened Wrappers
  import opened Seqs
  import JsValue

  /** One bank account; `None` is a field that is null or absent. */
  datatype Account = Account(
    avgBalance: Option<int>,
    avgInflow: Option<int>,
    avgOutflow: Option<int>,
    redFlags: Option<seq<string>>)

  /** The summary object; `None` is a field that is null or absent. */
  datatype Summary = Summary(
    avgBalance: Option<int>,
    avgInflow: Option<int>,
    avgOutflow: Option<int>,
    redFlags: Option<seq<string>>,
    chequesReturned: Option<int>,
    creditTurnover: Option<int>,
    debitTurnover: Option<int>)

  /** `{}`. */
  const NoSummary := Summary(None, None, None, None, None, None, None)

  /** The three averaged figures. */
  datatype Metric = Balance | Inflow | Outflow

  /** `a.<metric> ?? 0`. */
  function Amount(a: Account, m: Metric): int {
    match m
    case Balance => a.avgBalance.GetOr(0)
    case Inflow => a.avgInflow.GetOr(0)
    case Outflow => a.avgOutflow.GetOr(0)
  }

  /** `accounts.reduce((s, a) => s + (a.<metric> ?? 0), 0)`. */
  function Total(accounts: seq<Account>, m: Metric): int
    decreases |accounts|
  {
    if accounts == [] then 0 else Total(accounts[..|accounts| - 1], m) + Amount(accounts[|accounts| - 1], m)
  }

  /**
   * `Math.round(sum / n)` for a positive count: the nearest integer, halves
   * rounded up. The result is within half a unit of the exact mean.
   */
  function RoundedMean(sum: int, n: int): (r: int)
    requires n > 0
    ensures 2 * sum - n < 2 * n * r <= 2 * sum + n
  {
    (2 * sum + n) / (2 * n)
  }

  /** Only one integer is within half a unit of the mean, halves going up. */
  lemma RoundedMeanUnique(sum: int, n: int, x: int)
    requires n > 0 && 2 * sum - n < 2 * n * x <= 2 * sum + n
    ensures x == RoundedMean(sum, n)
  {
    var r := RoundedMean(sum, n);
    if x < r {
      MulMonotone(2 * n, x, r - 1);
      assert false;
    } else if x > r {
      MulMonotone(2 * n, r, x - 1);
      assert false;
    }
  }

  lemma MulMonotone(c: int, a: int, b: int)
    requires c > 0 && a <= b
    ensures c * a <= c * b
  {
  }

  /** An exact mean is kept as it is. */
  lemma RoundedMeanExact(q: int, n: int)
    requires n > 0
    ensures RoundedMean(q * n, n) == q
  {
    RoundedMeanUnique(q * n, n, q);
  }

  /** The rounded mean lies between any lower and upper bound of the values. */
  lemma RoundedMeanBetween(sum: int, n: int, lo: int, hi: int)
    requires n > 0 && n * lo <= sum <= n * hi
    ensures lo <= RoundedMean(sum, n) <= hi
  {
    var r := RoundedMean(sum, n);
    if r > hi {
      MulMonotone(2 * n, hi + 1, r);
      assert false;
    }
    if r < lo {
      MulMonotone(2 * n, r, lo - 1);
      assert false;
    }
  }

  /** `Math.round(total / accounts.length) || 0`. */
  function Average(accounts: seq<Account>, m: Metric): int
    requires accounts != []
  {
    RoundedMean(Total(accounts, m), |accounts|)
  }

  /** When every account's figure (missing ones as 0) lies in [lo, hi], so does the total divided out. */
  lemma {:induction false} TotalBetween(accounts: seq<Account>, m: Metric, lo: int, hi: int)
    requires forall i :: 0 <= i < |accounts| ==> lo <= Amount(accounts[i], m) <= hi
    ensures |accounts| * lo <= Total(accounts, m) <= |accounts| * hi
    decreases |accounts|
  {
    if accounts != [] {
      var n := |accounts|;
      var init := accounts[..n - 1];
      assert forall i :: 0 <= i < |init| ==> init[i] == accounts[i];
      TotalBetween(init, m, lo, hi);
      BoundsStep(n, Total(init, m), Amount(accounts[n - 1], m), lo, hi);
    }
  }

  /** Adding one more figure in [lo, hi] to a total of n - 1 such figures. */
  lemma BoundsStep(n: int, t: int, x: int, lo: int, hi: int)
    requires (n - 1) * lo <= t <= (n - 1) * hi && lo <= x <= hi
    ensures n * lo <= t + x <= n * hi
  {
    assert n * lo == (n - 1) * lo + lo && n * hi == (n - 1) * hi + hi;
  }

  /**
   * The average of the accounts' figures is within the range of those
   * figures; with every account missing the figure, it is 0.
   */
  lemma AverageBetween(accounts: seq<Account>, m: Metric, lo: int, hi: int)
    requires accounts != []
    requires forall i :: 0 <= i < |accounts| ==> lo <= Amount(accounts[i], m) <= hi
    ensures lo <= Average(accounts, m) <= hi
  {
    TotalBetween(accounts, m, lo, hi);
    RoundedMeanBetween(Total(accounts, m), |accounts|, lo, hi);
  }

  /** `accounts.flatMap(a => a.redFlags ?? [])`. */
  function AllRedFlags(accounts: seq<Account>): (r: seq<string>)
    decreases |accounts|
  {
    if accounts == [] then [] else accounts[0].redFlags.GetOr([]) + AllRedFlags(accounts[1..])
  }

  /**
   * The flags of a list of accounts are those of the first part followed by
   * those of the second: account order is kept and nothing is dropped.
   */
  lemma {:induction false} AllRedFlagsAppend(xs: seq<Account>, ys: seq<Account>)
    ensures AllRedFlags(xs + ys) == AllRedFlags(xs) + AllRedFlags(ys)
    decreases |xs|
  {
    if xs != [] {
      AllRedFlagsAppend(xs[1..], ys);
      assert (xs + ys)[1..] == xs[1..] + ys;
    } else {
      assert xs + ys == ys;
    }
  }

  /** Every flag comes from some account, and every account's flags are all there. */
  lemma {:induction false} AllRedFlagsMembers(accounts: seq<Account>, f: string)
    ensures f in AllRedFlags(accounts) <==>
      exists i :: 0 <= i < |accounts| && f in accounts[i].redFlags.GetOr([])
    decreases |accounts|
  {
    if accounts != [] {
      AllRedFlagsMembers(accounts[1..], f);
      if f in AllRedFlags(accounts[1..]) {
        var j :| 0 <= j < |accounts[1..]| && f in accounts[1..][j].redFlags.GetOr([]);
        assert f in accounts[j + 1].redFlags.GetOr([]);
      }
      if exists i :: 0 <= i < |accounts| && f in accounts[i].redFlags.GetOr([]) {
        var i :| 0 <= i < |accounts| && f in accounts[i].redFlags.GetOr([]);
        if i > 0 {
          assert f in accounts[1..][i - 1].redFlags.GetOr([]);
        }
      }
    }
  }

  /** `supplied ?? computed`. */
  function Prefer<T>(supplied: Option<T>, computed: T): T {
    supplied.GetOr(computed)
  }

  /**
   * The summary the tab shows. Without accounts (or with the list missing)
   * it is the applicant's summary, or empty. With accounts every field is
   * present: a field the applicant's summary has is kept, the three
   * averages and the flags are otherwise computed, and the three counters
   * default to 0.
   */
  function BankSummary(bankAccounts: Option<seq<Account>>, bankSummary: Option<Summary>): (r: Summary)
    ensures bankAccounts.GetOr([]) == [] ==> r == bankSummary.GetOr(NoSummary)
    ensures bankAccounts.GetOr([]) != [] ==>
      && r.avgBalance.Some? && r.avgInflow.Some? && r.avgOutflow.Some? && r.redFlags.Some?
      && r.chequesReturned.Some? && r.creditTurnover.Some? && r.debitTurnover.Some?
    ensures bankAccounts.GetOr([]) != [] ==> forall m: Metric ::
      SummaryAmount(r, m) == Some(SummaryAmount(bankSummary.GetOr(NoSummary), m).GetOr(Average(bankAccounts.value, m)))
    ensures bankAccounts.GetOr([]) != [] ==>
      r.redFlags.value == bankSummary.GetOr(NoSummary).redFlags.GetOr(AllRedFlags(bankAccounts.value))
    ensures bankAccounts.GetOr([]) != [] && bankSummary.GetOr(NoSummary).chequesReturned.None? ==> r.chequesReturned == Some(0)
    ensures bankAccounts.GetOr([]) != [] && bankSummary.GetOr(NoSummary).creditTurnover.None? ==> r.creditTurnover == Some(0)
    ensures bankAccounts.GetOr([]) != [] && bankSummary.GetOr(NoSummary).debitTurnover.None? ==> r.debitTurnover == Some(0)
  {
    var accounts := bankAccounts.GetOr([]);
    var given := bankSummary.GetOr(NoSummary);
    if accounts == [] then given
    else Summary(
      Some(Prefer(given.avgBalance, Average(accounts, Balance))),
      Some(Prefer(given.avgInflow, Average(accounts, Inflow))),
      Some(Prefer(given.avgOutflow, Average(accounts, Outflow))),
      Some(Prefer(given.redFlags, AllRedFlags(accounts))),
      Some(Prefer(given.chequesReturned, 0)),
      Some(Prefer(given.creditTurnover, 0)),
      Some(Prefer(given.debitTurnover, 0)))
  }

  /** A summary's averaged figure, by metric. */
  function SummaryAmount(s: Summary, m: Metric): Option<int> {
    match m
    case Balance => s.avgBalance
    case Inflow => s.avgInflow
    case Outflow => s.avgOutflow
  }

  /**
   * Recomputing from a summary the tab produced changes nothing: every
   * field is present, so the supplied values win.
   */
  lemma BankSummaryStable(bankAccounts: Option<seq<Account>>, bankSummary: Option<Summary>)
    ensures var r := BankSummary(bankAccounts, bankSummary);
      BankSummary(bankAccounts, Some(r)) == r
  {
  }

  /**
   * Without a supplied summary the shown averages stay within the range of
   * the accounts' figures, missing figures counting as 0.
   */
  lemma ComputedAverageInRange(accounts: seq<Account>, m: Metric, lo: int, hi: int)
    requires accounts != []
    requires forall i :: 0 <= i < |accounts| ==> lo <= Amount(accounts[i], m) <= hi
    ensures lo <= SummaryAmount(BankSummary(Some(accounts), None), m).value <= hi
  {
    AverageBetween(accounts, m, lo, hi);
  }

  /** The position of a metric's figure in the rendered row: balance, inflow, outflow. */
  function MetricIndex(m: Metric): (i: nat)
    ensures i < 3
  {
    match m
    case Balance => 0
    case Inflow => 1
    case Outflow => 2
  }

  /**
   * The summary card's three figures, balance, inflow and outflow, as the tab
   * renders them; the per-account figures are not modelled. `currency(n)` calls
   * `n.toLocaleString(...)`, which throws a TypeError when the figure is
   * `undefined` or `null`; `format` stands for `toLocaleString` on a number.
   */
  function ShownFigures(s: Summary, format: int -> string): (r: JsValue.Completion<seq<string>>)
    ensures r.Throw? <==> exists m: Metric :: SummaryAmount(s, m).None?
    ensures r.Normal? ==> |r.value| == 3
    ensures r.Normal? ==> forall m: Metric :: r.value[MetricIndex(m)] == format(SummaryAmount(s, m).value)
  {
    if s.avgBalance.None? || s.avgInflow.None? || s.avgOutflow.None? then
      assert SummaryAmount(s, Balance).None? || SummaryAmount(s, Inflow).None? || SummaryAmount(s, Outflow).None?;
      JsValue.Throw
    else
      JsValue.Normal([format(s.avgBalance.value), format(s.avgInflow.value), format(s.avgOutflow.value)])
  }

  /**
   * With at least one account the summary's three figures are all filled in,
   * so the summary card's figures always render. The per-account figures are
   * a separate matter, outside this model.
   */
  lemma WithAccountsRenders(accounts: seq<Account>, bankSummary: Option<Summary>, format: int -> string)
    requires accounts != []
    ensures ShownFigures(BankSummary(Some(accounts), bankSummary), format).Normal?
  {
    var r := BankSummary(Some(accounts), bankSummary);
    assert r.avgBalance.Some? && r.avgInflow.Some? && r.avgOutflow.Some?;
    assert forall m: Metric :: SummaryAmount(r, m).Some?;
  }

  /**
   * Without accounts the supplied summary is shown as it is, so one missing
   * figure, or a missing summary (`{}`), makes the tab throw.
   */
  lemma NoAccountsMissingFigureThrows(bankAccounts: Option<seq<Account>>, bankSummary: Option<Summary>,
                                      m: Metric, format: int -> string)
    requires bankAccounts.GetOr([]) == []
    requires SummaryAmount(bankSummary.GetOr(NoSummary), m).None?
    ensures ShownFigures(BankSummary(bankAccounts, bankSummary), format).Throw?
  {
    assert BankSummary(bankAccounts, bankSummary) == bankSummary.GetOr(NoSummary);
  }

  /** An applicant with no bank data at all: neither accounts nor a summary. */
  lemma NoBankDataThrows(format: int -> string)
    ensures ShownFigures(BankSummary(None, None), format).Throw?
  {
    NoAccountsMissingFigureThrows(None, None, Balance, format);
  }

  /**
   * The figures with the helper guarded, `currency(n ?? 0)`: a missing figure
   * shows as zero, the tab always renders, and where every figure is present
   * it shows what the unguarded helper shows.
   */
  function ShownFiguresGuarded(s: Summary, format: int -> string): (r: seq<string>)
    ensures |r| == 3
    ensures forall m: Metric :: r[MetricIndex(m)] == format(SummaryAmount(s, m).GetOr(0))
    ensures ShownFigures(s, format).Normal? ==> r == ShownFigures(s, format).value
  {
    var r := [format(s.avgBalance.GetOr(0)), format(s.avgInflow.GetOr(0)), format(s.avgOutflow.GetOr(0))];
    r
  }
}

=== FILE: company_table.dfy ===
/**
 * The company table: the six-field company schema and the error object built
 * from its issues, the add and update guards, the rows built from the API,
 * the update and delete list edits, the six-field search and row selection.
 * Email syntax is a caller-supplied predicate.
 */
module CompanyTable {
  import opened JsValue
  import opened JsObject
  import opened Text
  import opened Seqs
  import opened Schema
  import opened Search
  import opened EntityList
  import opened Selection

  // ---------------------------------------------------------------------------
  // The schema
  // ---------------------------------------------------------------------------

  /** `companySchema`. */
  const Rules: seq<FieldRule> := [
    FieldRule("companyName", false, MinLength(1, "Company Name is required")),
    FieldRule("logoUrl", false, MinLength(1, "Logo URL is required")),
    FieldRule("themeColor", false, MinLength(1, "Theme Color is required")),
    FieldRule("adminName", false, MinLength(1, "Admin Name is required")),
    FieldRule("adminEmail", false, EmailCheck("Valid email required")),
    FieldRule("adminPassword", false, MinLength(4, "Password must be at least 4 characters"))
  ]

  /** A non-empty string field. */
  predicate Filled(draft: Obj, key: string) {
    Get(draft, key).Str? && Get(draft, key).s != ""
  }

  /** The draft satisfies `companySchema`, field by field. */
  predicate DraftValid(draft: Obj, isEmail: string -> bool) {
    && Filled(draft, "companyName")
    && Filled(draft, "logoUrl")
    && Filled(draft, "themeColor")
    && Filled(draft, "adminName")
    && Get(draft, "adminEmail").Str? && isEmail(Get(draft, "adminEmail").s)
    && Get(draft, "adminPassword").Str? && |Get(draft, "adminPassword").s| >= 4
  }

  /** `companySchema.safeParse(draft).success` exactly when the six conditions hold. */
  lemma SchemaAccepts(draft: Obj, isEmail: string -> bool)
    ensures Passes(Rules, draft, isEmail) <==> DraftValid(draft, isEmail)
  {
    RuleMeanings(draft, isEmail);
    if DraftValid(draft, isEmail) {
      forall i | 0 <= i < |Rules| ensures FieldValid(Rules[i], Get(draft, Rules[i].key), isEmail) {
        assert i in {0, 1, 2, 3, 4, 5};
      }
    }
  }

  /** Each rule of the schema, read as a condition on the draft. */
  lemma RuleMeanings(draft: Obj, isEmail: string -> bool)
    ensures |Rules| == 6
    ensures FieldValid(Rules[0], Get(draft, Rules[0].key), isEmail) <==> Filled(draft, "companyName")
    ensures FieldValid(Rules[1], Get(draft, Rules[1].key), isEmail) <==> Filled(draft, "logoUrl")
    ensures FieldValid(Rules[2], Get(draft, Rules[2].key), isEmail) <==> Filled(draft, "themeColor")
    ensures FieldValid(Rules[3], Get(draft, Rules[3].key), isEmail) <==> Filled(draft, "adminName")
    ensures FieldValid(Rules[4], Get(draft, Rules[4].key), isEmail) <==>
      Get(draft, "adminEmail").Str? && isEmail(Get(draft, "adminEmail").s)
    ensures FieldValid(Rules[5], Get(draft, Rules[5].key), isEmail) <==>
      Get(draft, "adminPassword").Str? && |Get(draft, "adminPassword").s| >= 4
  {
  }

  lemma RulesDistinct()
    ensures DistinctKeys(Rules)
  {
  }

  /** `issues.forEach(err => errors[err.path[0]] = err.message)` for a draft. */
  function Errors(draft: Obj, isEmail: string -> bool): map<string, string> {
    ErrorMap(Issues(Rules, draft, isEmail))
  }

  /**
   * Every failing field has an entry in the error object, every passing field
   * has none, and the entry is that field's message: "Required" when the
   * field is missing, zod's type message for another non-string, else the
   * rule's own message.
   */
  lemma ErrorsPerField(draft: Obj, isEmail: string -> bool, i: nat)
    requires i < |Rules|
    ensures Rules[i].key in Errors(draft, isEmail) <==> !FieldValid(Rules[i], Get(draft, Rules[i].key), isEmail)
    ensures Rules[i].key in Errors(draft, isEmail) ==>
      Errors(draft, isEmail)[Rules[i].key] ==
        if Get(draft, Rules[i].key).Str? then CheckMessage(Rules[i].check) else TypeMessage(Get(draft, Rules[i].key))
  {
    RulesDistinct();
    ErrorMapOfIssues(Rules, draft, isEmail, i);
  }

  // ---------------------------------------------------------------------------
  // Add and update
  // ---------------------------------------------------------------------------

  datatype Outcome =
    | Invalid(errors: map<string, string>)
    | MissingToken
    | Post(body: Obj)
    | Put(id: Value, body: Obj)

  /** The request body shared by add and update, before the password rule. */
  function RequestBody(draft: Obj, password: Value): Obj {
    map[
      "name" := Get(draft, "companyName"),
      "logo_url" := Get(draft, "logoUrl"),
      "theme_color" := Get(draft, "themeColor"),
      "admin_name" := Get(draft, "adminName"),
      "admin_email" := Get(draft, "adminEmail"),
      "admin_password" := password]
  }

  /**
   * `handleAddCompany`: a failed parse sets the error object and returns;
   * then the token is checked; only then is the company posted.
   */
  function HandleAddCompany(draft: Obj, token: Value, isEmail: string -> bool): (r: Outcome)
    ensures r.Invalid? <==> !DraftValid(draft, isEmail)
    ensures r.Invalid? ==> r.errors == Errors(draft, isEmail) && r.errors != map[]
    ensures r.MissingToken? <==> DraftValid(draft, isEmail) && !Truthy(token)
    ensures !r.Put?
    ensures r.Post? ==> r.body == RequestBody(draft, Get(draft, "adminPassword"))
  {
    SchemaAccepts(draft, isEmail);
    if !Passes(Rules, draft, isEmail) then
      NonEmptyErrors(draft, isEmail);
      Invalid(Errors(draft, isEmail))
    else if !Truthy(token) then MissingToken
    else Post(RequestBody(draft, Get(draft, "adminPassword")))
  }

  lemma NonEmptyErrors(draft: Obj, isEmail: string -> bool)
    requires !Passes(Rules, draft, isEmail)
    ensures Errors(draft, isEmail) != map[]
  {
    var i :| 0 <= i < |Rules| && !FieldValid(Rules[i], Get(draft, Rules[i].key), isEmail);
    ErrorsPerField(draft, isEmail, i);
  }

  /**
   * `handleUpdateCompany`: the same guards, then a PUT to the company being
   * edited, `editId`. The password is sent as `adminPassword || undefined`,
   * which a draft that passed the schema never turns into `undefined`.
   */
  function HandleUpdateCompany(draft: Obj, editId: Value, token: Value, isEmail: string -> bool): (r: Outcome)
    ensures r.Invalid? <==> !DraftValid(draft, isEmail)
    ensures r.Invalid? ==> r.errors == Errors(draft, isEmail)
    ensures r.MissingToken? <==> DraftValid(draft, isEmail) && !Truthy(token)
    ensures !r.Post?
    ensures r.Put? ==> r.id == editId && r.body == RequestBody(draft, Get(draft, "adminPassword"))
  {
    SchemaAccepts(draft, isEmail);
    if !Passes(Rules, draft, isEmail) then Invalid(Errors(draft, isEmail))
    else if !Truthy(token) then MissingToken
    else
      assert Truthy(Get(draft, "adminPassword"));
      Put(editId, RequestBody(draft, Or(Get(draft, "adminPassword"), Undefined)))
  }

  /** `handleEditClick` loads only the name, logo and colour of the company. */
  function EditDraft(data: Obj): (d: Obj)
    ensures d.Keys == {"companyName", "logoUrl", "themeColor"}
  {
    map["companyName" := Get(data, "name"), "logoUrl" := Get(data, "logo_url"), "themeColor" := Get(data, "theme_color")]
  }

  /**
   * Saving the loaded edit draft unchanged always fails: the three admin
   * fields are missing and each is reported as "Required".
   */
  lemma EditDraftBlocked(data: Obj, editId: Value, token: Value, isEmail: string -> bool)
    ensures HandleUpdateCompany(EditDraft(data), editId, token, isEmail).Invalid?
    ensures var e := HandleUpdateCompany(EditDraft(data), editId, token, isEmail).errors;
      && "adminName" in e && e["adminName"] == "Required"
      && "adminEmail" in e && e["adminEmail"] == "Required"
      && "adminPassword" in e && e["adminPassword"] == "Required"
  {
    var d := EditDraft(data);
    assert "adminName" !in d && "adminEmail" !in d && "adminPassword" !in d;
    assert !Filled(d, "adminName");
    assert HandleUpdateCompany(d, editId, token, isEmail) == Invalid(Errors(d, isEmail));
    RuleKeys();
    MissingFieldRequired(d, isEmail, 3);
    MissingFieldRequired(d, isEmail, 4);
    MissingFieldRequired(d, isEmail, 5);
  }

  lemma RuleKeys()
    ensures |Rules| == 6
    ensures Rules[3].key == "adminName" && Rules[4].key == "adminEmail" && Rules[5].key == "adminPassword"
  {
  }

  /** A required field missing from the draft is reported as "Required". */
  lemma MissingFieldRequired(draft: Obj, isEmail: string -> bool, i: nat)
    requires i < |Rules| && Rules[i].key !in draft
    ensures Rules[i].key in Errors(draft, isEmail) && Errors(draft, isEmail)[Rules[i].key] == "Required"
  {
    assert Get(draft, Rules[i].key) == Undefined;
    assert !Rules[i].optional;
    ErrorsPerField(draft, isEmail, i);
  }

  // ---------------------------------------------------------------------------
  // Rows
  // ---------------------------------------------------------------------------

  const Bullets := "\U{2022}\U{2022}\U{2022}\U{2022}\U{2022}\U{2022}"

  /** A company of the list response as a row. */
  function FetchedRow(item: Obj): (row: Obj)
    ensures Get(row, "companyName") == Get(item, "name")
    ensures Get(row, "domain") == Or(Get(item, "domain"), Str("-"))
    ensures Truthy(Get(row, "domain")) && Truthy(Get(row, "username")) && Truthy(Get(row, "password"))
  {
    map[
      "id" := Get(item, "id"),
      "companyName" := Get(item, "name"),
      "logoUrl" := Get(item, "logo_url"),
      "themeColor" := Get(item, "theme_color"),
      "created_at" := Get(item, "created_at"),
      "domain" := Or(Get(item, "domain"), Str("-")),
      "username" := Or(Get(item, "username"), Str("-")),
      "password" := Or(Get(item, "password"), Str("-"))]
  }

  /** The row appended after a successful add; the password is masked. */
  function CreatedRow(created: Obj): (row: Obj)
    ensures Get(row, "username") == Get(created, "admin_name")
    ensures Get(row, "domain") == Str("-") && Get(row, "password") == Str(Bullets)
  {
    map[
      "id" := Get(created, "id"),
      "companyName" := Get(created, "name"),
      "logoUrl" := Get(created, "logo_url"),
      "themeColor" := Get(created, "theme_color"),
      "created_at" := Get(created, "created_at"),
      "domain" := Str("-"),
      "username" := Get(created, "admin_name"),
      "password" := Str(Bullets)]
  }

  /** The four fields a successful update rewrites. */
  function UpdatedFields(updated: Obj): Obj {
    map[
      "companyName" := Get(updated, "name"),
      "logoUrl" := Get(updated, "logo_url"),
      "themeColor" := Get(updated, "theme_color"),
      "username" := Get(updated, "admin_name")]
  }

  /** `prev.map(c => c.id === editCompanyId ? {...c, ...fields} : c)`. */
  function ApplyUpdate(rows: seq<Obj>, editId: Value, updated: Obj): (r: seq<Obj>)
    ensures |r| == |rows|
    ensures forall k :: 0 <= k < |rows| && !HasId(rows[k], editId) ==> r[k] == rows[k]
    ensures forall k :: 0 <= k < |rows| && HasId(rows[k], editId) ==>
      && Get(r[k], "companyName") == Get(updated, "name")
      && Get(r[k], "logoUrl") == Get(updated, "logo_url")
      && Get(r[k], "themeColor") == Get(updated, "theme_color")
      && Get(r[k], "username") == Get(updated, "admin_name")
      && (forall key :: key !in UpdatedFields(updated) ==> Get(r[k], key) == Get(rows[k], key))
  {
    MapWhere(rows, c => HasId(c, editId), c => Spread(c, UpdatedFields(updated)))
  }

  /** Applying the same update twice is applying it once. */
  lemma ApplyUpdateIdempotent(rows: seq<Obj>, editId: Value, updated: Obj)
    ensures ApplyUpdate(ApplyUpdate(rows, editId, updated), editId, updated) == ApplyUpdate(rows, editId, updated)
  {
    var fields := UpdatedFields(updated);
    forall k | 0 <= k < |rows| && HasId(rows[k], editId)
      ensures HasId(Spread(rows[k], fields), editId) && Spread(Spread(rows[k], fields), fields) == Spread(rows[k], fields)
    {
      SpreadTwice(rows[k], fields);
    }
    MapWhereIdempotent(rows, c => HasId(c, editId), c => Spread(c, fields));
  }

  lemma SpreadTwice(row: Obj, fields: Obj)
    ensures Spread(Spread(row, fields), fields) == Spread(row, fields)
    ensures "id" !in fields ==> Get(Spread(row, fields), "id") == Get(row, "id")
  {
  }

  /** `prev.filter(company => company.id !== id)`. */
  function DeleteCompany(rows: seq<Obj>, id: Value): (r: seq<Obj>)
    ensures forall o :: o in r <==> o in rows && !HasId(o, id)
    ensures Subseq(r, rows)
  {
    RemoveByIdKeeps(rows, id);
    RemoveById(rows, id)
  }

  // ---------------------------------------------------------------------------
  // Search and selection
  // ---------------------------------------------------------------------------

  /** The fields the search box looks at, in the order it tries them. */
  const SearchKeys: seq<string> := ["companyName", "domain", "logoUrl", "themeColor", "username", "password"]

  /** `item.k1?.toLowerCase().includes(q) || … || item.k6?.toLowerCase().includes(q)`. */
  function MatchesFrom(row: Obj, keys: seq<string>, search: string): Completion<bool>
    decreases |keys|
  {
    if keys == [] then Normal(false)
    else OrElse(OptLowerIncludes(Get(row, keys[0]), search), MatchesFrom(row, keys[1..], search))
  }

  /** Each field is a string or absent. */
  predicate Searchable(row: Obj, keys: seq<string>) {
    forall k :: 0 <= k < |keys| ==> Get(row, keys[k]).Str? || Nullish(Get(row, keys[k]))
  }

  /** Some field is a string containing the query. */
  predicate SomeFieldContains(row: Obj, keys: seq<string>, search: string) {
    exists k :: 0 <= k < |keys| && Get(row, keys[k]).Str? && IncludesFolded(Get(row, keys[k]).s, search)
  }

  /**
   * On a row whose fields are strings or absent the chain never throws, and
   * it accepts the row exactly when one of the fields contains the query.
   */
  lemma {:induction false} MatchesFromSound(row: Obj, keys: seq<string>, search: string)
    requires Searchable(row, keys)
    ensures MatchesFrom(row, keys, search) == Normal(SomeFieldContains(row, keys, search))
    decreases |keys|
  {
    if keys != [] {
      assert Searchable(row, keys[1..]) by {
        forall k | 0 <= k < |keys[1..]| ensures Get(row, keys[1..][k]).Str? || Nullish(Get(row, keys[1..][k])) {
          assert keys[1..][k] == keys[k + 1];
        }
      }
      MatchesFromSound(row, keys[1..], search);
      if SomeFieldContains(row, keys[1..], search) {
        var k :| 0 <= k < |keys[1..]| && Get(row, keys[1..][k]).Str? && IncludesFolded(Get(row, keys[1..][k]).s, search);
        assert keys[1..][k] == keys[k + 1];
      }
      if SomeFieldContains(row, keys, search) {
        var k :| 0 <= k < |keys| && Get(row, keys[k]).Str? && IncludesFolded(Get(row, keys[k]).s, search);
        if k > 0 {
          assert keys[k] == keys[1..][k - 1];
        }
      }
    }
  }

  function FilterRows(rows: seq<Obj>, search: string): Completion<seq<Obj>> {
    FilterOn(rows, SearchKeys, search)
  }

  /** The search over an arbitrary list of string fields. */
  function FilterOn(rows: seq<Obj>, keys: seq<string>, search: string): Completion<seq<Obj>> {
    FilterThrowing(rows, RowMatcher(keys, search))
  }

  /** The filter callback. */
  function RowMatcher(keys: seq<string>, search: string): Obj -> Completion<bool> {
    row => MatchesFrom(row, keys, search)
  }

  /**
   * When every row's searched fields are strings or absent, the search does
   * not throw and keeps, in order, exactly the rows with a field containing
   * the query.
   */
  lemma FilterOnSound(rows: seq<Obj>, keys: seq<string>, search: string)
    requires forall i :: 0 <= i < |rows| ==> Searchable(rows[i], keys)
    ensures FilterOn(rows, keys, search).Normal?
    ensures Subseq(FilterOn(rows, keys, search).value, rows)
    ensures forall o :: o in FilterOn(rows, keys, search).value <==> o in rows && SomeFieldContains(o, keys, search)
  {
    forall i | 0 <= i < |rows|
      ensures MatchesFrom(rows[i], keys, search).Normal?
      ensures MatchesFrom(rows[i], keys, search).value <==> SomeFieldContains(rows[i], keys, search)
    {
      MatchesFromSound(rows[i], keys, search);
    }
    FilterThrowingMeaning(rows, RowMatcher(keys, search), o => SomeFieldContains(o, keys, search));
  }

  /** The company search: `FilterOnSound` for the six searched fields. */
  lemma FilterRowsSound(rows: seq<Obj>, search: string)
    requires forall i :: 0 <= i < |rows| ==> Searchable(rows[i], SearchKeys)
    ensures FilterRows(rows, search).Normal?
    ensures Subseq(FilterRows(rows, search).value, rows)
    ensures forall o :: o in FilterRows(rows, search).value <==> o in rows && SomeFieldContains(o, SearchKeys, search)
  {
    FilterOnSound(rows, SearchKeys, search);
  }

  /** A string, or `null`/`undefined`: `?.toLowerCase()` does not throw on it. */
  predicate StrOrNullish(v: Value) {
    v.Str? || Nullish(v)
  }

  /** A string, or falsy: `v || "-"` is then a string. */
  predicate StrOrFalsy(v: Value) {
    v.Str? || !Truthy(v)
  }

  /** `Searchable` for the six searched cells, one cell at a time. */
  lemma SearchableCells(row: Obj)
    ensures Searchable(row, SearchKeys) <==>
      StrOrNullish(Get(row, "companyName")) && StrOrNullish(Get(row, "domain")) &&
      StrOrNullish(Get(row, "logoUrl")) && StrOrNullish(Get(row, "themeColor")) &&
      StrOrNullish(Get(row, "username")) && StrOrNullish(Get(row, "password"))
  {
    assert SearchKeys[0] == "companyName" && SearchKeys[1] == "domain" && SearchKeys[2] == "logoUrl";
    assert SearchKeys[3] == "themeColor" && SearchKeys[4] == "username" && SearchKeys[5] == "password";
  }

  /** The list response: `json.map(item => ({...}))`. */
  function FetchedRows(items: seq<Obj>): (rows: seq<Obj>)
    ensures |rows| == |items|
    ensures forall i :: 0 <= i < |items| ==> rows[i] == FetchedRow(items[i])
  {
    seq(|items|, i requires 0 <= i < |items| => FetchedRow(items[i]))
  }

  /**
   * The server fields behind a fetched row's searched cells: name, logo and
   * colour are copied, so they must be strings or absent; domain, username
   * and password fall back to "-", so a falsy value is fine too.
   */
  predicate FetchedSearchable(item: Obj) {
    && StrOrNullish(Get(item, "name")) && StrOrNullish(Get(item, "logo_url"))
    && StrOrNullish(Get(item, "theme_color")) && StrOrFalsy(Get(item, "domain"))
    && StrOrFalsy(Get(item, "username")) && StrOrFalsy(Get(item, "password"))
  }

  /** A fetched row can be searched without throwing exactly when its item is `FetchedSearchable`. */
  lemma FetchedRowSearchable(item: Obj)
    ensures Searchable(FetchedRow(item), SearchKeys) <==> FetchedSearchable(item)
  {
    SearchableCells(FetchedRow(item));
  }

  /** The server fields behind a created row's searched cells; domain and password are constants. */
  predicate CreatedSearchable(created: Obj) {
    && StrOrNullish(Get(created, "name")) && StrOrNullish(Get(created, "logo_url"))
    && StrOrNullish(Get(created, "theme_color")) && StrOrNullish(Get(created, "admin_name"))
  }

  /** A created row can be searched without throwing exactly when its record is `CreatedSearchable`. */
  lemma CreatedRowSearchable(created: Obj)
    ensures Searchable(CreatedRow(created), SearchKeys) <==> CreatedSearchable(created)
  {
    SearchableCells(CreatedRow(created));
  }

  /** The rows appended by `handleAddCompany`, one per created record, in order. */
  function CreatedRows(added: seq<Obj>): (rows: seq<Obj>)
    ensures |rows| == |added|
    ensures forall i :: 0 <= i < |added| ==> rows[i] == CreatedRow(added[i])
  {
    seq(|added|, i requires 0 <= i < |added| => CreatedRow(added[i]))
  }

  /**
   * The fetched list followed by the rows added since: when the server sends
   * string (or absent) fields, the search never throws and keeps exactly the
   * rows with a searched cell containing the query.
   */
  lemma LoadedRowsSearch(items: seq<Obj>, added: seq<Obj>, search: string)
    requires forall i :: 0 <= i < |items| ==> FetchedSearchable(items[i])
    requires forall i :: 0 <= i < |added| ==> CreatedSearchable(added[i])
    ensures FilterRows(FetchedRows(items) + CreatedRows(added), search).Normal?
    ensures Subseq(FilterRows(FetchedRows(items) + CreatedRows(added), search).value,
                   FetchedRows(items) + CreatedRows(added))
    ensures forall o :: o in FilterRows(FetchedRows(items) + CreatedRows(added), search).value <==>
      o in FetchedRows(items) + CreatedRows(added) && SomeFieldContains(o, SearchKeys, search)
  {
    var fetched := FetchedRows(items);
    var created := CreatedRows(added);
    var rows := fetched + created;
    forall i | 0 <= i < |rows| ensures Searchable(rows[i], SearchKeys) {
      if i < |fetched| {
        FetchedRowSearchable(items[i]);
      } else {
        CreatedRowSearchable(added[i - |fetched|]);
      }
    }
    FilterRowsSound(rows, search);
  }

  /** The ids of the rows on the current page. */
  function PageIds(page: seq<Obj>): (ids: seq<Value>)
    ensures |ids| == |page|
    ensures forall i :: 0 <= i < |page| ==> ids[i] == IdOf(page[i])
  {
    seq(|page|, i requires 0 <= i < |page| => IdOf(page[i]))
  }

  /**
   * `toggleAll`: with a selection the size of the page it clears the
   * selection, otherwise every row on the page, and only those, is selected.
   */
  function ToggleAllRows(selected: seq<Value>, page: seq<Obj>): (r: seq<Value>)
    ensures |selected| == |page| ==> r == []
    ensures |selected| != |page| ==> forall v :: v in r <==> exists i :: 0 <= i < |page| && IdOf(page[i]) == v
  {
    var ids := PageIds(page);
    assert forall v :: v in ids <==> exists i :: 0 <= i < |page| && ids[i] == v;
    ToggleAll(selected, ids)
  }
}

=== FILE: department_table.dfy ===
/**
 * The department table: the add form and its payload, the rows built from
 * the API, the search, the delete update and the row-expansion toggle.
 * Dates are printed by a caller-supplied formatter.
 */
module DepartmentTable {
  import opened Wrappers
  import opened JsValue
  import opened JsObject
  import opened Text
  import opened Seqs
  import opened Schema
  import opened Search
  import opened EntityList
  import opened Sorting
  import opened Paging
  import opened TableView

  // ---------------------------------------------------------------------------
  // The add form
  // ---------------------------------------------------------------------------

  const NameRequired := "Department Name is required"

  /** `departmentSchema`: a non-empty name and an optional parent. */
  const Rules: seq<FieldRule> := [
    FieldRule("departmentName", false, MinLength(1, NameRequired)),
    FieldRule("subDepartment", true, NoCheck)
  ]

  /** `newDepartment`; both inputs hold strings, the parent is "" for none. */
  function Draft(name: string, parent: string): Obj {
    map["departmentName" := Str(name), "subDepartment" := Str(parent)]
  }

  datatype AddOutcome =
    | Invalid(fieldErrors: map<string, seq<string>>)
    | NotAuthenticated
    | Post(payload: Obj)

  /** `{name, parent_id: sub ? parseInt(sub) : null, company_id: id}`. */
  function Payload(name: string, parent: string, companyId: Value): (p: Obj)
    ensures Get(p, "name") == Str(name)
    ensures parent == "" ==> Get(p, "parent_id") == Null
    ensures parent != "" ==> Get(p, "parent_id").Num? || Get(p, "parent_id").NaN?
    ensures Get(p, "company_id") == companyId
  {
    map[
      "name" := Str(name),
      "parent_id" := if Truthy(Str(parent)) then ParseIntValue(parent) else Null,
      "company_id" := companyId]
  }

  /**
   * `handleAddDepartment` up to the request: the schema is checked first,
   * then the session token; only then is a payload sent.
   */
  function HandleAddDepartment(name: string, parent: string, token: Value, companyId: Value): (r: AddOutcome)
    ensures r.Invalid? <==> name == ""
    ensures r.Invalid? ==> r.fieldErrors == map["departmentName" := [NameRequired]]
    ensures r.NotAuthenticated? <==> name != "" && !Truthy(token)
    ensures r.Post? ==> r.payload == Payload(name, parent, companyId)
  {
    var issues := Issues(Rules, Draft(name, parent), NoEmailField);
    if issues != [] then
      assert issues == [Issue("departmentName", NameRequired)];
      FieldErrorsSingle(issues[0]);
      Invalid(FieldErrors(issues))
    else if !Truthy(token) then NotAuthenticated
    else Post(Payload(name, parent, companyId))
  }

  /**
   * The parent picker's values are `String(dept.ID)`; for an integer id the
   * payload's `parent_id` is that id again.
   */
  lemma ParentIdRoundTrip(name: string, id: int, token: Value, companyId: Value)
    requires name != "" && Truthy(token)
    ensures HandleAddDepartment(name, ToStr(Num(id)), token, companyId).Post?
    ensures Get(HandleAddDepartment(name, ToStr(Num(id)), token, companyId).payload, "parent_id") == Num(id)
  {
    var parent := ToStr(Num(id));
    ParseIntOfString(id);
    assert parent != "";
    var p := Payload(name, parent, companyId);
    assert Get(p, "parent_id") == ParseIntValue(parent);
  }

  // ---------------------------------------------------------------------------
  // Rows
  // ---------------------------------------------------------------------------

  /** `created_at ? format(new Date(created_at), …) : "-"`. */
  function DateCell(v: Value, format: Value -> string): Value {
    if Truthy(v) then Str(format(v)) else Str("-")
  }

  /** The row appended after a successful create. */
  function CreatedRow(created: Obj, format: Value -> string): (row: Obj)
    ensures row.Keys == {"ID", "Department", "Sub-Department", "Date Added"}
    ensures row["Sub-Department"] == if Truthy(Get(created, "parent_id")) then Get(created, "parent_id") else Str("-")
  {
    map[
      "ID" := Get(created, "id"),
      "Department" := Get(created, "name"),
      "Sub-Department" := if Truthy(Get(created, "parent_id")) then Get(created, "parent_id") else Str("-"),
      "Date Added" := DateCell(Get(created, "created_at"), format)]
  }

  /** The row built from one department of the list response. */
  function FetchedRow(dept: Obj, format: Value -> string): (row: Obj)
    ensures row.Keys == {"ID", "Department", "parent_name", "Date Added"}
    ensures Truthy(Get(dept, "parent_name")) ==> row["parent_name"] == Get(dept, "parent_name")
    ensures !Truthy(Get(dept, "parent_name")) ==> row["parent_name"] == Str("-")
    ensures Truthy(row["parent_name"])
  {
    map[
      "ID" := Get(dept, "id"),
      "Department" := Get(dept, "name"),
      "parent_name" := Or(Get(dept, "parent_name"), Str("-")),
      "Date Added" := DateCell(Get(dept, "created_at"), format)]
  }

  /** The list response mapped to rows, one per department, in order. */
  function FetchedRows(depts: seq<Obj>, format: Value -> string): (rows: seq<Obj>)
    ensures |rows| == |depts|
    ensures forall i :: 0 <= i < |depts| ==> rows[i] == FetchedRow(depts[i], format)
  {
    seq(|depts|, i requires 0 <= i < |depts| => FetchedRow(depts[i], format))
  }

  // ---------------------------------------------------------------------------
  // Search
  // ---------------------------------------------------------------------------

  /**
   * `item.Department?.toLowerCase().includes(q) ||
   * (item["Sub-Department"] && item["Sub-Department"].toLowerCase().includes(q))`.
   */
  function Matches(row: Obj, search: string): Completion<bool> {
    OrElse(OptLowerIncludes(Get(row, "Department"), search),
           GuardedLowerIncludes(Get(row, "Sub-Department"), search))
  }

  /** `filteredData`. */
  function FilterRows(rows: seq<Obj>, search: string): Completion<seq<Obj>> {
    FilterThrowing(rows, row => Matches(row, search))
  }

  /** The field holds a string that contains the query, ignoring case. */
  predicate FieldContains(row: Obj, key: string, search: string) {
    Get(row, key).Str? && IncludesFolded(Get(row, key).s, search)
  }

  /**
   * A search that does not throw keeps, in order, exactly the rows whose
   * department name, or whose non-empty sub-department text, contains the query.
   */
  lemma FilterRowsSound(rows: seq<Obj>, search: string)
    requires FilterRows(rows, search).Normal?
    ensures Subseq(FilterRows(rows, search).value, rows)
    ensures forall o :: o in FilterRows(rows, search).value <==>
      o in rows && (FieldContains(o, "Department", search) ||
        (Truthy(Get(o, "Sub-Department")) && FieldContains(o, "Sub-Department", search)))
  {
    var m := row => Matches(row, search);
    FilterThrowingSubseq(rows, m);
    forall o ensures o in FilterRows(rows, search).value <==>
      o in rows && (FieldContains(o, "Department", search) ||
        (Truthy(Get(o, "Sub-Department")) && FieldContains(o, "Sub-Department", search)))
    {
      FilterMembers(rows, x => Holds(m, x), o);
      if o in rows {
        var i :| 0 <= i < |rows| && rows[i] == o;
        assert m(rows[i]).Normal?;
      }
    }
  }

  /** An empty search keeps every row when every department name is a string. */
  lemma EmptySearchKeepsRows(rows: seq<Obj>)
    requires forall i :: 0 <= i < |rows| ==> Get(rows[i], "Department").Str?
    ensures FilterRows(rows, "") == Normal(rows)
  {
    forall i | 0 <= i < |rows| ensures Matches(rows[i], "") == Normal(true) {
      IncludesEmpty(Lower(Get(rows[i], "Department").s));
    }
    FilterAll(rows, x => Holds(row => Matches(row, ""), x));
  }

  /** Rows from the list response have no sub-department cell: only the name is searched. */
  lemma FetchedRowSearchedByName(dept: Obj, format: Value -> string, search: string)
    requires Get(dept, "name").Str?
    ensures Matches(FetchedRow(dept, format), search) == Normal(IncludesFolded(Get(dept, "name").s, search))
  {
  }

  /**
   * A row created with a parent stores the numeric `parent_id` as its
   * sub-department, and the search then calls `toLowerCase` on a number.
   */
  lemma CreatedRowSearchThrows(format: Value -> string)
    ensures var created := map["id" := Num(7), "name" := Str("Ops"), "parent_id" := Num(5)];
      FilterRows([CreatedRow(created, format)], "x").Throw?
  {
    var created := map["id" := Num(7), "name" := Str("Ops"), "parent_id" := Num(5)];
    var row := CreatedRow(created, format);
    assert Lower("x") == ['x'];
    IncludesChar(Lower("Ops"), 'x');
    assert Matches(row, "x").Throw?;
    var rows := [row];
    assert rows[0] == row;
  }

  /** The search with the sub-department printed as a string before matching. */
  function MatchesFixed(row: Obj, search: string): (r: Completion<bool>)
    ensures !Get(row, "Department").Str? && !Nullish(Get(row, "Department")) ==> r.Throw?
  {
    OrElse(OptLowerIncludes(Get(row, "Department"), search),
           GuardedStringIncludes(Get(row, "Sub-Department"), search))
  }

  function FilterRowsFixed(rows: seq<Obj>, search: string): Completion<seq<Obj>> {
    FilterThrowing(rows, row => MatchesFixed(row, search))
  }

  /**
   * With names that are strings, the fixed search never throws, whatever the
   * sub-department holds, and it agrees with the original search wherever
   * that one does not throw.
   */
  lemma FilterRowsFixedTotal(rows: seq<Obj>, search: string)
    requires forall i :: 0 <= i < |rows| ==> Get(rows[i], "Department").Str? || Nullish(Get(rows[i], "Department"))
    ensures FilterRowsFixed(rows, search).Normal?
    ensures forall o :: Matches(o, search).Normal? ==> MatchesFixed(o, search) == Matches(o, search)
  {
  }

  /**
   * The department table's sort configuration starts with an empty key and
   * nothing changes it, so the page on screen is a page of the search result
   * in table order.
   */
  function View(rows: seq<Obj>, search: string, p: int): (r: Completion<seq<Obj>>)
    ensures r.Throw? <==> FilterRows(rows, search).Throw?
    ensures r.Normal? ==> r.value == Page(FilterRows(rows, search).value, p)
  {
    Shown(rows, row => Matches(row, search), SortConfig("", ""), p)
  }

  // ---------------------------------------------------------------------------
  // List updates
  // ---------------------------------------------------------------------------

  /** The rows after a successful create. */
  function AddRow(rows: seq<Obj>, created: Obj, format: Value -> string): (r: seq<Obj>)
    ensures |r| == |rows| + 1 && r[..|rows|] == rows && r[|rows|] == CreatedRow(created, format)
  {
    Append(rows, CreatedRow(created, format))
  }

  /** `prev.filter(item => item.ID !== departmentToDelete.ID)`. */
  function DeleteRow(rows: seq<Obj>, target: Obj): (r: seq<Obj>)
    ensures forall o :: o in r <==> o in rows && !HasField(o, "ID", Get(target, "ID"))
    ensures Subseq(r, rows)
  {
    RemoveByFieldKeeps(rows, "ID", Get(target, "ID"));
    RemoveByField(rows, "ID", Get(target, "ID"))
  }
}

=== FILE: documents_tab.dfy ===
/**
 * The document checklist: adding an extra document by name, and clicking a
 * listed document to flip its status between verified and pending.
 */
module DocumentsTab {
  import opened Text

  datatype Doc = Doc(name: string, status: string)

  /** The parent state the tab edits: the extra documents and the name box. */
  datatype State = State(extraDocs: seq<Doc>, newDoc: string)

  /**
   * `handleAddDocument`: a name that is blank after trimming changes
   * nothing; otherwise the trimmed name is appended as pending and the box
   * is cleared.
   */
  function AddDocument(s: State): (r: State)
    ensures AllSpace(s.newDoc) ==> r == s
    ensures !AllSpace(s.newDoc) ==>
      && r.newDoc == ""
      && |r.extraDocs| == |s.extraDocs| + 1
      && r.extraDocs[..|s.extraDocs|] == s.extraDocs
      && r.extraDocs[|s.extraDocs|] == Doc(Trim(s.newDoc), "pending")
  {
    var name := Trim(s.newDoc);
    if name == [] then s
    else State(s.extraDocs + [Doc(name, "pending")], "")
  }

  /**
   * A document added by name has a non-empty name with no surrounding
   * whitespace, taken from inside the box's text, and the box is then blank,
   * so pressing Add again changes nothing.
   */
  lemma AddedDocumentClean(s: State)
    requires !AllSpace(s.newDoc)
    ensures var d := AddDocument(s).extraDocs[|s.extraDocs|];
      && d.name != "" && !IsSpace(d.name[0]) && !IsSpace(d.name[|d.name| - 1])
      && Occurs(d.name, s.newDoc)
    ensures AddDocument(AddDocument(s)) == AddDocument(s)
  {
    var d := AddDocument(s).extraDocs[|s.extraDocs|];
    var k := LeadingSpace(s.newDoc);
    assert OccursAt(d.name, s.newDoc, k);
    assert AllSpace(AddDocument(s).newDoc);
  }

  /** The click rule: verified becomes pending, anything else becomes verified. */
  function Flip(status: string): (r: string)
    ensures r == "verified" <==> status != "verified"
    ensures r == "pending" <==> status == "verified"
  {
    if status == "verified" then "pending" else "verified"
  }

  /**
   * Clicking the `i`-th listed document: when `i` is an index of the extra
   * documents that document's status flips; no other document changes, and
   * a larger index changes nothing.
   */
  function Click(docs: seq<Doc>, i: nat): (r: seq<Doc>)
    ensures |r| == |docs|
    ensures forall k :: 0 <= k < |docs| && k != i ==> r[k] == docs[k]
    ensures i < |docs| ==> r[i].name == docs[i].name && r[i].status == Flip(docs[i].status)
    ensures i >= |docs| ==> r == docs
  {
    if i < |docs| then docs[i := docs[i].(status := Flip(docs[i].status))] else docs
  }

  /** Two clicks restore a document that was verified or pending. */
  lemma ClickTwice(docs: seq<Doc>, i: nat)
    requires i < |docs| ==> docs[i].status in {"verified", "pending"}
    ensures Click(Click(docs, i), i) == docs
  {
    if i < |docs| {
      assert Click(Click(docs, i), i)[i] == docs[i];
    }
  }

  /** Any other status is lost: two clicks leave it pending. */
  lemma ClickTwiceLosesStatus(docs: seq<Doc>, i: nat)
    requires i < |docs| && docs[i].status !in {"verified", "pending"}
    ensures Click(Click(docs, i), i)[i].status == "pending"
    ensures Click(Click(docs, i), i) != docs
  {
  }
}

=== FILE: emi_history.dfy ===
/**
 * The year-by-month grid both EMI history views build: each entry's date is
 * split on '-' into a year and a month, and the entry's status is written at
 * `grid[year][month]`, creating the year on first use. A later entry for the
 * same year and month overwrites an earlier one.
 */
module EmiHistory {
  import opened Wrappers
  import opened JsValue
  import opened Text

  /** What one entry contributes: a status at a year and month. */
  datatype Cell = Cell(year: string, month: string, status: Value)

  type Grid = map<string, map<string, Value>>

  /**
   * `const [year, month] = date.split("-")`. A date without '-' has no
   * second field; the month is then `undefined`, which as a property key is
   * the text "undefined".
   */
  function YearMonth(date: string): (r: (string, string))
    ensures '-' !in r.0
  {
    var parts := Split(date, '-');
    (parts[0], if |parts| >= 2 then parts[1] else "undefined")
  }

  /** A date `year-month` or `year-month-day` splits into its year and month. */
  lemma YearMonthOfDate(year: string, month: string, day: string)
    requires '-' !in year && '-' !in month
    ensures YearMonth(year + "-" + month) == (year, month)
    ensures YearMonth(year + "-" + month + "-" + day) == (year, month)
  {
    SplitAfterField(year, '-', month);
    SplitNoSeparator(month, '-');
    assert year + "-" + month == year + ['-'] + month;
    assert year + "-" + month + "-" + day == year + ['-'] + (month + ['-'] + day);
    SplitAfterField(year, '-', month + ['-'] + day);
    SplitAfterField(month, '-', day);
  }

  /** A date without '-' is all year, and its month is "undefined". */
  lemma YearMonthWithoutDash(date: string)
    requires '-' !in date
    ensures YearMonth(date) == (date, "undefined")
  {
    SplitNoSeparator(date, '-');
  }

  /** `if (!acc[year]) acc[year] = {}; acc[year][month] = status`. */
  function Put(acc: Grid, c: Cell): (r: Grid)
    ensures r.Keys == acc.Keys + {c.year}
  {
    acc[c.year := (if c.year in acc then acc[c.year] else map[])[c.month := c.status]]
  }

  /** The grid after writing the cells in order, starting from `init`. */
  function GroupFrom(init: Grid, cells: seq<Cell>): Grid
    decreases |cells|
  {
    if cells == [] then init
    else Put(GroupFrom(init, cells[..|cells| - 1]), cells[|cells| - 1])
  }

  /** The grid's status at a year and month, if there is one. */
  function Lookup(g: Grid, year: string, month: string): Option<Value> {
    if year in g && month in g[year] then Some(g[year][month]) else None
  }

  /** The status of the last cell at the year and month, if any. */
  function LastStatus(cells: seq<Cell>, year: string, month: string): (r: Option<Value>)
    ensures r.None? <==> forall k :: 0 <= k < |cells| ==> !(cells[k].year == year && cells[k].month == month)
    decreases |cells|
  {
    if cells == [] then None
    else
      var c := cells[|cells| - 1];
      var prefix := cells[..|cells| - 1];
      assert forall k :: 0 <= k < |cells| - 1 ==> cells[k] == prefix[k];
      if c.year == year && c.month == month then Some(c.status) else LastStatus(prefix, year, month)
  }

  /**
   * The grid holds a year exactly when `init` holds it or some cell is in
   * that year.
   */
  lemma {:induction false} GroupFromYears(init: Grid, cells: seq<Cell>, year: string)
    ensures year in GroupFrom(init, cells) <==> year in init || exists k :: 0 <= k < |cells| && cells[k].year == year
    decreases |cells|
  {
    if cells != [] {
      var prefix := cells[..|cells| - 1];
      GroupFromYears(init, prefix, year);
      assert forall k :: 0 <= k < |cells| - 1 ==> cells[k] == prefix[k];
      if exists k :: 0 <= k < |cells| && cells[k].year == year {
        var k :| 0 <= k < |cells| && cells[k].year == year;
        if k < |cells| - 1 {
          assert prefix[k].year == year;
        }
      }
    }
  }

  /**
   * At every year and month the grid holds the status of the last cell
   * there; where no cell falls, it holds what `init` held.
   */
  lemma {:induction false} GroupFromLastWins(init: Grid, cells: seq<Cell>, year: string, month: string)
    ensures Lookup(GroupFrom(init, cells), year, month) ==
      if LastStatus(cells, year, month).Some? then LastStatus(cells, year, month) else Lookup(init, year, month)
    decreases |cells|
  {
    if cells != [] {
      GroupFromLastWins(init, cells[..|cells| - 1], year, month);
    }
  }
}

/**
 * `TradeLineDialog`: the EMI history of one trade line, grouped by the year
 * and month of each entry's date; the status icon of a cell; and the amount
 * formatter.
 */
module TradeLine {
  import opened Wrappers
  import opened JsValue
  import opened JsObject
  import opened EmiHistory

  /** `item.status ?? "NR"`. */
  function StoredStatus(item: Obj): (v: Value)
    ensures Nullish(Get(item, "status")) ==> v == Str("NR")
    ensures !Nullish(Get(item, "status")) ==> v == Get(item, "status")
  {
    Coalesce(Get(item, "status"), Str("NR"))
  }

  /**
   * One reducer step: a missing entry or one without a truthy date is
   * skipped; a truthy date that is not a string throws at `split`.
   */
  function CellOf(item: Option<Obj>): (r: Completion<Option<Cell>>)
    ensures item.None? ==> r == Normal(None)
    ensures item.Some? && !Truthy(Get(item.value, "date")) ==> r == Normal(None)
    ensures item.Some? && Truthy(Get(item.value, "date")) && !Get(item.value, "date").Str? ==> r.Throw?
    ensures item.Some? && Get(item.value, "date").Str? && Truthy(Get(item.value, "date")) ==>
      var ym := YearMonth(Get(item.value, "date").s);
      r == Normal(Some(Cell(ym.0, ym.1, StoredStatus(item.value))))
  {
    match item
    case None => Normal(None)
    case Some(o) =>
      var date := Get(o, "date");
      if !Truthy(date) then Normal(None)
      else if !date.Str? then Throw
      else
        var ym := YearMonth(date.s);
        Normal(Some(Cell(ym.0, ym.1, StoredStatus(o))))
  }

  /** The cells the history contributes, in order. */
  function Cells(history: seq<Option<Obj>>): (r: Completion<seq<Cell>>)
    ensures r.Throw? <==> exists i :: 0 <= i < |history| && CellOf(history[i]).Throw?
    ensures r.Normal? ==> |r.value| <= |history|
    ensures r.Normal? ==> forall c :: c in r.value ==> exists i :: 0 <= i < |history| && CellOf(history[i]) == Normal(Some(c))
    decreases |history|
  {
    if history == [] then Normal([])
    else
      var prefix := history[..|history| - 1];
      var last := history[|history| - 1];
      assert forall i :: 0 <= i < |history| - 1 ==> history[i] == prefix[i];
      match Cells(prefix)
      case Throw => Throw
      case Normal(cs) =>
        match CellOf(last)
        case Throw => Throw
        case Normal(None) => Normal(cs)
        case Normal(Some(c)) => Normal(cs + [c])
  }

  /** `groupByYear(history)`. */
  function GroupByYear(history: seq<Option<Obj>>): (r: Completion<Grid>)
    ensures r.Throw? <==> Cells(history).Throw?
    ensures r.Normal? ==> r.value == GroupFrom(map[], Cells(history).value)
  {
    match Cells(history)
    case Throw => Throw
    case Normal(cs) => Normal(GroupFrom(map[], cs))
  }

  /**
   * Every year of the grid comes from an entry of the history with a truthy
   * date, and every cell holds the status of the last such entry at its year
   * and month.
   */
  lemma GroupByYearSound(history: seq<Option<Obj>>, year: string, month: string)
    requires GroupByYear(history).Normal?
    ensures year in GroupByYear(history).value ==>
      exists i :: 0 <= i < |history| && history[i].Some? && Truthy(Get(history[i].value, "date")) &&
        CellOf(history[i]).value.Some? && CellOf(history[i]).value.value.year == year
    ensures Lookup(GroupByYear(history).value, year, month) == LastStatus(Cells(history).value, year, month)
  {
    var cs := Cells(history).value;
    GroupFromYears(map[], cs, year);
    GroupFromLastWins(map[], cs, year, month);
    if year in GroupByYear(history).value {
      var k :| 0 <= k < |cs| && cs[k].year == year;
      assert cs[k] in cs;
    }
  }

  /** An empty history gives an empty grid. */
  lemma EmptyHistory()
    ensures GroupByYear([]) == Normal(map[])
  {
  }

  /** The icon `renderStatus` draws. */
  datatype Icon = OnTimeIcon | LateIcon | DisputedIcon | NotReportedIcon

  /** `renderStatus`: a `switch` on the status by `===`. */
  function RenderStatus(v: Value): (icon: Icon)
    ensures icon == OnTimeIcon <==> v == Str("OnTime") || v == Str("Y")
    ensures icon == LateIcon <==> v == Str("Late") || v == Str("N")
    ensures icon == DisputedIcon <==> v == Str("Disputed")
  {
    if v == Str("OnTime") || v == Str("Y") then OnTimeIcon
    else if v == Str("Late") || v == Str("N") then LateIcon
    else if v == Str("Disputed") then DisputedIcon
    else NotReportedIcon
  }

  /** A cell whose entry had no status is drawn as not reported. */
  lemma MissingStatusNotReported(item: Obj)
    requires Nullish(Get(item, "status"))
    ensures RenderStatus(StoredStatus(item)) == NotReportedIcon
  {
  }

  /**
   * `currency`: a number goes through the currency formatter; anything else
   * is shown as is, or as "—" when falsy.
   */
  function Currency(v: Value, format: Value -> string): (r: Value)
    ensures IsNumber(v) ==> r == Str(format(v))
    ensures !IsNumber(v) && Truthy(v) ==> r == v
    ensures !IsNumber(v) && !Truthy(v) ==> r == Str("\U{2014}")
  {
    if IsNumber(v) then Str(format(v)) else Or(v, Str("\U{2014}"))
  }
}

/**
 * `BureauTab`: the EMI history grid over five fixed years plus any year the
 * history mentions, the paid/late/disputed classification, and the amount
 * formatter.
 */
module Bureau {
  import opened Wrappers
  import opened JsValue
  import opened JsObject
  import opened EmiHistory
  import TradeLine

  const FixedYears: seq<string> := ["2021", "2022", "2023", "2024", "2025"]

  /** `grouped[year] = {}` for every fixed year. */
  const InitialGrid: Grid := map["2021" := map[], "2022" := map[], "2023" := map[], "2024" := map[], "2025" := map[]]

  /** `r.paidOnTime ? "paid" : r.delayDays ? "late" : "disputed"`. */
  function EntryStatus(r: Obj): (s: Value)
    ensures Truthy(Get(r, "paidOnTime")) ==> s == Str("paid")
    ensures !Truthy(Get(r, "paidOnTime")) && Truthy(Get(r, "delayDays")) ==> s == Str("late")
    ensures !Truthy(Get(r, "paidOnTime")) && !Truthy(Get(r, "delayDays")) ==> s == Str("disputed")
  {
    if Truthy(Get(r, "paidOnTime")) then Str("paid")
    else if Truthy(Get(r, "delayDays")) then Str("late")
    else Str("disputed")
  }

  /** One entry: `r.month.split("-")` throws unless `month` is a string. */
  function CellOf(r: Obj): (c: Completion<Cell>)
    ensures c.Throw? <==> !Get(r, "month").Str?
    ensures c.Normal? ==> c.value == Cell(YearMonth(Get(r, "month").s).0, YearMonth(Get(r, "month").s).1, EntryStatus(r))
  {
    var m := Get(r, "month");
    if !m.Str? then Throw
    else
      var ym := YearMonth(m.s);
      Normal(Cell(ym.0, ym.1, EntryStatus(r)))
  }

  function Cells(history: seq<Obj>): (r: Completion<seq<Cell>>)
    ensures r.Throw? <==> exists i :: 0 <= i < |history| && CellOf(history[i]).Throw?
    ensures r.Normal? ==> |r.value| == |history|
    ensures r.Normal? ==> forall i :: 0 <= i < |history| ==> r.value[i] == CellOf(history[i]).value
  {
    if exists i :: 0 <= i < |history| && CellOf(history[i]).Throw? then Throw
    else Normal(seq(|history|, i requires 0 <= i < |history| => CellOf(history[i]).value))
  }

  /** `groupByYear(emiHistory)`. */
  function GroupByYear(history: seq<Obj>): (r: Completion<Grid>)
    ensures r.Throw? <==> Cells(history).Throw?
    ensures r.Normal? ==> r.value == GroupFrom(InitialGrid, Cells(history).value)
  {
    match Cells(history)
    case Throw => Throw
    case Normal(cs) => Normal(GroupFrom(InitialGrid, cs))
  }

  /**
   * The five fixed years are always present, a year outside them is present
   * exactly when an entry falls in it, and each cell holds the status of the
   * last entry at its year and month.
   */
  lemma GroupByYearSound(history: seq<Obj>, year: string, month: string)
    requires GroupByYear(history).Normal?
    ensures year in FixedYears ==> year in GroupByYear(history).value
    ensures year !in FixedYears ==>
      (year in GroupByYear(history).value <==> exists i :: 0 <= i < |history| && CellOf(history[i]).value.year == year)
    ensures Lookup(GroupByYear(history).value, year, month) ==
      if LastStatus(Cells(history).value, year, month).Some? then LastStatus(Cells(history).value, year, month) else None
  {
    var cs := Cells(history).value;
    GroupFromYears(InitialGrid, cs, year);
    GroupFromLastWins(InitialGrid, cs, year, month);
    assert year in InitialGrid <==> year in FixedYears;
    if exists i :: 0 <= i < |history| && CellOf(history[i]).value.year == year {
      var i :| 0 <= i < |history| && CellOf(history[i]).value.year == year;
      assert cs[i].year == year;
    }
  }

  /** An empty history still shows the five fixed years, all empty. */
  lemma EmptyHistory()
    ensures GroupByYear([]) == Normal(InitialGrid)
  {
  }

  /** `currency`: a falsy amount, 0 included, is "—"; others go through the formatter. */
  function Currency(v: Value, format: Value -> string): (r: Value)
    ensures !Truthy(v) ==> r == Str("\U{2014}")
    ensures Truthy(v) ==> r == Str(format(v))
  {
    if Truthy(v) then Str(format(v)) else Str("\U{2014}")
  }

  /** The two views disagree on a zero amount: the dialog formats it, the tab shows "—". */
  lemma ZeroAmount(format: Value -> string)
    ensures TradeLine.Currency(Num(0), format) == Str(format(Num(0)))
    ensures Currency(Num(0), format) == Str("\U{2014}")
  {
  }

  /**
   * How the dialog's and the tab's `currency` relate on every value. They
   * agree on non-zero numbers, which both format, and on falsy non-numbers,
   * which both show as "—". On 0 and NaN the dialog formats and the tab shows
   * "—"; on a truthy non-number (a string amount, say) the dialog shows the
   * value as it is and the tab formats it.
   */
  lemma CurrencyViews(v: Value, format: Value -> string)
    ensures IsNumber(v) && !Truthy(v) <==> v == Num(0) || v == NaN
    ensures IsNumber(v) && Truthy(v) ==>
      TradeLine.Currency(v, format) == Currency(v, format) == Str(format(v))
    ensures !IsNumber(v) && !Truthy(v) ==>
      TradeLine.Currency(v, format) == Currency(v, format) == Str("\U{2014}")
    ensures IsNumber(v) && !Truthy(v) ==>
      TradeLine.Currency(v, format) == Str(format(v)) && Currency(v, format) == Str("\U{2014}")
    ensures !IsNumber(v) && Truthy(v) ==>
      TradeLine.Currency(v, format) == v && Currency(v, format) == Str(format(v))
  {
  }
}

=== FILE: fi_tab.dfy ===
/**
 * The field-investigation tab's document list: the report's own documents
 * followed by the documents uploaded against its questions.
 */
module FiTab {
  import opened Wrappers
  import opened JsValue
  import opened JsObject
  import opened QuestionDocs

  /**
   * The FI report; a list that is missing (or otherwise falsy) is `None`.
   * A report that has not arrived is represented by the caller's `None`.
   */
  datatype FiData = FiData(questionsAndAnswers: Option<seq<Obj>>, documents: Option<seq<Obj>>)

  /** `(fiData.documents || []).map(doc => ({ name: doc.name, status: doc.status }))`. */
  function ReportDocs(documents: seq<Obj>): (r: seq<Entry>)
    ensures |r| == |documents|
    ensures forall i :: 0 <= i < |r| ==> r[i] == Entry(Get(documents[i], "name"), Get(documents[i], "status"))
  {
    seq(|documents|, i requires 0 <= i < |documents| => Entry(Get(documents[i], "name"), Get(documents[i], "status")))
  }

  /**
   * The effect on `fiData`: without a report the list is left as it was;
   * otherwise it is the report's documents, then the uploaded ones.
   */
  function AllDocuments(current: seq<Entry>, fiData: Option<FiData>): (r: seq<Entry>)
    ensures fiData.None? ==> r == current
    ensures fiData.Some? ==> var docs := fiData.value.documents.GetOr([]);
      && |docs| <= |r|
      && r[..|docs|] == ReportDocs(docs)
      && r[|docs|..] == Uploads(fiData.value.questionsAndAnswers.GetOr([]))
  {
    match fiData
    case None => current
    case Some(d) =>
      var qs := d.questionsAndAnswers.GetOr([]);
      FromQuestionsIsUploads(qs);
      ReportDocs(d.documents.GetOr([])) + FromQuestions(qs)
  }

  /**
   * A listed document is either one of the report's documents, or an
   * uploaded document of some question, marked attached.
   */
  lemma AllDocumentsOrigin(current: seq<Entry>, d: FiData, e: Entry)
    requires e in AllDocuments(current, Some(d))
    ensures (exists i :: 0 <= i < |d.documents.GetOr([])| &&
               e == Entry(Get(d.documents.GetOr([])[i], "name"), Get(d.documents.GetOr([])[i], "status")))
         || (e.status == Str("attached") && Truthy(e.name))
  {
    var docs := d.documents.GetOr([]);
    var qs := d.questionsAndAnswers.GetOr([]);
    var listed := ReportDocs(docs);
    var uploaded := FromQuestions(qs);
    assert AllDocuments(current, Some(d)) == listed + uploaded;
    assert e in listed || e in uploaded;
    if e in listed {
      var k :| 0 <= k < |listed| && listed[k] == e;
      assert e == Entry(Get(docs[k], "name"), Get(docs[k], "status"));
    } else {
      var k :| 0 <= k < |uploaded| && uploaded[k] == e;
    }
  }
}

=== FILE: js_value.dfy ===
/**
 * The JavaScript values the dashboard handles, with the three operators its
 * defaults are written with: truthiness, `a || b` and `a ?? b`.
 * Numbers are integers; `NaN` is kept because `Number(...)` and `parseInt`
 * produce it and it is falsy.
 */
module JsValue {
  import opened Wrappers
  import opened Text
  import Numeric

  datatype Value =
    | Undefined
    | Null
    | Bool(b: bool)
    | Num(n: int)
    | NaN
    | Str(s: string)
    | Arr(items: seq<Value>)

  /** The result of evaluating an expression that may throw a TypeError. */
  datatype Completion<+T> = Normal(value: T) | Throw

  /** ECMAScript ToBoolean. Arrays are truthy even when empty. */
  predicate Truthy(v: Value) {
    match v
    case Undefined => false
    case Null => false
    case Bool(b) => b
    case Num(n) => n != 0
    case NaN => false
    case Str(s) => s != ""
    case Arr(_) => true
  }

  /** The values `??` and `?.` treat as missing. */
  predicate Nullish(v: Value) {
    v.Undefined? || v.Null?
  }

  /** `a || b`: the left operand when it is truthy, the right one otherwise. */
  function Or(a: Value, b: Value): (r: Value)
    ensures Truthy(a) ==> r == a
    ensures !Truthy(a) ==> r == b
  {
    if Truthy(a) then a else b
  }

  /** `a ?? b`: the left operand unless it is null or undefined. */
  function Coalesce(a: Value, b: Value): (r: Value)
    ensures !Nullish(a) ==> r == a
    ensures Nullish(a) ==> r == b
  {
    if Nullish(a) then b else a
  }

  /** `||` keeps a falsy-but-present value out, `??` lets it through. */
  lemma OrVersusCoalesce(a: Value, b: Value)
    requires !Nullish(a) && !Truthy(a)
    ensures Or(a, b) == b && Coalesce(a, b) == a
  {
  }

  /** `a === b`. NaN is unequal to itself; arrays compare by contents here. */
  predicate StrictEquals(a: Value, b: Value) {
    a == b && !a.NaN?
  }

  /** `typeof v === "number"`. */
  predicate IsNumber(v: Value) {
    v.Num? || v.NaN?
  }

  /** A numeric result where `None` means NaN. */
  function FromNumber(r: Option<int>): Value {
    match r
    case Some(n) => Num(n)
    case None => NaN
  }

  /** `String(v)`; an array prints its elements joined by commas, null and undefined as "". */
  function ToStr(v: Value): string
    decreases v
  {
    match v
    case Undefined => "undefined"
    case Null => "null"
    case Bool(b) => if b then "true" else "false"
    case Num(n) => Numeric.IntToString(n)
    case NaN => "NaN"
    case Str(s) => s
    case Arr(items) =>
      Join(seq(|items|, i requires 0 <= i < |items| =>
        if Nullish(items[i]) then "" else ToStr(items[i])), ',')
  }

  /** `Number(v)`. */
  function ToNumber(v: Value): (r: Value)
    ensures r.Num? || r.NaN?
  {
    match v
    case Undefined => NaN
    case Null => Num(0)
    case Bool(b) => Num(if b then 1 else 0)
    case Num(n) => v
    case NaN => NaN
    case Str(s) => FromNumber(Numeric.StringToNumber(s))
    case Arr(_) => FromNumber(Numeric.StringToNumber(ToStr(v)))
  }

  /** `Number("")` is 0. */
  lemma NumberOfEmpty()
    ensures ToNumber(Str("")) == Num(0)
  {
    assert Text.AllSpace("");
  }

  /** `Number(String(n))` is `n` for every integer. */
  lemma NumberOfString(n: int)
    ensures ToNumber(Str(ToStr(Num(n)))) == Num(n)
  {
    Numeric.StringToNumberOfIntToString(n);
  }

  /** `parseInt(s)` as a value. */
  function ParseIntValue(s: string): (r: Value)
    ensures r.Num? || r.NaN?
  {
    FromNumber(Numeric.ParseInt(s))
  }

  /** `String(n)` read back with `parseInt` is `n`. */
  lemma ParseIntOfString(n: int)
    ensures ParseIntValue(ToStr(Num(n))) == Num(n)
  {
    Numeric.ParseIntOfIntToString(n);
  }
}

/** Plain JavaScript objects: string keys to values; a missing key reads as undefined. */
module JsObject {
  import opened JsValue

  type Obj = map<string, Value>

  /** `o[key]`. */
  function Get(o: Obj, key: string): Value {
    if key in o then o[key] else Undefined
  }

  /** `{...base, ...over}`: every key of `over` wins, the other keys of `base` stay. */
  function Spread(base: Obj, over: Obj): (r: Obj)
    ensures r.Keys == base.Keys + over.Keys
    ensures forall k :: k in over ==> Get(r, k) == over[k]
    ensures forall k :: k !in over ==> Get(r, k) == Get(base, k)
  {
    base + over
  }
}

=== FILE: login_tab.dfy ===
/**
 * The login tab's document list: one document per entry of the login
 * report's `documentsInfo`, titled from the entry's key.
 */
module LoginTab {
  import opened Wrappers
  import opened JsValue
  import opened JsObject
  import opened Text

  /**
   * `key.replace("_", " ").toUpperCase()`: the first underscore becomes a
   * space and every letter is upper-cased; later underscores stay.
   */
  function Title(key: string): (t: string)
    ensures |t| == |key|
    ensures '_' in key ==> t[IndexOf(key, '_')] == ' '
    ensures forall k :: 0 <= k < |key| && k != IndexOf(key, '_') ==> t[k] == UpperChar(key[k])
  {
    Upper(ReplaceFirst(key, '_', ' '))
  }

  /**
   * Only the first underscore becomes a space; any later one stays, so
   * "pan_card_x" is titled "PAN CARD_X".
   */
  lemma TitleFirstUnderscore(a: string, b: string)
    requires '_' !in a
    ensures Title(a + "_" + b) == Upper(a) + " " + Upper(b)
    ensures '_' in b ==> '_' in Title(a + "_" + b)
  {
    TitleSplit(a, b);
    if '_' in b {
      UnderscoreKept(a, b);
    }
  }

  /** The title of `a_b`, with no underscore in `a`, is the upper-cased parts around a space. */
  lemma TitleSplit(a: string, b: string)
    requires '_' !in a
    ensures Title(a + "_" + b) == Upper(a) + " " + Upper(b)
  {
    assert a + "_" + b == a + ['_'] + b;
    ReplaceFirstAfter(a, '_', ' ', b);
    UpperConcat(a + [' '], b);
    UpperConcat(a, [' ']);
  }

  /** Upper-casing keeps an underscore. */
  lemma UnderscoreKept(a: string, b: string)
    requires '_' in b
    ensures '_' in Upper(a) + " " + Upper(b)
  {
    var j :| 0 <= j < |b| && b[j] == '_';
    assert (Upper(a) + " " + Upper(b))[|a| + 1 + j] == Upper(b)[j];
  }

  lemma UpperConcat(x: string, y: string)
    ensures Upper(x + y) == Upper(x) + Upper(y)
  {
  }

  /** A key without an underscore is only upper-cased. */
  lemma TitleWithoutUnderscore(key: string)
    requires '_' !in key
    ensures Title(key) == Upper(key)
  {
  }

  /** `{ title: <Title(key)>, ...value }`. */
  function Document(key: string, value: Obj): (d: Obj)
    ensures Get(d, "title") == if "title" in value then value["title"] else Str(Title(key))
    ensures forall k :: k != "title" ==> Get(d, k) == Get(value, k)
  {
    Spread(map["title" := Str(Title(key))], value)
  }

  /**
   * The effect on `loginData`: without `documentsInfo` the list is left as
   * it was; otherwise there is one document per entry, in entry order.
   */
  function AllDocuments(current: seq<Obj>, documentsInfo: Option<seq<(string, Obj)>>): (r: seq<Obj>)
    ensures documentsInfo.None? ==> r == current
    ensures documentsInfo.Some? ==> |r| == |documentsInfo.value|
    ensures documentsInfo.Some? ==> forall i :: 0 <= i < |r| ==>
      r[i] == Document(documentsInfo.value[i].0, documentsInfo.value[i].1)
  {
    match documentsInfo
    case None => current
    case Some(entries) =>
      seq(|entries|, i requires 0 <= i < |entries| => Document(entries[i].0, entries[i].1))
  }

  /**
   * A document whose info carries no title is titled from its key; one
   * whose info has a title keeps it. Either way every other field is the
   * info's own.
   */
  lemma DocumentTitles(entries: seq<(string, Obj)>, current: seq<Obj>, i: int)
    requires 0 <= i < |entries|
    ensures var d := AllDocuments(current, Some(entries))[i];
      && ("title" !in entries[i].1 ==> Get(d, "title") == Str(Title(entries[i].0)))
      && ("title" in entries[i].1 ==> Get(d, "title") == entries[i].1["title"])
      && d.Keys == entries[i].1.Keys + {"title"}
  {
  }
}

=== FILE: numeric.dfy ===
/**
 * The integer side of JavaScript's string/number conversions: `parseInt(s)`,
 * `Number(s)` and `String(n)`. Numbers are integers here; `None` stands for NaN.
 */
module Numeric {
  import opened Wrappers
  import opened Text

  predicate IsDecDigit(c: char) {
    '0' <= c <= '9'
  }

  predicate IsHexLetter(c: char) {
    ('a' <= c <= 'f') || ('A' <= c <= 'F')
  }

  function DigitValue(c: char): nat {
    if IsDecDigit(c) then c as int - '0' as int
    else if 'a' <= c <= 'f' then c as int - 'a' as int + 10
    else if 'A' <= c <= 'F' then c as int - 'A' as int + 10
    else 99
  }

  /** `c` is a digit of the given radix (10 or 16). */
  predicate IsDigitIn(c: char, radix: nat) {
    (IsDecDigit(c) || IsHexLetter(c)) && DigitValue(c) < radix
  }

  ghost predicate AllDigits(s: string, radix: nat) {
    forall i :: 0 <= i < |s| ==> IsDigitIn(s[i], radix)
  }

  /** Positional value of a digit string, most significant digit first. */
  function DigitsValue(s: string, radix: nat): nat
    decreases |s|
  {
    if s == [] then 0
    else DigitsValue(s[..|s| - 1], radix) * radix + DigitValue(s[|s| - 1])
  }

  /** Length of the longest prefix of `s` made of radix digits. */
  function DigitPrefixLength(s: string, radix: nat): (n: nat)
    ensures n <= |s|
    ensures AllDigits(s[..n], radix)
    ensures n == |s| || !IsDigitIn(s[n], radix)
    decreases |s|
  {
    if s != [] && IsDigitIn(s[0], radix) then
      var k := DigitPrefixLength(s[1..], radix);
      assert s[..k + 1] == [s[0]] + s[1..][..k];
      k + 1
    else 0
  }

  /** The decimal digits of `n`, without leading zeros. */
  function NatToString(n: nat): (s: string)
    ensures |s| >= 1
    ensures AllDigits(s, 10)
    ensures n == 0 <==> s == "0"
    ensures s[0] != '0' || s == "0"
    decreases n
  {
    if n < 10 then [(n + '0' as int) as char]
    else NatToString(n / 10) + [(n % 10 + '0' as int) as char]
  }

  /** `String(n)` for an integer `n`. */
  function IntToString(n: int): (s: string)
    ensures |s| >= 1
  {
    if n < 0 then "-" + NatToString(-n) else NatToString(n)
  }

  /** Reading the digits `NatToString` writes gives the number back. */
  lemma {:induction false} NatToStringValue(n: nat)
    ensures DigitsValue(NatToString(n), 10) == n
    decreases n
  {
    var s := NatToString(n);
    if n >= 10 {
      NatToStringValue(n / 10);
      assert s[..|s| - 1] == NatToString(n / 10);
    }
  }

  /**
   * The digits part of `parseInt`: a `0x`/`0X` prefix selects radix 16, and
   * the longest run of digits that follows is read; no digit at all is NaN.
   */
  function ParseMagnitude(u: string): Option<nat> {
    var hex := |u| >= 2 && u[0] == '0' && (u[1] == 'x' || u[1] == 'X');
    var v := if hex then u[2..] else u;
    var radix := if hex then 16 else 10;
    var k := DigitPrefixLength(v, radix);
    if k == 0 then None else Some(DigitsValue(v[..k], radix))
  }

  /**
   * `parseInt(s)` with no radix: leading whitespace is skipped and one sign is
   * accepted before the digits. `None` is NaN.
   */
  function ParseInt(s: string): (r: Option<int>)
  {
    var t := TrimStart(s);
    var negative := |t| > 0 && t[0] == '-';
    var u := if |t| > 0 && (t[0] == '-' || t[0] == '+') then t[1..] else t;
    match ParseMagnitude(u)
    case None => None
    case Some(m) => Some(if negative then -(m as int) else m as int)
  }

  lemma ParseMagnitudeOfNatToString(m: nat)
    ensures ParseMagnitude(NatToString(m)) == Some(m)
  {
    var digits := NatToString(m);
    NatToStringValue(m);
    var k := DigitPrefixLength(digits, 10);
    assert k == |digits|;
    assert digits[..k] == digits;
  }

  /** Parsing what `String(n)` prints gives `n` back. */
  lemma ParseIntOfIntToString(n: int)
    ensures ParseInt(IntToString(n)) == Some(n)
  {
    var s := IntToString(n);
    var m: nat := if n < 0 then -n else n;
    assert TrimStart(s) == s by {
      assert s[0] == '-' || IsDecDigit(s[0]);
    }
    ParseMagnitudeOfNatToString(m);
    if n < 0 {
      assert s[1..] == NatToString(m);
    } else {
      assert s == NatToString(m);
    }
  }

  /** `Number(String(n))` is `n`: the decimal rendering reads back through `Number`. */
  lemma StringToNumberOfIntToString(n: int)
    ensures StringToNumber(IntToString(n)) == Some(n)
  {
    var s := IntToString(n);
    var m: nat := if n < 0 then -n else n;
    var digits := NatToString(m);
    assert s == if n < 0 then "-" + digits else digits;
    forall i | 0 <= i < |s| ensures !IsSpace(s[i]) {
      if n < 0 && i == 0 {
        assert s[i] == '-';
      } else {
        var k := if n < 0 then i - 1 else i;
        assert s[i] == digits[k];
        assert IsDigitIn(digits[k], 10);
      }
    }
    TrimNoSpace(s);
    NatToStringValue(m);
    var u := if n < 0 then s[1..] else s;
    assert u == digits;
    var k := DigitPrefixLength(u, 10);
    assert k == |u|;
    assert u[..k] == u;
  }

  /**
   * `Number(s)` for a string: surrounding whitespace is ignored, the empty
   * string is 0, a `0x` prefix reads hexadecimal, otherwise one optional sign
   * and decimal digits must make up the whole string. Other strings are NaN
   * here. That includes the literal forms `Number` reads but that fall outside
   * the integers or this model: fractions and exponents ("1.0", "1e3"),
   * `0b` and `0o` prefixes, and "Infinity".
   */
  function StringToNumber(s: string): (r: Option<int>)
    ensures Trim(s) == "" ==> r == Some(0)
  {
    var t := Trim(s);
    if t == "" then Some(0)
    else if |t| >= 2 && t[0] == '0' && (t[1] == 'x' || t[1] == 'X') then
      var v := t[2..];
      if v != [] && DigitPrefixLength(v, 16) == |v| then
        assert v[..|v|] == v;
        Some(DigitsValue(v, 16))
      else None
    else
      var negative := t[0] == '-';
      var u := if t[0] == '-' || t[0] == '+' then t[1..] else t;
      if u != [] && DigitPrefixLength(u, 10) == |u| then
        var magnitude: int := DigitsValue(u, 10);
        Some(if negative then -magnitude else magnitude)
      else None
  }
}

=== FILE: pages_table.dfy ===
/**
 * The pages table: its state, the search over name and url that resets the
 * page number, the guarded Previous/Next handlers, the save handler that
 * either merges the form into the page being edited or appends the page the
 * server returned, and the local delete.
 */
module PagesTable {
  import opened Wrappers
  import opened JsValue
  import opened JsObject
  import opened Text
  import opened Seqs
  import opened Search
  import opened EntityList
  import opened Paging

  /** The component state the handlers read and write. */
  datatype State = State(
    pages: seq<Obj>,
    search: string,
    currentPage: int,
    form: Obj,
    editPage: Option<Obj>)

  /** `{ name: "", url: "" }`. */
  const BlankForm: Obj := map["name" := Str(""), "url" := Str("")]

  /** The state after mounting, with the list loaded. */
  function Initial(pages: seq<Obj>): State {
    State(pages, "", 1, BlankForm, None)
  }

  // ---------------------------------------------------------------------------
  // Search and pagination
  // ---------------------------------------------------------------------------

  /** `p.name.toLowerCase().includes(q) || p.url.toLowerCase().includes(q)`. */
  function Matches(page: Obj, search: string): Completion<bool> {
    OrElse(LowerIncludes(Get(page, "name"), search), LowerIncludes(Get(page, "url"), search))
  }

  /** `filteredPages`. */
  function Filtered(pages: seq<Obj>, search: string): Completion<seq<Obj>> {
    FilterThrowing(pages, Matcher(search))
  }

  /** The filter callback. */
  function Matcher(search: string): Obj -> Completion<bool> {
    p => Matches(p, search)
  }

  /** What the search looks for in a well-formed page. */
  predicate Found(page: Obj, search: string)
    requires WellFormed(page)
  {
    IncludesFolded(Get(page, "name").s, search) || IncludesFolded(Get(page, "url").s, search)
  }

  /** Both searched fields are strings. */
  predicate WellFormed(page: Obj) {
    Get(page, "name").Str? && Get(page, "url").Str?
  }

  /**
   * With string names and urls the search does not throw and keeps, in order,
   * exactly the pages whose name or url contains the query.
   */
  lemma FilteredSound(pages: seq<Obj>, search: string)
    requires forall i :: 0 <= i < |pages| ==> WellFormed(pages[i])
    ensures Filtered(pages, search).Normal?
    ensures Subseq(Filtered(pages, search).value, pages)
    ensures forall o :: o in Filtered(pages, search).value <==>
      o in pages && (IncludesFolded(Get(o, "name").s, search) || IncludesFolded(Get(o, "url").s, search))
  {
    forall i | 0 <= i < |pages|
      ensures Matches(pages[i], search).Normal?
      ensures Matches(pages[i], search).value <==> Found(pages[i], search)
    {
      MatchesMeaning(pages[i], search);
    }
    FilterThrowingMeaning(pages, Matcher(search), o => WellFormed(o) && Found(o, search));
  }

  /** On a well-formed page the search test does not throw and means `Found`. */
  lemma MatchesMeaning(page: Obj, search: string)
    requires WellFormed(page)
    ensures Matches(page, search) == Normal(Found(page, search))
  {
  }

  /** `currentRecords`: the current page of the filtered pages. */
  function CurrentRecords(s: State): (r: Completion<seq<Obj>>)
    ensures r.Throw? <==> Filtered(s.pages, s.search).Throw?
    ensures r.Normal? ==> |r.value| <= PageSize
  {
    match Filtered(s.pages, s.search)
    case Throw => Throw
    case Normal(rows) => Normal(Page(rows, s.currentPage))
  }

  /** The number of pages of the filtered list. */
  function PageCount(s: State): Completion<nat> {
    match Filtered(s.pages, s.search)
    case Throw => Throw
    case Normal(rows) => Normal(TotalPages(|rows|))
  }

  /** The search box: `setSearch(q); setCurrentPage(1)`. */
  function SetSearch(s: State, q: string): (r: State)
    ensures r.search == q && r.currentPage == 1
    ensures r.pages == s.pages && r.form == s.form && r.editPage == s.editPage
  {
    s.(search := q, currentPage := 1)
  }

  /**
   * After a new search the page number is in range whatever the result size,
   * and the records shown are the first rows of the result.
   */
  lemma SetSearchShowsFirstPage(s: State, q: string)
    requires Filtered(s.pages, q).Normal?
    ensures InRange(SetSearch(s, q).currentPage, TotalPages(|Filtered(s.pages, q).value|))
    ensures var rows := Filtered(s.pages, q).value;
      CurrentRecords(SetSearch(s, q)) == Normal(rows[..if PageSize < |rows| then PageSize else |rows|])
  {
    var rows := Filtered(s.pages, q).value;
    PageContents(rows, 1);
    if rows == [] {
      assert Page(rows, 1) == [];
    }
  }

  /** `handlePrevPage` / `handleNextPage`, against the filtered page count. */
  function Navigate(s: State, c: Click): (r: Completion<State>)
    ensures r.Throw? <==> PageCount(s).Throw?
    ensures r.Normal? ==> r.value == s.(currentPage := StepGuarded(s.currentPage, PageCount(s).value, c))
  {
    match PageCount(s)
    case Throw => Throw
    case Normal(total) => Normal(s.(currentPage := StepGuarded(s.currentPage, total, c)))
  }

  /** A click keeps a page number that is in range in range. */
  lemma NavigateStaysInRange(s: State, c: Click)
    requires PageCount(s).Normal? && InRange(s.currentPage, PageCount(s).value)
    ensures InRange(Navigate(s, c).value.currentPage, PageCount(s).value)
    ensures Navigate(s, c).value.currentPage >= 1
  {
    GuardedStaysInRange(s.currentPage, PageCount(s).value, [c]);
  }

  // ---------------------------------------------------------------------------
  // Save and delete
  // ---------------------------------------------------------------------------

  /** What the save handler reports. */
  datatype Notice = FillRequired | LoginRedirect | UpdatedLocally | Added

  /** The edit button: remember the page and copy its name and url into the form. */
  function EditClick(s: State, page: Obj): (r: State)
    ensures r.editPage == Some(page) && Get(r.form, "name") == Get(page, "name") && Get(r.form, "url") == Get(page, "url")
  {
    s.(editPage := Some(page), form := map["name" := Get(page, "name"), "url" := Get(page, "url")])
  }

  /** `prev.map(p => p.id === editPage.id ? {...p, ...formData} : p)`. */
  function MergeEdit(pages: seq<Obj>, edited: Obj, form: Obj): (r: seq<Obj>)
    ensures |r| == |pages|
    ensures forall k :: 0 <= k < |pages| && !HasId(pages[k], IdOf(edited)) ==> r[k] == pages[k]
    ensures forall k :: 0 <= k < |pages| && HasId(pages[k], IdOf(edited)) ==>
      (forall key :: Get(r[k], key) == if key in form then form[key] else Get(pages[k], key))
  {
    MapWhere(pages, p => HasId(p, IdOf(edited)), p => Spread(p, form))
  }

  /**
   * `handleSavePage`: an empty name or url changes nothing; without a token
   * the user is sent to the login page; otherwise the edited page is merged
   * locally or the server's new page is appended, and the form is cleared.
   */
  function SavePage(s: State, token: Value, created: Obj): (r: (State, Notice))
    ensures !Truthy(Get(s.form, "name")) || !Truthy(Get(s.form, "url")) <==> r.1 == FillRequired
    ensures r.1 == FillRequired || r.1 == LoginRedirect ==> r.0 == s
    ensures r.1 == LoginRedirect <==> r.1 != FillRequired && !Truthy(token)
    ensures r.1 == UpdatedLocally ==> s.editPage.Some? && r.0.pages == MergeEdit(s.pages, s.editPage.value, s.form)
    ensures r.1 == Added ==> s.editPage.None? && r.0.pages == s.pages + [created]
    ensures r.1 == UpdatedLocally || r.1 == Added ==>
      r.0.form == BlankForm && r.0.editPage.None? && r.0.search == s.search && r.0.currentPage == s.currentPage
  {
    if !Truthy(Get(s.form, "name")) || !Truthy(Get(s.form, "url")) then (s, FillRequired)
    else if !Truthy(token) then (s, LoginRedirect)
    else
      match s.editPage
      case Some(edited) => (s.(pages := MergeEdit(s.pages, edited, s.form), form := BlankForm, editPage := None), UpdatedLocally)
      case None => (s.(pages := Append(s.pages, created), form := BlankForm, editPage := None), Added)
  }

  /** A second save right after a successful one is refused: the form is blank. */
  lemma SaveTwiceRefused(s: State, token: Value, created: Obj)
    requires SavePage(s, token, created).1 in {UpdatedLocally, Added}
    ensures SavePage(SavePage(s, token, created).0, token, created).1 == FillRequired
  {
  }

  /**
   * Opening a page for editing and saving without changes leaves the list as
   * it was, when the page has a name and url and no other page shares its id.
   */
  lemma SaveUnchangedEdit(s: State, page: Obj, token: Value, created: Obj)
    requires Truthy(token) && "name" in page && "url" in page
    requires Truthy(page["name"]) && Truthy(page["url"])
    requires forall k :: 0 <= k < |s.pages| && HasId(s.pages[k], IdOf(page)) ==> s.pages[k] == page
    ensures SavePage(EditClick(s, page), token, created).1 == UpdatedLocally
    ensures SavePage(EditClick(s, page), token, created).0.pages == s.pages
  {
    var form := EditClick(s, page).form;
    var merged := MergeEdit(s.pages, page, form);
    forall k | 0 <= k < |s.pages| ensures merged[k] == s.pages[k] {
      if HasId(s.pages[k], IdOf(page)) {
        assert Spread(page, form) == page;
      }
    }
  }

  /** `prev.filter(p => p.id !== pageToDelete.id)`. */
  function DeletePage(s: State, target: Obj): (r: State)
    ensures forall o :: o in r.pages <==> o in s.pages && !HasId(o, IdOf(target))
    ensures Subseq(r.pages, s.pages)
    ensures r.search == s.search && r.currentPage == s.currentPage && r.form == s.form
  {
    RemoveByIdKeeps(s.pages, IdOf(target));
    s.(pages := RemoveById(s.pages, IdOf(target)))
  }
}

=== FILE: paging.dfy ===
/**
 * Ten-row pagination shared by the tables: page `p` is
 * `rows.slice((p - 1) * 10, p * 10)`, and there are `Math.ceil(n / 10)` pages.
 * Two navigation rules appear: the equality rule (Next is disabled when
 * `currentPage === totalPages`) and the guarded rule (`handleNextPage` moves
 * only while `currentPage < totalPages`).
 */
module Paging {
  import opened Seqs

  const PageSize: nat := 10

  /** `Math.ceil(n / 10)`. */
  function TotalPages(n: nat): (t: nat)
    ensures n == 0 <==> t == 0
    ensures (t - 1) * PageSize < n <= t * PageSize || n == t == 0
  {
    (n + PageSize - 1) / PageSize
  }

  /** The rows shown on page `p`. */
  function Page<T>(rows: seq<T>, p: int): (r: seq<T>)
    ensures |r| <= PageSize
  {
    PageBound(|rows|, p);
    Slice(rows, (p - 1) * PageSize, p * PageSize)
  }

  lemma PageBound(n: nat, p: int)
    ensures RelIndex(p * PageSize, n) - RelIndex((p - 1) * PageSize, n) <= PageSize
  {
  }

  /**
   * Page `p` (from 1) is non-empty exactly when `p` is at most the page count,
   * and then it is the `p`-th block of ten rows, the last one possibly shorter.
   */
  lemma PageContents<T>(rows: seq<T>, p: int)
    requires p >= 1
    ensures Page(rows, p) != [] <==> p <= TotalPages(|rows|)
    ensures p <= TotalPages(|rows|) ==>
      Page(rows, p) == rows[(p - 1) * PageSize..if p * PageSize < |rows| then p * PageSize else |rows|]
  {
  }

  /** Every row on a page is a row of the table. */
  lemma PageMembers<T>(rows: seq<T>, p: int)
    ensures forall x :: x in Page(rows, p) ==> x in rows
  {
    var a := RelIndex((p - 1) * PageSize, |rows|);
    var b := RelIndex(p * PageSize, |rows|);
    forall x | x in Page(rows, p) ensures x in rows {
      var i :| 0 <= i < |Page(rows, p)| && Page(rows, p)[i] == x;
      assert rows[a + i] == x;
    }
  }

  /** Pages `1..k` one after another. */
  function FirstPages<T>(rows: seq<T>, k: nat): seq<T>
    decreases k
  {
    if k == 0 then [] else FirstPages(rows, k - 1) + Page(rows, k)
  }

  lemma {:induction false} FirstPagesPrefix<T>(rows: seq<T>, k: nat)
    requires k <= TotalPages(|rows|)
    ensures FirstPages(rows, k) == rows[..if k * PageSize < |rows| then k * PageSize else |rows|]
    decreases k
  {
    if k > 0 {
      FirstPagesPrefix(rows, k - 1);
      PageContents(rows, k);
    }
  }

  /** Reading every page in order gives back every row, each once. */
  lemma AllPages<T>(rows: seq<T>)
    ensures FirstPages(rows, TotalPages(|rows|)) == rows
  {
    FirstPagesPrefix(rows, TotalPages(|rows|));
  }

  // ---------------------------------------------------------------------------
  // Navigation
  // ---------------------------------------------------------------------------

  /** Previous under the equality rule: the button is disabled on page 1. */
  function PrevByEquality(current: int): (r: int)
    ensures current == 1 ==> r == current
    ensures current != 1 ==> r == current - 1
  {
    if current == 1 then current else current - 1
  }

  /** Next under the equality rule: the button is disabled only on the page equal to the count. */
  function NextByEquality(current: int, total: nat): (r: int)
    ensures current == total ==> r == current
    ensures current != total ==> r == current + 1
  {
    if current == total then current else current + 1
  }

  /** `handlePrevPage`: moves back only while `currentPage > 1`. */
  function PrevGuarded(current: int): (r: int)
    ensures current > 1 ==> r == current - 1
    ensures current <= 1 ==> r == current
  {
    if current > 1 then current - 1 else current
  }

  /** `handleNextPage`: moves on only while `currentPage < totalPages`. */
  function NextGuarded(current: int, total: nat): (r: int)
    ensures current < total ==> r == current + 1
    ensures current >= total ==> r == current
  {
    if current < total then current + 1 else current
  }

  /** A page number the pager can show: 1 with no rows, else between 1 and the count. */
  predicate InRange(current: int, total: nat) {
    1 <= current <= (if total == 0 then 1 else total)
  }

  /** A click of Previous or Next. */
  datatype Click = Prev | Next

  function StepGuarded(current: int, total: nat, c: Click): int {
    match c
    case Prev => PrevGuarded(current)
    case Next => NextGuarded(current, total)
  }

  function StepByEquality(current: int, total: nat, c: Click): int {
    match c
    case Prev => PrevByEquality(current)
    case Next => NextByEquality(current, total)
  }

  function RunGuarded(current: int, total: nat, clicks: seq<Click>): int
    decreases |clicks|
  {
    if clicks == [] then current else RunGuarded(StepGuarded(current, total, clicks[0]), total, clicks[1..])
  }

  function RunByEquality(current: int, total: nat, clicks: seq<Click>): int
    decreases |clicks|
  {
    if clicks == [] then current else RunByEquality(StepByEquality(current, total, clicks[0]), total, clicks[1..])
  }

  /** Under the guarded rule any sequence of clicks keeps the page in range. */
  lemma {:induction false} GuardedStaysInRange(current: int, total: nat, clicks: seq<Click>)
    requires InRange(current, total)
    ensures InRange(RunGuarded(current, total, clicks), total)
    decreases |clicks|
  {
    if clicks != [] {
      GuardedStaysInRange(StepGuarded(current, total, clicks[0]), total, clicks[1..]);
    }
  }

  /** Under the equality rule the page never drops below 1. */
  lemma {:induction false} EqualityStaysPositive(current: int, total: nat, clicks: seq<Click>)
    requires current >= 1
    ensures RunByEquality(current, total, clicks) >= 1
    decreases |clicks|
  {
    if clicks != [] {
      EqualityStaysPositive(StepByEquality(current, total, clicks[0]), total, clicks[1..]);
    }
  }

  /**
   * Under the equality rule an empty table lets Next move from page 1 to
   * page 2 of 0, and every further Next goes one page further.
   */
  lemma EqualityEscapesEmptyTable(k: nat)
    ensures NextByEquality(1, 0) == 2
    ensures !InRange(NextByEquality(1, 0), 0)
    ensures RunByEquality(1, 0, seq(k, _ => Next)) == 1 + k
  {
    RunNextOnEmpty(1, k);
  }

  lemma {:induction false} RunNextOnEmpty(current: int, k: nat)
    requires current >= 1
    ensures RunByEquality(current, 0, seq(k, _ => Next)) == current + k
    decreases k
  {
    if k > 0 {
      var clicks := seq(k, _ => Next);
      assert clicks[0] == Next && clicks[1..] == seq(k - 1, _ => Next);
      RunNextOnEmpty(current + 1, k - 1);
    }
  }

  /**
   * Once the page is past the count (a search shrank the rows), the equality
   * rule never disables Next again.
   */
  lemma EqualityPastEndKeepsGoing(current: int, total: nat)
    requires current > total
    ensures NextByEquality(current, total) == current + 1
    ensures Page(seq(total * PageSize, _ => 0), current) == []
  {
    PageContents(seq(total * PageSize, _ => 0), current);
  }
}

/** `toggleExpandRow`/`toggleRow` over an id list, and `toggleAll`. */
module Selection {
  import opened JsValue
  import opened Seqs

  /** `prev.includes(id) ? prev.filter(x => x !== id) : [...prev, id]`. */
  function Toggle(ids: seq<Value>, id: Value): (r: seq<Value>)
    ensures id in ids ==> r == Filter(ids, x => !StrictEquals(x, id))
    ensures id !in ids ==> r == ids + [id]
  {
    if id in ids then Filter(ids, x => !StrictEquals(x, id)) else ids + [id]
  }

  /**
   * For any id but NaN, toggling flips the id's membership and leaves every
   * other id's membership alone.
   */
  lemma ToggleMembership(ids: seq<Value>, id: Value, other: Value)
    requires !id.NaN?
    ensures id in Toggle(ids, id) <==> id !in ids
    ensures other != id ==> (other in Toggle(ids, id) <==> other in ids)
  {
    var p := x => !StrictEquals(x, id);
    FilterMembers(ids, p, id);
    FilterMembers(ids, p, other);
  }

  /** NaN is found by `includes` but never removed by `!==`: its toggle is stuck. */
  lemma ToggleNaNStuck(ids: seq<Value>)
    requires NaN in ids
    ensures Toggle(ids, NaN) == ids
  {
    FilterAll(ids, x => !StrictEquals(x, NaN));
  }

  ghost predicate NoDuplicates(ids: seq<Value>) {
    forall i, j :: 0 <= i < j < |ids| ==> ids[i] != ids[j]
  }

  lemma {:induction false} FilterNoDuplicates(ids: seq<Value>, p: Value -> bool)
    requires NoDuplicates(ids)
    ensures NoDuplicates(Filter(ids, p))
    decreases |ids|
  {
    if ids != [] {
      FilterNoDuplicates(ids[1..], p);
      if p(ids[0]) {
        FilterMembers(ids[1..], p, ids[0]);
      }
    }
  }

  /** Toggling never creates a duplicate id. */
  lemma ToggleNoDuplicates(ids: seq<Value>, id: Value)
    requires NoDuplicates(ids)
    ensures NoDuplicates(Toggle(ids, id))
  {
    if id in ids {
      FilterNoDuplicates(ids, x => !StrictEquals(x, id));
    }
  }

  /**
   * Toggling an id twice restores the list when the id was absent, and
   * restores the set of ids when it was present (it moves to the end).
   */
  lemma ToggleTwice(ids: seq<Value>, id: Value)
    requires !id.NaN?
    ensures id !in ids ==> Toggle(Toggle(ids, id), id) == ids
    ensures forall x :: x in Toggle(Toggle(ids, id), id) <==> x in ids
  {
    var p := x => !StrictEquals(x, id);
    if id !in ids {
      assert id in ids + [id];
      FilterAppend(ids, [id], p);
      FilterAll(ids, p);
    } else {
      FilterMembers(ids, p, id);
      forall x ensures x in Toggle(Toggle(ids, id), id) <==> x in ids {
        FilterMembers(ids, p, x);
      }
    }
  }

  /**
   * `toggleAll`: clear the selection when its size equals the page's row
   * count, otherwise select exactly the page's ids.
   */
  function ToggleAll(selected: seq<Value>, pageIds: seq<Value>): (r: seq<Value>)
    ensures |selected| == |pageIds| ==> r == []
    ensures |selected| != |pageIds| ==> r == pageIds
  {
    if |selected| == |pageIds| then [] else pageIds
  }

  /**
   * The rule compares sizes, not contents: a selection of as many ids from
   * another page is cleared instead of replaced.
   */
  lemma ToggleAllComparesSizes(selected: seq<Value>, pageIds: seq<Value>)
    requires |selected| == |pageIds| > 0
    requires forall i :: 0 <= i < |pageIds| ==> pageIds[i] !in selected
    ensures ToggleAll(selected, pageIds) == []
    ensures forall i :: 0 <= i < |pageIds| ==> pageIds[i] !in ToggleAll(selected, pageIds)
  {
  }

  /** `expandedRow === id ? null : id`: one expanded row at a time. */
  function ToggleSingle(current: Value, id: Value): (r: Value)
    ensures StrictEquals(current, id) ==> r == Null
    ensures !StrictEquals(current, id) ==> r == id
  {
    if StrictEquals(current, id) then Null else id
  }

  /** Clicking the same non-NaN, non-null row twice collapses it back. */
  lemma ToggleSingleTwice(current: Value, id: Value)
    requires !id.NaN? && !id.Null?
    ensures ToggleSingle(ToggleSingle(current, id), id) == (if current == id then id else Null)
  {
  }
}

=== FILE: pdi_tab.dfy ===
/**
 * The personal-discussion tab's document list: only the documents uploaded
 * against its questions.
 */
module PdiTab {
  import opened Wrappers
  import opened JsValue
  import opened JsObject
  import opened QuestionDocs

  /** The PDI report; a missing or falsy question list is `None`. */
  datatype PdiData = PdiData(questions: Option<seq<Obj>>)

  /**
   * The effect on `pdiData`: without a report the list is left as it was;
   * otherwise it is exactly the uploaded documents, in question order.
   */
  function AllDocuments(current: seq<Entry>, pdiData: Option<PdiData>): (r: seq<Entry>)
    ensures pdiData.None? ==> r == current
    ensures pdiData.Some? ==> r == Uploads(pdiData.value.questions.GetOr([]))
    ensures pdiData.Some? && pdiData.value.questions.None? ==> r == []
  {
    match pdiData
    case None => current
    case Some(d) =>
      var qs := d.questions.GetOr([]);
      FromQuestionsIsUploads(qs);
      FromQuestions(qs)
  }
}

=== FILE: question_docs.dfy ===
/**
 * The document lists the FI and PDI tabs derive from a report: each
 * question that has an uploaded document contributes that document as
 * "attached".
 */
module QuestionDocs {
  import opened JsValue
  import opened JsObject
  import opened Seqs

  /** One listed document: its name and status as the report gives them. */
  datatype Entry = Entry(name: Value, status: Value)

  /** The question's `uploadedDocument` is truthy. */
  predicate HasUpload(q: Obj) {
    Truthy(Get(q, "uploadedDocument"))
  }

  /** The entry a question with an upload contributes. */
  function Attached(q: Obj): Entry {
    Entry(Get(q, "uploadedDocument"), Str("attached"))
  }

  /**
   * `questions.map(q => q.uploadedDocument ? {name, status: "attached"} : null)
   *  .filter(Boolean)`.
   */
  function FromQuestions(questions: seq<Obj>): (r: seq<Entry>)
    ensures |r| <= |questions|
    ensures forall i :: 0 <= i < |r| ==> r[i].status == Str("attached") && Truthy(r[i].name)
    decreases |questions|
  {
    if questions == [] then []
    else
      var q := questions[0];
      (if HasUpload(q) then [Attached(q)] else []) + FromQuestions(questions[1..])
  }

  /** The uploaded documents, in question order: those of the questions that have one. */
  function Uploads(questions: seq<Obj>): seq<Entry> {
    var withDoc := Filter(questions, HasUpload);
    seq(|withDoc|, i requires 0 <= i < |withDoc| => Attached(withDoc[i]))
  }

  /**
   * Mapping to entries and dropping the nulls is the same as keeping the
   * questions with an upload and mapping those.
   */
  lemma {:induction false} FromQuestionsIsUploads(questions: seq<Obj>)
    ensures FromQuestions(questions) == Uploads(questions)
    decreases |questions|
  {
    if questions != [] {
      FromQuestionsIsUploads(questions[1..]);
      var q := questions[0];
      var rest := Filter(questions[1..], HasUpload);
      if HasUpload(q) {
        assert Filter(questions, HasUpload) == [q] + rest;
      } else {
        assert Filter(questions, HasUpload) == rest;
      }
    }
  }

  /** Questions without an upload contribute nothing. */
  lemma {:induction false} NoUploadsNoEntries(questions: seq<Obj>)
    requires forall i :: 0 <= i < |questions| ==> !HasUpload(questions[i])
    ensures FromQuestions(questions) == []
    decreases |questions|
  {
    if questions != [] {
      NoUploadsNoEntries(questions[1..]);
    }
  }
}

=== FILE: roles_table.dfy ===
/**
 * The roles table: its schema, the add and update guards, the search over
 * name, company and description, and the delete update. Rows are the API's
 * role records as received.
 */
module RolesTable {
  import opened Wrappers
  import opened JsValue
  import opened JsObject
  import opened Text
  import opened Seqs
  import opened Schema
  import opened Search
  import opened EntityList

  // ---------------------------------------------------------------------------
  // The form
  // ---------------------------------------------------------------------------

  const NameRequired := "Role Name is required"

  /** `roleSchema`: a non-empty name and an optional string description. */
  const Rules: seq<FieldRule> := [
    FieldRule("name", false, MinLength(1, NameRequired)),
    FieldRule("description", true, NoCheck)
  ]

  /** The draft satisfies `roleSchema`. */
  predicate DraftValid(draft: Obj) {
    var name := Get(draft, "name");
    var description := Get(draft, "description");
    name.Str? && |name.s| >= 1 && (description.Undefined? || description.Str?)
  }

  lemma RulesAgree(draft: Obj)
    ensures Passes(Rules, draft, NoEmailField) <==> DraftValid(draft)
  {
    var ok := forall i :: 0 <= i < |Rules| ==> FieldValid(Rules[i], Get(draft, Rules[i].key), NoEmailField);
    assert ok <==> FieldValid(Rules[0], Get(draft, "name"), NoEmailField) && FieldValid(Rules[1], Get(draft, "description"), NoEmailField);
  }

  /** What a submit of the role dialog leads to. */
  datatype Outcome =
    | NoOp
    | Invalid(fieldErrors: map<string, seq<string>>)
    | MissingSession
    | Put(id: Value, body: Obj)
    | Post(body: Obj)

  function Body(draft: Obj): Obj {
    map["name" := Get(draft, "name"), "description" := Get(draft, "description")]
  }

  /**
   * `handleUpdateRole`: nothing without a role being edited; then the
   * schema, then the token; only then the request.
   */
  function HandleUpdateRole(editing: Option<Obj>, draft: Obj, token: Value): (r: Outcome)
    ensures editing.None? ==> r == NoOp
    ensures editing.Some? ==> (r.Invalid? <==> !DraftValid(draft))
    ensures r.Invalid? ==> r.fieldErrors.Keys != {} && r.fieldErrors.Keys <= {"name", "description"}
    ensures r.MissingSession? <==> editing.Some? && DraftValid(draft) && !Truthy(token)
    ensures r.Put? ==> r.id == IdOf(editing.value)
    ensures r.Put? ==> r.body == map["name" := Get(draft, "name"), "description" := Get(draft, "description")]
    ensures !r.Post?
  {
    if editing.None? then NoOp
    else
      var issues := Issues(Rules, draft, NoEmailField);
      RulesAgree(draft);
      if issues != [] then Invalid(ErrorsOf(draft))
      else if !Truthy(token) then MissingSession
      else Put(IdOf(editing.value), Body(draft))
  }

  /** `error.flatten().fieldErrors` of a draft that fails the schema. */
  function ErrorsOf(draft: Obj): (e: map<string, seq<string>>)
    requires !DraftValid(draft)
    ensures e.Keys != {} && e.Keys <= {"name", "description"}
    ensures "name" in e <==> !FieldValid(Rules[0], Get(draft, "name"), NoEmailField)
    ensures "description" in e <==> !FieldValid(Rules[1], Get(draft, "description"), NoEmailField)
  {
    ErrorsOfFields(draft);
    FieldErrors(Issues(Rules, draft, NoEmailField))
  }

  lemma ErrorsOfFields(draft: Obj)
    requires !DraftValid(draft)
    ensures var e := FieldErrors(Issues(Rules, draft, NoEmailField));
      && e.Keys != {} && e.Keys <= {"name", "description"}
      && ("name" in e <==> !FieldValid(Rules[0], Get(draft, "name"), NoEmailField))
      && ("description" in e <==> !FieldValid(Rules[1], Get(draft, "description"), NoEmailField))
  {
    var e := FieldErrors(Issues(Rules, draft, NoEmailField));
    var nameOk := FieldValid(Rules[0], Get(draft, "name"), NoEmailField);
    var descriptionOk := FieldValid(Rules[1], Get(draft, "description"), NoEmailField);
    forall p ensures p in e <==> (p == "name" && !nameOk) || (p == "description" && !descriptionOk) {
      ErrorKey(draft, p);
    }
    assert !nameOk || !descriptionOk;
    KeysOfTwo(e, !nameOk, !descriptionOk);
  }

  /** A map keyed by exactly the failing ones of two fields, at least one failing. */
  lemma KeysOfTwo(e: map<string, seq<string>>, nameBad: bool, descriptionBad: bool)
    requires forall p :: p in e <==> (p == "name" && nameBad) || (p == "description" && descriptionBad)
    requires nameBad || descriptionBad
    ensures e.Keys != {} && e.Keys <= {"name", "description"}
    ensures ("name" in e <==> nameBad) && ("description" in e <==> descriptionBad)
  {
    if nameBad {
      assert "name" in e;
    } else {
      assert "description" in e;
    }
  }

  /** A key of the error object is a field of the schema that the draft fails. */
  lemma ErrorKey(draft: Obj, p: string)
    ensures p in FieldErrors(Issues(Rules, draft, NoEmailField)) <==>
      || (p == "name" && !FieldValid(Rules[0], Get(draft, "name"), NoEmailField))
      || (p == "description" && !FieldValid(Rules[1], Get(draft, "description"), NoEmailField))
  {
    FieldErrorsOfIssues(Rules, draft, NoEmailField, p);
    if p in FieldErrors(Issues(Rules, draft, NoEmailField)) {
      var i :| 0 <= i < |Rules| && Rules[i].key == p && !FieldValid(Rules[i], Get(draft, Rules[i].key), NoEmailField);
      assert i == 0 || i == 1;
    }
    if p == "name" && !FieldValid(Rules[0], Get(draft, "name"), NoEmailField) {
      assert Rules[0].key == p;
    }
    if p == "description" && !FieldValid(Rules[1], Get(draft, "description"), NoEmailField) {
      assert Rules[1].key == p;
    }
  }

  /**
   * The edit button copies the row's fields into the draft. A role whose
   * description came back as null cannot be saved: zod rejects null for an
   * optional string.
   */
  lemma NullDescriptionBlocksUpdate(role: Obj, token: Value)
    requires Get(role, "name").Str? && Get(role, "name").s != "" && Get(role, "description") == Null
    ensures var draft := map["name" := Get(role, "name"), "company" := Get(role, "company"), "description" := Get(role, "description")];
      HandleUpdateRole(Some(role), draft, token) ==
        Invalid(map["description" := ["Expected string, received null"]])
  {
    var draft := map["name" := Get(role, "name"), "company" := Get(role, "company"), "description" := Get(role, "description")];
    var issues := Issues(Rules, draft, NoEmailField);
    IssuesOfTwo(Rules[0], Rules[1], draft, NoEmailField);
    assert TypeMessage(Null) == "Expected string, received null";
    assert issues == [Issue("description", "Expected string, received null")];
    FieldErrorsSingle(issues[0]);
  }

  /**
   * `handleAddRole`: the schema first, then `Number(companyId)` and the
   * token must both be truthy; only then is the role posted.
   */
  function HandleAddRole(draft: Obj, storedCompanyId: Value, token: Value): (r: Outcome)
    ensures r.Invalid? <==> !DraftValid(draft)
    ensures r.MissingSession? <==> DraftValid(draft) && !(Truthy(ToNumber(storedCompanyId)) && Truthy(token))
    ensures r.Post? ==> r.body == map["company_id" := ToNumber(storedCompanyId), "name" := Get(draft, "name"), "description" := Get(draft, "description")]
    ensures r.Post? ==> Get(r.body, "company_id").Num? && Get(r.body, "company_id").n != 0
    ensures !r.NoOp? && !r.Put?
  {
    var issues := Issues(Rules, draft, NoEmailField);
    RulesAgree(draft);
    if issues != [] then Invalid(ErrorsOf(draft))
    else
      var companyId := ToNumber(storedCompanyId);
      if !Truthy(companyId) || !Truthy(token) then MissingSession
      else Post(map["company_id" := companyId, "name" := Get(draft, "name"), "description" := Get(draft, "description")])
  }

  /** A missing or empty stored company id reads as 0 and stops the add. */
  lemma AddWithoutCompanyAborts(draft: Obj, token: Value)
    requires DraftValid(draft)
    ensures HandleAddRole(draft, Null, token) == MissingSession
    ensures HandleAddRole(draft, Str(""), token) == MissingSession
  {
    NumberOfEmpty();
  }

  // ---------------------------------------------------------------------------
  // Search
  // ---------------------------------------------------------------------------

  /**
   * `role.name.toLowerCase().includes(q) || role.company.toLowerCase().includes(q)
   * || (role.description && role.description.toLowerCase().includes(q))`.
   */
  function Matches(role: Obj, search: string): Completion<bool> {
    OrElse(OrElse(LowerIncludes(Get(role, "name"), search), LowerIncludes(Get(role, "company"), search)),
           GuardedLowerIncludes(Get(role, "description"), search))
  }

  function FilterRows(rows: seq<Obj>, search: string): Completion<seq<Obj>> {
    FilterThrowing(rows, row => Matches(row, search))
  }

  predicate FieldContains(row: Obj, key: string, search: string) {
    Get(row, key).Str? && IncludesFolded(Get(row, key).s, search)
  }

  /**
   * A search that does not throw keeps, in order, exactly the roles whose
   * name, company or non-empty description contains the query.
   */
  lemma FilterRowsSound(rows: seq<Obj>, search: string)
    requires FilterRows(rows, search).Normal?
    ensures Subseq(FilterRows(rows, search).value, rows)
    ensures forall o :: o in FilterRows(rows, search).value <==>
      o in rows && (FieldContains(o, "name", search) || FieldContains(o, "company", search) ||
        (Truthy(Get(o, "description")) && FieldContains(o, "description", search)))
  {
    var m := row => Matches(row, search);
    FilterThrowingSubseq(rows, m);
    forall o ensures o in FilterRows(rows, search).value <==>
      o in rows && (FieldContains(o, "name", search) || FieldContains(o, "company", search) ||
        (Truthy(Get(o, "description")) && FieldContains(o, "description", search)))
    {
      FilterMembers(rows, x => Holds(m, x), o);
      if o in rows {
        var i :| 0 <= i < |rows| && rows[i] == o;
        assert m(rows[i]).Normal?;
      }
    }
  }

  /**
   * The role records carry `company_id`, not `company`: a record without
   * `company` whose name does not match throws, and so does the whole search.
   */
  lemma MissingCompanyThrows()
    ensures FilterRows([map["id" := Num(1), "name" := Str("Admin")]], "x").Throw?
  {
    var role: Obj := map["id" := Num(1), "name" := Str("Admin")];
    assert Lower("x") == ['x'];
    IncludesChar(Lower("Admin"), 'x');
    assert Matches(role, "x").Throw?;
    var rows := [role];
    assert rows[0] == role;
  }

  /** The search with `role.company?.toLowerCase()`: a missing company does not match. */
  function MatchesFixed(role: Obj, search: string): Completion<bool> {
    OrElse(OrElse(LowerIncludes(Get(role, "name"), search), OptLowerIncludes(Get(role, "company"), search)),
           GuardedLowerIncludes(Get(role, "description"), search))
  }

  function FilterRowsFixed(rows: seq<Obj>, search: string): Completion<seq<Obj>> {
    FilterThrowing(rows, row => MatchesFixed(row, search))
  }

  /**
   * With string names, string or absent companies and string or absent
   * descriptions, the fixed search never throws; wherever the original does
   * not throw the two agree.
   */
  lemma FilterRowsFixedTotal(rows: seq<Obj>, search: string)
    requires forall i :: 0 <= i < |rows| ==> Get(rows[i], "name").Str?
    requires forall i :: 0 <= i < |rows| ==> Get(rows[i], "company").Str? || Nullish(Get(rows[i], "company"))
    requires forall i :: 0 <= i < |rows| ==> Get(rows[i], "description").Str? || !Truthy(Get(rows[i], "description"))
    ensures FilterRowsFixed(rows, search).Normal?
    ensures forall o :: Matches(o, search).Normal? ==> MatchesFixed(o, search) == Matches(o, search)
  {
  }

  // ---------------------------------------------------------------------------
  // Delete
  // ---------------------------------------------------------------------------

  /** `prev.filter(r => r.id !== roleToDelete.id)`. */
  function DeleteRole(rows: seq<Obj>, target: Obj): (r: seq<Obj>)
    ensures forall o :: o in r <==> o in rows && !HasId(o, IdOf(target))
    ensures Subseq(r, rows)
    ensures RemoveById(r, IdOf(target)) == r
  {
    RemoveByIdKeeps(rows, IdOf(target));
    RemoveById(rows, IdOf(target))
  }
}

=== FILE: schema.dfy ===
/**
 * The part of zod the forms use: `z.object` of string fields, each optional
 * or required, with at most one check (`min(n)` or `email()`), validated in
 * field order into a list of issues. Email syntax is a caller-supplied
 * predicate. Lengths count characters.
 */
module Schema {
  import opened JsValue
  import opened JsObject

  datatype Check =
    | NoCheck
    | MinLength(min: nat, message: string)
    | EmailCheck(message: string)

  /** One `key: z.string()...` entry of a `z.object`. */
  datatype FieldRule = FieldRule(key: string, optional: bool, check: Check)

  /** A validation failure at `path` (the field's key). */
  datatype Issue = Issue(path: string, message: string)

  /** zod's name for the type of a non-string value, as it appears in "Expected string, received …". */
  function ReceivedType(v: Value): string {
    match v
    case Undefined => "undefined"
    case Null => "null"
    case Bool(_) => "boolean"
    case Num(_) => "number"
    case NaN => "nan"
    case Str(_) => "string"
    case Arr(_) => "array"
  }

  /** The message of a type failure: a missing required field is "Required". */
  function TypeMessage(v: Value): string {
    if v.Undefined? then "Required" else "Expected string, received " + ReceivedType(v)
  }

  /** The string satisfies the check. */
  predicate CheckHolds(c: Check, s: string, isEmail: string -> bool) {
    match c
    case NoCheck => true
    case MinLength(n, _) => |s| >= n
    case EmailCheck(_) => isEmail(s)
  }

  function CheckMessage(c: Check): string {
    match c
    case NoCheck => ""
    case MinLength(_, m) => m
    case EmailCheck(m) => m
  }

  /** The email test for a schema that has no email field: it is never consulted. */
  const NoEmailField: string -> bool := _ => true

  /** The field's value is acceptable. */
  predicate FieldValid(rule: FieldRule, v: Value, isEmail: string -> bool) {
    (rule.optional && v.Undefined?) || (v.Str? && CheckHolds(rule.check, v.s, isEmail))
  }

  /** The message of an invalid field: the type failure for a non-string, else the check's own. */
  function FieldMessage(rule: FieldRule, v: Value): string {
    if !v.Str? then TypeMessage(v) else CheckMessage(rule.check)
  }

  /** The issues of one field: none when it is valid, else one issue. */
  function FieldIssues(rule: FieldRule, v: Value, isEmail: string -> bool): (r: seq<Issue>)
    ensures r == [] <==> FieldValid(rule, v, isEmail)
    ensures |r| <= 1
    ensures forall i :: 0 <= i < |r| ==> r[i] == Issue(rule.key, FieldMessage(rule, v))
  {
    if FieldValid(rule, v, isEmail) then []
    else [Issue(rule.key, FieldMessage(rule, v))]
  }

  /** The issues of the whole object, field by field in schema order. */
  function Issues(rules: seq<FieldRule>, o: Obj, isEmail: string -> bool): (r: seq<Issue>)
    ensures r == [] <==> forall i :: 0 <= i < |rules| ==> FieldValid(rules[i], Get(o, rules[i].key), isEmail)
    decreases |rules|
  {
    if rules == [] then []
    else
      var first := FieldIssues(rules[0], Get(o, rules[0].key), isEmail);
      var rest := Issues(rules[1..], o, isEmail);
      assert forall i :: 1 <= i < |rules| ==> rules[i] == rules[1..][i - 1];
      first + rest
  }

  /** `schema.parse(o)` succeeds. */
  predicate Passes(rules: seq<FieldRule>, o: Obj, isEmail: string -> bool) {
    Issues(rules, o, isEmail) == []
  }

  /** Issue `k` is field `i`'s issue, and that field is invalid. */
  ghost predicate IssueOfField(rules: seq<FieldRule>, o: Obj, isEmail: string -> bool, k: nat, i: nat)
    requires k < |Issues(rules, o, isEmail)| && i < |rules|
  {
    && Issues(rules, o, isEmail)[k] == Issue(rules[i].key, FieldMessage(rules[i], Get(o, rules[i].key)))
    && !FieldValid(rules[i], Get(o, rules[i].key), isEmail)
  }

  /** Every issue names a field of the schema that is invalid in `o`. */
  lemma {:induction false} IssuesName(rules: seq<FieldRule>, o: Obj, isEmail: string -> bool, k: nat)
    requires k < |Issues(rules, o, isEmail)|
    ensures exists i :: 0 <= i < |rules| && IssueOfField(rules, o, isEmail, k, i)
    decreases |rules|
  {
    var first := FieldIssues(rules[0], Get(o, rules[0].key), isEmail);
    if k >= |first| {
      IssuesName(rules[1..], o, isEmail, k - |first|);
      var i :| 0 <= i < |rules[1..]| && IssueOfField(rules[1..], o, isEmail, k - |first|, i);
      IssueOfLaterField(rules, o, isEmail, k, i);
      assert 0 <= i + 1 < |rules| && IssueOfField(rules, o, isEmail, k, i + 1);
    } else {
      IssueOfFirstField(rules, o, isEmail, k);
      assert IssueOfField(rules, o, isEmail, k, 0);
    }
  }

  /** An issue within the first field's issues is the first field's. */
  lemma IssueOfFirstField(rules: seq<FieldRule>, o: Obj, isEmail: string -> bool, k: nat)
    requires rules != [] && k < |FieldIssues(rules[0], Get(o, rules[0].key), isEmail)|
    requires k < |Issues(rules, o, isEmail)|
    ensures IssueOfField(rules, o, isEmail, k, 0)
  {
    var first := FieldIssues(rules[0], Get(o, rules[0].key), isEmail);
    assert Issues(rules, o, isEmail) == first + Issues(rules[1..], o, isEmail);
  }

  /** An issue past the first field's issues shifts onto the remaining fields. */
  lemma IssueOfLaterField(rules: seq<FieldRule>, o: Obj, isEmail: string -> bool, k: nat, i: nat)
    requires rules != [] && k < |Issues(rules, o, isEmail)|
    requires |FieldIssues(rules[0], Get(o, rules[0].key), isEmail)| <= k
    requires i < |rules| - 1 && k - |FieldIssues(rules[0], Get(o, rules[0].key), isEmail)| < |Issues(rules[1..], o, isEmail)|
    requires IssueOfField(rules[1..], o, isEmail, k - |FieldIssues(rules[0], Get(o, rules[0].key), isEmail)|, i)
    ensures IssueOfField(rules, o, isEmail, k, i + 1)
  {
    var first := FieldIssues(rules[0], Get(o, rules[0].key), isEmail);
    var rest := Issues(rules[1..], o, isEmail);
    assert Issues(rules, o, isEmail) == first + rest;
    assert rules[i + 1] == rules[1..][i];
  }

  /** Every invalid field of the schema has an issue. */
  lemma {:induction false} InvalidFieldHasIssue(rules: seq<FieldRule>, o: Obj, isEmail: string -> bool, i: nat)
    requires i < |rules| && !FieldValid(rules[i], Get(o, rules[i].key), isEmail)
    ensures exists k :: 0 <= k < |Issues(rules, o, isEmail)| && Issues(rules, o, isEmail)[k].path == rules[i].key
    decreases |rules|
  {
    var first := FieldIssues(rules[0], Get(o, rules[0].key), isEmail);
    var rest := Issues(rules[1..], o, isEmail);
    var all := Issues(rules, o, isEmail);
    assert all == first + rest;
    if i == 0 {
      assert |first| == 1 && all[0] == first[0];
    } else {
      assert rules[1..][i - 1] == rules[i];
      InvalidFieldHasIssue(rules[1..], o, isEmail, i - 1);
      var k :| 0 <= k < |rest| && rest[k].path == rules[i].key;
      assert all[|first| + k] == rest[k];
    }
  }

  // ---------------------------------------------------------------------------
  // Turning issues into the form's error object
  // ---------------------------------------------------------------------------

  /** `issues.forEach(err => errors[err.path[0]] = err.message)`, starting from `acc`. */
  function ErrorMapFrom(acc: map<string, string>, issues: seq<Issue>): map<string, string>
    decreases |issues|
  {
    if issues == [] then acc
    else ErrorMapFrom(acc[issues[0].path := issues[0].message], issues[1..])
  }

  /** The error object built from an empty one. */
  function ErrorMap(issues: seq<Issue>): map<string, string> {
    ErrorMapFrom(map[], issues)
  }

  /** The position of the last issue at `path`, or -1. */
  function LastIssueAt(issues: seq<Issue>, path: string): (i: int)
    ensures -1 <= i < |issues|
    ensures i == -1 <==> forall k :: 0 <= k < |issues| ==> issues[k].path != path
    ensures 0 <= i ==> issues[i].path == path && forall k :: i < k < |issues| ==> issues[k].path != path
    decreases |issues|
  {
    if issues == [] then -1
    else if issues[|issues| - 1].path == path then |issues| - 1
    else LastIssueAt(issues[..|issues| - 1], path)
  }

  lemma {:induction false} ErrorMapFromLastWins(acc: map<string, string>, issues: seq<Issue>, path: string)
    ensures path in ErrorMapFrom(acc, issues) <==> path in acc || LastIssueAt(issues, path) >= 0
    ensures LastIssueAt(issues, path) >= 0 ==>
      ErrorMapFrom(acc, issues)[path] == issues[LastIssueAt(issues, path)].message
    ensures LastIssueAt(issues, path) == -1 && path in acc ==> ErrorMapFrom(acc, issues)[path] == acc[path]
    decreases |issues|
  {
    if issues != [] {
      var acc' := acc[issues[0].path := issues[0].message];
      ErrorMapFromLastWins(acc', issues[1..], path);
      var i := LastIssueAt(issues, path);
      var j := LastIssueAt(issues[1..], path);
      if j >= 0 {
        assert issues[j + 1] == issues[1..][j];
        assert forall k :: j + 1 < k < |issues| ==> issues[k] == issues[1..][k - 1];
        assert i == j + 1;
      } else {
        assert forall k :: 1 <= k < |issues| ==> issues[k] == issues[1..][k - 1];
        assert i == (if issues[0].path == path then 0 else -1);
      }
    }
  }

  /**
   * A field has an entry exactly when some issue names it, and the entry is
   * the message of the last issue naming it.
   */
  lemma ErrorMapLastWins(issues: seq<Issue>, path: string)
    ensures path in ErrorMap(issues) <==> exists k :: 0 <= k < |issues| && issues[k].path == path
    ensures path in ErrorMap(issues) ==> ErrorMap(issues)[path] == issues[LastIssueAt(issues, path)].message
  {
    ErrorMapFromLastWins(map[], issues, path);
  }

  /** `error.flatten().fieldErrors`: every message of each field, in issue order. */
  function FieldErrors(issues: seq<Issue>): (r: map<string, seq<string>>)
    ensures forall p :: p in r <==> exists k :: 0 <= k < |issues| && issues[k].path == p
    decreases |issues|
  {
    if issues == [] then map[]
    else
      var init := FieldErrors(issues[..|issues| - 1]);
      var last := issues[|issues| - 1];
      assert forall k :: 0 <= k < |issues| - 1 ==> issues[k] == issues[..|issues| - 1][k];
      init[last.path := (if last.path in init then init[last.path] else []) + [last.message]]
  }

  /** A single issue gives its field a one-message list. */
  lemma FieldErrorsSingle(issue: Issue)
    ensures FieldErrors([issue]) == map[issue.path := [issue.message]]
  {
    var init := FieldErrors([issue][..0]);
    assert [issue][..0] == [];
    assert init == map[];
    assert [] + [issue.message] == [issue.message];
  }

  /** A two-field schema reports the first field's issues, then the second's. */
  lemma IssuesOfTwo(a: FieldRule, b: FieldRule, o: Obj, isEmail: string -> bool)
    ensures Issues([a, b], o, isEmail) == FieldIssues(a, Get(o, a.key), isEmail) + FieldIssues(b, Get(o, b.key), isEmail)
  {
    assert [a, b][1..] == [b];
    assert [b][1..] == [];
  }

  /** No two rules of the schema name the same field. */
  predicate DistinctKeys(rules: seq<FieldRule>) {
    forall i, j :: 0 <= i < j < |rules| ==> rules[i].key != rules[j].key
  }

  /**
   * The error object of a schema with distinct keys has an entry for exactly
   * the invalid fields, and each entry is that field's own message.
   */
  lemma ErrorMapOfIssues(rules: seq<FieldRule>, o: Obj, isEmail: string -> bool, i: nat)
    requires DistinctKeys(rules) && i < |rules|
    ensures rules[i].key in ErrorMap(Issues(rules, o, isEmail)) <==> !FieldValid(rules[i], Get(o, rules[i].key), isEmail)
    ensures rules[i].key in ErrorMap(Issues(rules, o, isEmail)) ==>
      ErrorMap(Issues(rules, o, isEmail))[rules[i].key] == FieldMessage(rules[i], Get(o, rules[i].key))
  {
    var issues := Issues(rules, o, isEmail);
    var key := rules[i].key;
    ErrorMapLastWins(issues, key);
    if key in ErrorMap(issues) {
      var k := LastIssueAt(issues, key);
      IssuesName(rules, o, isEmail, k);
      var j :| 0 <= j < |rules| && IssueOfField(rules, o, isEmail, k, j);
      assert rules[j].key == key;
      assert j == i;
    }
    if !FieldValid(rules[i], Get(o, key), isEmail) {
      InvalidFieldHasIssue(rules, o, isEmail, i);
    }
  }

  /** `flatten().fieldErrors` has an entry for exactly the invalid fields of the schema. */
  lemma FieldErrorsOfIssues(rules: seq<FieldRule>, o: Obj, isEmail: string -> bool, p: string)
    ensures p in FieldErrors(Issues(rules, o, isEmail)) <==>
      exists i :: 0 <= i < |rules| && rules[i].key == p && !FieldValid(rules[i], Get(o, rules[i].key), isEmail)
  {
    var issues := Issues(rules, o, isEmail);
    if p in FieldErrors(issues) {
      var k :| 0 <= k < |issues| && issues[k].path == p;
      IssuesName(rules, o, isEmail, k);
      var j :| 0 <= j < |rules| && IssueOfField(rules, o, isEmail, k, j);
      assert rules[j].key == p;
    }
    if exists i :: 0 <= i < |rules| && rules[i].key == p && !FieldValid(rules[i], Get(o, rules[i].key), isEmail) {
      var i :| 0 <= i < |rules| && rules[i].key == p && !FieldValid(rules[i], Get(o, rules[i].key), isEmail);
      InvalidFieldHasIssue(rules, o, isEmail, i);
    }
  }
}

=== FILE: search.dfy ===
/**
 * The tables' search box. Each table keeps a row when one of a fixed set of
 * fields contains the lower-cased query after lower-casing the field. Calling
 * `toLowerCase` on a value that is not a string throws a TypeError, which
 * aborts the whole `filter`; the result is therefore a `Completion`.
 */
module Search {
  import opened JsValue
  import opened Text
  import opened Seqs

  /** `v.toLowerCase().includes(q)`: anything but a string throws. */
  function LowerIncludes(v: Value, q: string): (r: Completion<bool>)
    ensures r.Throw? <==> !v.Str?
    ensures v.Str? ==> r == Normal(IncludesFolded(v.s, q))
  {
    match v
    case Str(s) => Normal(Includes(Lower(s), Lower(q)))
    case _ => Throw
  }

  /** `v?.toLowerCase().includes(q)` read as a condition: a missing field is false. */
  function OptLowerIncludes(v: Value, q: string): (r: Completion<bool>)
    ensures Nullish(v) ==> r == Normal(false)
    ensures !Nullish(v) ==> r == LowerIncludes(v, q)
  {
    if Nullish(v) then Normal(false) else LowerIncludes(v, q)
  }

  /** `v && v.toLowerCase().includes(q)` read as a condition: a falsy field is false. */
  function GuardedLowerIncludes(v: Value, q: string): (r: Completion<bool>)
    ensures !Truthy(v) ==> r == Normal(false)
    ensures Truthy(v) ==> r == LowerIncludes(v, q)
  {
    if Truthy(v) then LowerIncludes(v, q) else Normal(false)
  }

  /** `v?.toString().toLowerCase().includes(q)`: any present value is printed first. */
  function OptStringIncludes(v: Value, q: string): (r: Completion<bool>)
    ensures r.Normal?
    ensures Nullish(v) ==> r == Normal(false)
    ensures !Nullish(v) ==> r == Normal(IncludesFolded(ToStr(v), q))
  {
    if Nullish(v) then Normal(false) else LowerIncludes(Str(ToStr(v)), q)
  }

  /**
   * `v && String(v).toLowerCase().includes(q)`: a falsy field is false, any
   * other value is printed first, so nothing throws.
   */
  function GuardedStringIncludes(v: Value, q: string): (r: Completion<bool>)
    ensures r.Normal?
    ensures !Truthy(v) ==> r == Normal(false)
    ensures Truthy(v) ==> r == Normal(IncludesFolded(ToStr(v), q))
    ensures v.Str? ==> r == GuardedLowerIncludes(v, q)
  {
    if Truthy(v) then LowerIncludes(Str(ToStr(v)), q) else Normal(false)
  }

  /**
   * `a || b` between two conditions that may throw: `b` is only reached,
   * and so can only throw, when `a` is false.
   */
  function OrElse(a: Completion<bool>, b: Completion<bool>): (r: Completion<bool>)
    ensures r == Normal(true) <==> a == Normal(true) || (a == Normal(false) && b == Normal(true))
    ensures r.Throw? <==> a.Throw? || (a == Normal(false) && b.Throw?)
  {
    match a
    case Throw => Throw
    case Normal(x) => if x then a else b
  }

  /** The condition holds without throwing. */
  predicate Holds<T>(m: T -> Completion<bool>, x: T) {
    m(x) == Normal(true)
  }

  /**
   * `xs.filter(m)` where the callback may throw: the filter throws when the
   * callback throws on any element, and otherwise keeps exactly the elements
   * the callback accepts.
   */
  function FilterThrowing<T>(xs: seq<T>, m: T -> Completion<bool>): (r: Completion<seq<T>>)
    ensures r.Throw? <==> exists i :: 0 <= i < |xs| && m(xs[i]).Throw?
    ensures r.Normal? ==> r.value == Filter(xs, x => Holds(m, x))
    decreases |xs|
  {
    if xs == [] then Normal([])
    else
      var rest := FilterThrowing(xs[1..], m);
      assert forall i :: 1 <= i < |xs| ==> xs[i] == xs[1..][i - 1];
      match m(xs[0])
      case Throw => Throw
      case Normal(keep) =>
        match rest
        case Throw => Throw
        case Normal(tail) => Normal(if keep then [xs[0]] + tail else tail)
  }

  /** A filter that does not throw keeps an order-preserving selection of the rows. */
  lemma FilterThrowingSubseq<T>(xs: seq<T>, m: T -> Completion<bool>)
    requires FilterThrowing(xs, m).Normal?
    ensures Subseq(FilterThrowing(xs, m).value, xs)
    ensures forall i :: 0 <= i < |FilterThrowing(xs, m).value| ==> Holds(m, FilterThrowing(xs, m).value[i])
  {
    FilterIsSubseq(xs, x => Holds(m, x));
  }

  /** When the callback never throws, the filter does not throw. */
  lemma FilterThrowingTotal<T>(xs: seq<T>, m: T -> Completion<bool>)
    requires forall i :: 0 <= i < |xs| ==> m(xs[i]).Normal?
    ensures FilterThrowing(xs, m) == Normal(Filter(xs, x => Holds(m, x)))
  {
  }

  /**
   * When the callback never throws and accepts exactly the elements meeting
   * `p`, the filter keeps, in order, exactly those elements.
   */
  lemma FilterThrowingMeaning<T>(xs: seq<T>, m: T -> Completion<bool>, p: T -> bool)
    requires forall i :: 0 <= i < |xs| ==> m(xs[i]).Normal? && (m(xs[i]).value <==> p(xs[i]))
    ensures FilterThrowing(xs, m).Normal?
    ensures Subseq(FilterThrowing(xs, m).value, xs)
    ensures forall o :: o in FilterThrowing(xs, m).value <==> o in xs && p(o)
  {
    FilterThrowingSubseq(xs, m);
    forall o ensures o in FilterThrowing(xs, m).value <==> o in xs && p(o) {
      FilterMembers(xs, x => Holds(m, x), o);
      if o in xs {
        var i :| 0 <= i < |xs| && xs[i] == o;
        assert Holds(m, o) <==> p(o);
      }
    }
  }
}

=== FILE: seqs.dfy ===
/**
 * The array operations the reducers and tables are written with:
 * `filter`, `findIndex`, an update at the first match, `map` with a
 * condition, `slice` and `flat`.
 */
module Seqs {

  // ---------------------------------------------------------------------------
  // `filter`
  // ---------------------------------------------------------------------------

  /** `xs.filter(p)`: the elements satisfying `p`, in their original order. */
  function Filter<T>(xs: seq<T>, p: T -> bool): (r: seq<T>)
    ensures |r| <= |xs|
    ensures forall i :: 0 <= i < |r| ==> p(r[i])
    decreases |xs|
  {
    if xs == [] then []
    else if p(xs[0]) then [xs[0]] + Filter(xs[1..], p)
    else Filter(xs[1..], p)
  }

  /** Number of occurrences of `x` in `xs`. */
  function Count<T(==)>(xs: seq<T>, x: T): nat {
    multiset(xs)[x]
  }

  /** `a` can be obtained from `b` by deleting elements: order is kept. */
  ghost predicate Subseq<T>(a: seq<T>, b: seq<T>)
    decreases |b|
  {
    if a == [] then true
    else if b == [] then false
    else (a[0] == b[0] && Subseq(a[1..], b[1..])) || Subseq(a, b[1..])
  }

  /** Filtering deletes elements and never reorders the survivors. */
  lemma {:induction false} FilterIsSubseq<T>(xs: seq<T>, p: T -> bool)
    ensures Subseq(Filter(xs, p), xs)
    decreases |xs|
  {
    if xs != [] {
      FilterIsSubseq(xs[1..], p);
      var r := Filter(xs, p);
      if p(xs[0]) {
        assert r[0] == xs[0] && r[1..] == Filter(xs[1..], p);
      }
    }
  }

  /**
   * An element occurs in the filtered sequence as often as in the input when
   * it satisfies `p`, and not at all otherwise.
   */
  lemma {:induction false} FilterCount<T>(xs: seq<T>, p: T -> bool, x: T)
    ensures Count(Filter(xs, p), x) == if p(x) then Count(xs, x) else 0
    decreases |xs|
  {
    if xs != [] {
      FilterCount(xs[1..], p, x);
      assert xs == [xs[0]] + xs[1..];
      assert multiset(xs) == multiset([xs[0]]) + multiset(xs[1..]);
      if p(xs[0]) {
        assert multiset(Filter(xs, p)) == multiset([xs[0]]) + multiset(Filter(xs[1..], p));
      }
    }
  }

  /** Membership in the filtered sequence: exactly the members satisfying `p`. */
  lemma FilterMembers<T>(xs: seq<T>, p: T -> bool, x: T)
    ensures x in Filter(xs, p) <==> x in xs && p(x)
  {
    FilterCount(xs, p, x);
    assert x in Filter(xs, p) <==> Count(Filter(xs, p), x) > 0;
    assert x in xs <==> Count(xs, x) > 0;
  }

  /** When every element satisfies `p`, filtering is the identity. */
  lemma {:induction false} FilterAll<T>(xs: seq<T>, p: T -> bool)
    requires forall i :: 0 <= i < |xs| ==> p(xs[i])
    ensures Filter(xs, p) == xs
    decreases |xs|
  {
    if xs != [] {
      FilterAll(xs[1..], p);
    }
  }

  /** Filtering twice by the same predicate is filtering once. */
  lemma FilterIdempotent<T>(xs: seq<T>, p: T -> bool)
    ensures Filter(Filter(xs, p), p) == Filter(xs, p)
  {
    FilterAll(Filter(xs, p), p);
  }

  /** Filtering distributes over concatenation. */
  lemma {:induction false} FilterAppend<T>(xs: seq<T>, ys: seq<T>, p: T -> bool)
    ensures Filter(xs + ys, p) == Filter(xs, p) + Filter(ys, p)
    decreases |xs|
  {
    if xs == [] {
      assert xs + ys == ys;
    } else {
      FilterAppend(xs[1..], ys, p);
      assert (xs + ys)[0] == xs[0] && (xs + ys)[1..] == xs[1..] + ys;
    }
  }

  // ---------------------------------------------------------------------------
  // `findIndex` and updates at one position
  // ---------------------------------------------------------------------------

  /** `xs.findIndex(p)`: the first index satisfying `p`, or -1. */
  function FindIndex<T>(xs: seq<T>, p: T -> bool): (i: int)
    ensures -1 <= i < |xs|
    ensures i == -1 <==> forall k :: 0 <= k < |xs| ==> !p(xs[k])
    ensures 0 <= i ==> p(xs[i]) && forall k :: 0 <= k < i ==> !p(xs[k])
    decreases |xs|
  {
    if xs == [] then -1
    else if p(xs[0]) then 0
    else
      var k := FindIndex(xs[1..], p);
      if k == -1 then -1 else k + 1
  }

  /**
   * `const i = xs.findIndex(p); if (i !== -1) xs[i] = f(xs[i])`: the first
   * element satisfying `p` is rewritten by `f`; every other position is kept.
   */
  function UpdateFirst<T>(xs: seq<T>, p: T -> bool, f: T -> T): (r: seq<T>)
    ensures |r| == |xs|
    ensures (forall k :: 0 <= k < |xs| ==> !p(xs[k])) ==> r == xs
    ensures forall k :: 0 <= k < |xs| && k != FindIndex(xs, p) ==> r[k] == xs[k]
    ensures 0 <= FindIndex(xs, p) ==> r[FindIndex(xs, p)] == f(xs[FindIndex(xs, p)])
  {
    var i := FindIndex(xs, p);
    if i == -1 then xs else xs[i := f(xs[i])]
  }

  /** `xs.map(x => p(x) ? f(x) : x)`: every element satisfying `p` is rewritten. */
  function MapWhere<T>(xs: seq<T>, p: T -> bool, f: T -> T): (r: seq<T>)
    ensures |r| == |xs|
    ensures forall k :: 0 <= k < |xs| ==> r[k] == if p(xs[k]) then f(xs[k]) else xs[k]
  {
    seq(|xs|, k requires 0 <= k < |xs| => if p(xs[k]) then f(xs[k]) else xs[k])
  }

  /** A conditional map whose rewrite keeps the condition and is idempotent is idempotent. */
  lemma MapWhereIdempotent<T>(xs: seq<T>, p: T -> bool, f: T -> T)
    requires forall k :: 0 <= k < |xs| && p(xs[k]) ==> p(f(xs[k])) && f(f(xs[k])) == f(xs[k])
    ensures MapWhere(MapWhere(xs, p, f), p, f) == MapWhere(xs, p, f)
  {
  }

  /**
   * A conditional map by an involution that keeps the condition is its own
   * inverse.
   */
  lemma MapWhereTwice<T>(xs: seq<T>, p: T -> bool, f: T -> T)
    requires forall k :: 0 <= k < |xs| && p(xs[k]) ==> p(f(xs[k])) && f(f(xs[k])) == xs[k]
    ensures MapWhere(MapWhere(xs, p, f), p, f) == xs
  {
  }

  // ---------------------------------------------------------------------------
  // `slice` and `flat`
  // ---------------------------------------------------------------------------

  /** How `slice` reads a bound: negative counts from the end, then clamp to `[0, len]`. */
  function RelIndex(k: int, len: nat): (r: nat)
    ensures r <= len
    ensures 0 <= k <= len ==> r == k
  {
    if k < 0 then (if len + k < 0 then 0 else len + k)
    else if k > len then len
    else k
  }

  /** `xs.slice(start, end)`. */
  function Slice<T>(xs: seq<T>, start: int, end: int): (r: seq<T>)
    ensures |r| <= |xs|
    ensures 0 <= start <= end <= |xs| ==> r == xs[start..end]
  {
    var a := RelIndex(start, |xs|);
    var b := RelIndex(end, |xs|);
    if a < b then xs[a..b] else []
  }

  /** `xss.flat()`: the sequences one after another. */
  function Flatten<T>(xss: seq<seq<T>>): (r: seq<T>)
    decreases |xss|
  {
    if xss == [] then [] else xss[0] + Flatten(xss[1..])
  }

  lemma {:induction false} FlattenAppend<T>(xss: seq<seq<T>>, yss: seq<seq<T>>)
    ensures Flatten(xss + yss) == Flatten(xss) + Flatten(yss)
    decreases |xss|
  {
    if xss == [] {
      assert xss + yss == yss;
    } else {
      FlattenAppend(xss[1..], yss);
      assert (xss + yss)[0] == xss[0] && (xss + yss)[1..] == xss[1..] + yss;
    }
  }

  /** The flattened length is the sum of the parts' lengths. */
  function TotalLength<T>(xss: seq<seq<T>>): nat
    decreases |xss|
  {
    if xss == [] then 0 else |xss[0]| + TotalLength(xss[1..])
  }

  lemma {:induction false} FlattenLength<T>(xss: seq<seq<T>>)
    ensures |Flatten(xss)| == TotalLength(xss)
    decreases |xss|
  {
    if xss != [] {
      FlattenLength(xss[1..]);
    }
  }
}

=== FILE: slices.dfy ===
/**
 * Lists of records keyed by their `id` field, and the three reducers the
 * Redux slices build from them: append, remove every record with an id, and
 * rewrite the first record with an id. Ids are compared with `===`.
 */
module EntityList {
  import opened JsValue
  import opened JsObject
  import opened Seqs

  function IdOf(o: Obj): Value {
    Get(o, "id")
  }

  /** `o[key] === v`. */
  predicate HasField(o: Obj, key: string, v: Value) {
    StrictEquals(Get(o, key), v)
  }

  /** `o.id === id`. */
  predicate HasId(o: Obj, id: Value) {
    HasField(o, "id", id)
  }

  /** `state.push(o)`. */
  function Append(state: seq<Obj>, o: Obj): (r: seq<Obj>)
    ensures |r| == |state| + 1
    ensures r[..|state|] == state && r[|state|] == o
  {
    state + [o]
  }

  /** `state.filter(o => o[key] !== v)`. */
  function RemoveByField(state: seq<Obj>, key: string, v: Value): (r: seq<Obj>)
    ensures |r| <= |state|
    ensures forall i :: 0 <= i < |r| ==> !HasField(r[i], key, v)
  {
    Filter(state, o => !HasField(o, key, v))
  }

  /**
   * Removal keeps exactly the records with another value under the key, in
   * their order, and removing again changes nothing.
   */
  lemma RemoveByFieldKeeps(state: seq<Obj>, key: string, v: Value)
    ensures forall o :: o in RemoveByField(state, key, v) <==> o in state && !HasField(o, key, v)
    ensures Subseq(RemoveByField(state, key, v), state)
    ensures RemoveByField(RemoveByField(state, key, v), key, v) == RemoveByField(state, key, v)
    ensures (forall i :: 0 <= i < |state| ==> !HasField(state[i], key, v)) ==> RemoveByField(state, key, v) == state
  {
    var p := o => !HasField(o, key, v);
    forall o ensures o in RemoveByField(state, key, v) <==> o in state && !HasField(o, key, v) {
      FilterMembers(state, p, o);
    }
    FilterIsSubseq(state, p);
    FilterIdempotent(state, p);
    if forall i :: 0 <= i < |state| ==> !HasField(state[i], key, v) {
      FilterAll(state, p);
    }
  }

  /** `state.filter(o => o.id !== id)`. */
  function RemoveById(state: seq<Obj>, id: Value): (r: seq<Obj>)
    ensures |r| <= |state|
    ensures forall i :: 0 <= i < |r| ==> !HasId(r[i], id)
  {
    RemoveByField(state, "id", id)
  }

  lemma RemoveByIdKeeps(state: seq<Obj>, id: Value)
    ensures forall o :: o in RemoveById(state, id) <==> o in state && !HasId(o, id)
    ensures Subseq(RemoveById(state, id), state)
    ensures RemoveById(RemoveById(state, id), id) == RemoveById(state, id)
    ensures (forall i :: 0 <= i < |state| ==> !HasId(state[i], id)) ==> RemoveById(state, id) == state
  {
    RemoveByFieldKeeps(state, "id", id);
  }

  /** The position `findIndex(o => o.id === id)` returns. */
  function IndexOfId(state: seq<Obj>, id: Value): (i: int)
    ensures -1 <= i < |state|
    ensures i == -1 <==> forall k :: 0 <= k < |state| ==> !HasId(state[k], id)
    ensures 0 <= i ==> HasId(state[i], id) && forall k :: 0 <= k < i ==> !HasId(state[k], id)
  {
    FindIndex(state, o => HasId(o, id))
  }

  /**
   * `const i = findIndex(o => o.id === id); if (i !== -1) state[i] = f(state[i])`:
   * only the first record with the id is rewritten.
   */
  function UpdateById(state: seq<Obj>, id: Value, f: Obj -> Obj): (r: seq<Obj>)
    ensures |r| == |state|
    ensures IndexOfId(state, id) == -1 ==> r == state
    ensures forall k :: 0 <= k < |state| && k != IndexOfId(state, id) ==> r[k] == state[k]
    ensures 0 <= IndexOfId(state, id) ==> r[IndexOfId(state, id)] == f(state[IndexOfId(state, id)])
  {
    UpdateFirst(state, o => HasId(o, id), f)
  }

  /** `state[findIndex(o => o.id === payload.id)] = payload`: a whole-record replace. */
  function ReplaceById(state: seq<Obj>, payload: Obj): (r: seq<Obj>)
    ensures |r| == |state|
    ensures IndexOfId(state, IdOf(payload)) == -1 ==> r == state
    ensures forall k :: 0 <= k < |state| && k != IndexOfId(state, IdOf(payload)) ==> r[k] == state[k]
    ensures 0 <= IndexOfId(state, IdOf(payload)) ==> r[IndexOfId(state, IdOf(payload))] == payload
  {
    UpdateById(state, IdOf(payload), _ => payload)
  }

  /**
   * An update whose result keeps the id leaves the first match where it was,
   * so doing it a second time rewrites the same record again.
   */
  lemma UpdateByIdAgain(state: seq<Obj>, id: Value, f: Obj -> Obj)
    requires forall o :: HasId(o, id) ==> HasId(f(o), id)
    ensures IndexOfId(UpdateById(state, id, f), id) == IndexOfId(state, id)
  {
    var i := IndexOfId(state, id);
    var r := UpdateById(state, id, f);
    var j := IndexOfId(r, id);
    if i == -1 {
    } else {
      assert HasId(r[i], id);
      assert forall k :: 0 <= k < i ==> r[k] == state[k];
    }
  }

  /** Replacing twice with the same payload is replacing once. */
  lemma ReplaceByIdIdempotent(state: seq<Obj>, payload: Obj)
    ensures ReplaceById(ReplaceById(state, payload), payload) == ReplaceById(state, payload)
  {
    var id := IdOf(payload);
    UpdateByIdAgain(state, id, _ => payload);
  }
}

/** `addUser`, `removeUser`, `updateUser`: plain list reducers over user records. */
module UserSlice {
  import opened JsValue
  import opened JsObject
  import opened EntityList

  /** `state.push(action.payload)`. */
  function AddUser(state: seq<Obj>, payload: Obj): (r: seq<Obj>)
    ensures |r| == |state| + 1 && r[..|state|] == state && r[|state|] == payload
  {
    Append(state, payload)
  }

  /** `state.filter(user => user.id !== action.payload)`. */
  function RemoveUser(state: seq<Obj>, id: Value): (r: seq<Obj>)
    ensures forall o :: o in r <==> o in state && !HasId(o, id)
    ensures Seqs.Subseq(r, state)
    ensures RemoveById(r, id) == r
  {
    RemoveByIdKeeps(state, id);
    RemoveById(state, id)
  }

  /** The first user with the payload's id becomes the payload itself; nothing is merged. */
  function UpdateUser(state: seq<Obj>, payload: Obj): (r: seq<Obj>)
    ensures |r| == |state|
    ensures IndexOfId(state, IdOf(payload)) == -1 ==> r == state
    ensures 0 <= IndexOfId(state, IdOf(payload)) ==> r[IndexOfId(state, IdOf(payload))] == payload
    ensures forall k :: 0 <= k < |state| && k != IndexOfId(state, IdOf(payload)) ==> r[k] == state[k]
  {
    ReplaceById(state, payload)
  }

  /** Dispatching the same update twice is dispatching it once. */
  lemma UpdateUserIdempotent(state: seq<Obj>, payload: Obj)
    ensures UpdateUser(UpdateUser(state, payload), payload) == UpdateUser(state, payload)
  {
    ReplaceByIdIdempotent(state, payload);
  }
}

/** `addRole`, `removeRole`, `updateRole`: the same reducers over role records. */
module RoleSlice {
  import opened JsValue
  import opened JsObject
  import opened EntityList

  /** `state.push(action.payload)`. */
  function AddRole(state: seq<Obj>, payload: Obj): (r: seq<Obj>)
    ensures |r| == |state| + 1 && r[..|state|] == state && r[|state|] == payload
  {
    Append(state, payload)
  }

  /** `state.filter(role => role.id !== action.payload)`. */
  function RemoveRole(state: seq<Obj>, id: Value): (r: seq<Obj>)
    ensures forall o :: o in r <==> o in state && !HasId(o, id)
    ensures Seqs.Subseq(r, state)
    ensures RemoveById(r, id) == r
  {
    RemoveByIdKeeps(state, id);
    RemoveById(state, id)
  }

  /** The first role with the payload's id becomes the payload itself. */
  function UpdateRole(state: seq<Obj>, payload: Obj): (r: seq<Obj>)
    ensures |r| == |state|
    ensures IndexOfId(state, IdOf(payload)) == -1 ==> r == state
    ensures 0 <= IndexOfId(state, IdOf(payload)) ==> r[IndexOfId(state, IdOf(payload))] == payload
    ensures forall k :: 0 <= k < |state| && k != IndexOfId(state, IdOf(payload)) ==> r[k] == state[k]
  {
    ReplaceById(state, payload)
  }
}

/**
 * `addDepartment`, `removeDepartment`, `updateDepartment`: the department
 * list, where new and updated records get defaults for `subDepartments`
 * (with `||`) and `isActive` (with `??`).
 */
module DepartmentSlice {
  import opened JsValue
  import opened JsObject
  import opened EntityList

  const SubDepartments := "subDepartments"
  const IsActive := "isActive"

  /** `{...payload, subDepartments: payload.subDepartments || [], isActive: payload.isActive ?? true}`. */
  function NewDepartment(payload: Obj): (d: Obj)
    ensures d.Keys == payload.Keys + {SubDepartments, IsActive}
    ensures Get(d, SubDepartments) == if Truthy(Get(payload, SubDepartments)) then Get(payload, SubDepartments) else Arr([])
    ensures Get(d, IsActive) == if Nullish(Get(payload, IsActive)) then Bool(true) else Get(payload, IsActive)
    ensures forall k :: k in payload && k != SubDepartments && k != IsActive ==> d[k] == payload[k]
  {
    Spread(payload, map[
      SubDepartments := Or(Get(payload, SubDepartments), Arr([])),
      IsActive := Coalesce(Get(payload, IsActive), Bool(true))])
  }

  /** `state.push(NewDepartment(payload))`. */
  function AddDepartment(state: seq<Obj>, payload: Obj): (r: seq<Obj>)
    ensures |r| == |state| + 1
    ensures r[..|state|] == state && r[|state|] == NewDepartment(payload)
  {
    Append(state, NewDepartment(payload))
  }

  /** An explicit `false` survives `??`; only a missing flag becomes `true`. */
  lemma AddDepartmentKeepsInactive(state: seq<Obj>, payload: Obj)
    requires Get(payload, IsActive) == Bool(false)
    ensures Get(AddDepartment(state, payload)[|state|], IsActive) == Bool(false)
  {
  }

  /** An empty string for `subDepartments` is falsy, so `||` replaces it with `[]`. */
  lemma AddDepartmentEmptySubDepartments(state: seq<Obj>, payload: Obj)
    requires Get(payload, SubDepartments) == Str("")
    ensures Get(AddDepartment(state, payload)[|state|], SubDepartments) == Arr([])
  {
  }

  /** `state.filter(dept => dept.id !== action.payload)`. */
  function RemoveDepartment(state: seq<Obj>, id: Value): (r: seq<Obj>)
    ensures forall o :: o in r <==> o in state && !HasId(o, id)
    ensures Seqs.Subseq(r, state)
    ensures RemoveById(r, id) == r
  {
    RemoveByIdKeeps(state, id);
    RemoveById(state, id)
  }

  /**
   * `{...prev, ...payload, subDepartments: payload.subDepartments || prev.subDepartments,
   * isActive: payload.isActive ?? prev.isActive}`.
   */
  function Merge(prev: Obj, payload: Obj): (d: Obj)
    ensures d.Keys == prev.Keys + payload.Keys + {SubDepartments, IsActive}
    ensures Get(d, SubDepartments) == if Truthy(Get(payload, SubDepartments)) then Get(payload, SubDepartments) else Get(prev, SubDepartments)
    ensures Get(d, IsActive) == if Nullish(Get(payload, IsActive)) then Get(prev, IsActive) else Get(payload, IsActive)
    ensures forall k :: k != SubDepartments && k != IsActive ==>
      Get(d, k) == if k in payload then payload[k] else Get(prev, k)
  {
    Spread(Spread(prev, payload), map[
      SubDepartments := Or(Get(payload, SubDepartments), Get(prev, SubDepartments)),
      IsActive := Coalesce(Get(payload, IsActive), Get(prev, IsActive))])
  }

  /** Merging the same payload again changes nothing more. */
  lemma MergeIdempotent(prev: Obj, payload: Obj)
    ensures Merge(Merge(prev, payload), payload) == Merge(prev, payload)
  {
    var once := Merge(prev, payload);
    var twice := Merge(once, payload);
    assert twice.Keys == once.Keys;
    forall k | k in once ensures twice[k] == once[k] {
      assert Get(twice, k) == Get(once, k);
    }
  }

  /** The merged record keeps the matched id. */
  lemma MergeKeepsId(prev: Obj, payload: Obj)
    requires HasId(prev, IdOf(payload))
    ensures HasId(Merge(prev, payload), IdOf(payload))
  {
  }

  /** The first department with the payload's id is merged with it; nothing else changes. */
  function UpdateDepartment(state: seq<Obj>, payload: Obj): (r: seq<Obj>)
    ensures |r| == |state|
    ensures IndexOfId(state, IdOf(payload)) == -1 ==> r == state
    ensures forall k :: 0 <= k < |state| && k != IndexOfId(state, IdOf(payload)) ==> r[k] == state[k]
    ensures 0 <= IndexOfId(state, IdOf(payload)) ==>
      r[IndexOfId(state, IdOf(payload))] == Merge(state[IndexOfId(state, IdOf(payload))], payload)
  {
    UpdateById(state, IdOf(payload), prev => Merge(prev, payload))
  }

  /** Dispatching the same update twice is dispatching it once. */
  lemma UpdateDepartmentIdempotent(state: seq<Obj>, payload: Obj)
    ensures UpdateDepartment(UpdateDepartment(state, payload), payload) == UpdateDepartment(state, payload)
  {
    var id := IdOf(payload);
    var f := prev => Merge(prev, payload);
    forall o | HasId(o, id) ensures HasId(f(o), id) {
      MergeKeepsId(o, payload);
    }
    UpdateByIdAgain(state, id, f);
    var i := IndexOfId(state, id);
    if 0 <= i {
      MergeIdempotent(state[i], payload);
    }
  }
}

=== FILE: sorting.dfy ===
/**
 * The tables' column sort: a `{key, direction}` configuration toggled by
 * `handleSort`, and `Array.prototype.sort` with the comparator
 * `a[key] < b[key] ? (asc ? -1 : 1) : a[key] > b[key] ? (asc ? 1 : -1) : 0`.
 * The sort is stable (ECMAScript 2019 onwards); it is modelled by insertion sort.
 */
module Sorting {
  import opened JsValue
  import opened JsObject

  // ---------------------------------------------------------------------------
  // Sort configuration and `handleSort`
  // ---------------------------------------------------------------------------

  datatype SortConfig = SortConfig(key: string, direction: string)

  /** A click on a column header: ascending, unless it is the column already sorted ascending. */
  function HandleSort(cfg: SortConfig, key: string): (r: SortConfig)
    ensures r.key == key
    ensures r.direction == "asc" || r.direction == "desc"
    ensures r.direction == "desc" <==> cfg.key == key && cfg.direction == "asc"
  {
    var direction := if cfg.key == key && cfg.direction == "asc" then "desc" else "asc";
    SortConfig(key, direction)
  }

  /** The three outcomes of `handleSort`, and two clicks on the sorted column restore it. */
  lemma HandleSortCycle(cfg: SortConfig, key: string)
    ensures cfg.key != key ==> HandleSort(cfg, key).direction == "asc"
    ensures cfg.key == key && cfg.direction == "asc" ==> HandleSort(cfg, key).direction == "desc"
    ensures cfg.key == key && cfg.direction == "desc" ==> HandleSort(cfg, key).direction == "asc"
    ensures cfg.key == key && (cfg.direction == "asc" || cfg.direction == "desc") ==>
      HandleSort(HandleSort(cfg, key), key) == cfg
  {
  }

  // ---------------------------------------------------------------------------
  // The relational operator `<` on values
  // ---------------------------------------------------------------------------

  /** String order by code point, a proper prefix first. */
  predicate LexLess(a: string, b: string)
    decreases |a|
  {
    if a == [] then b != []
    else if b == [] then false
    else if a[0] != b[0] then a[0] < b[0]
    else LexLess(a[1..], b[1..])
  }

  lemma {:induction false} LexLessIrreflexive(a: string)
    ensures !LexLess(a, a)
    decreases |a|
  {
    if a != [] {
      LexLessIrreflexive(a[1..]);
    }
  }

  lemma {:induction false} LexLessTransitive(a: string, b: string, c: string)
    requires LexLess(a, b) && LexLess(b, c)
    ensures LexLess(a, c)
    decreases |a|
  {
    if a != [] && b != [] && c != [] && a[0] == b[0] && b[0] == c[0] {
      LexLessTransitive(a[1..], b[1..], c[1..]);
    }
  }

  /** Two different strings are ordered one way or the other, never both. */
  lemma {:induction false} LexLessTotal(a: string, b: string)
    ensures a != b ==> LexLess(a, b) || LexLess(b, a)
    ensures !(LexLess(a, b) && LexLess(b, a))
    decreases |a|
  {
    if a != [] && b != [] && a[0] == b[0] {
      LexLessTotal(a[1..], b[1..]);
      if a[1..] == b[1..] {
        assert a == [a[0]] + a[1..] && b == [b[0]] + b[1..];
      }
    }
  }

  /** ToPrimitive for the values a row holds: an array becomes its string form. */
  function ToPrimitive(v: Value): (r: Value)
    ensures !r.Arr?
  {
    if v.Arr? then Str(ToStr(v)) else v
  }

  /**
   * `a < b`: two strings compare by code point, anything else compares as
   * numbers, and a comparison involving NaN is false.
   */
  predicate Less(a: Value, b: Value) {
    var pa := ToPrimitive(a);
    var pb := ToPrimitive(b);
    if pa.Str? && pb.Str? then LexLess(pa.s, pb.s)
    else
      var na := ToNumber(pa);
      var nb := ToNumber(pb);
      na.Num? && nb.Num? && na.n < nb.n
  }

  /** No value is less than itself, so equal keys always tie. */
  lemma LessIrreflexive(a: Value)
    ensures !Less(a, a)
  {
    var pa := ToPrimitive(a);
    if pa.Str? {
      LexLessIrreflexive(pa.s);
    }
  }

  /** The comparator passed to `sort`. */
  function Compare(a: Value, b: Value, direction: string): (r: int)
    ensures r == -1 || r == 0 || r == 1
    ensures r == 0 <==> !Less(a, b) && !Less(b, a)
    ensures direction == "asc" ==> (r == -1 <==> Less(a, b))
    ensures direction != "asc" ==> (r == 1 <==> Less(a, b))
  {
    var asc := direction == "asc";
    if Less(a, b) then (if asc then -1 else 1)
    else if Less(b, a) then (if asc then 1 else -1)
    else 0
  }

  // ---------------------------------------------------------------------------
  // Stable insertion sort
  // ---------------------------------------------------------------------------

  /** Inserts `x` after the last element of `s` that does not compare above it. */
  function Insert<T>(s: seq<T>, x: T, cmp: (T, T) -> int): (r: seq<T>)
    ensures |r| == |s| + 1
    ensures multiset(r) == multiset(s) + multiset{x}
    ensures forall k :: 0 <= k < |r| ==> r[k] == x || r[k] in s
    decreases |s|
  {
    if s == [] then [x]
    else if cmp(s[|s| - 1], x) > 0 then
      assert s == s[..|s| - 1] + [s[|s| - 1]];
      Insert(s[..|s| - 1], x, cmp) + [s[|s| - 1]]
    else s + [x]
  }

  /** `[...xs].sort(cmp)`: a permutation of `xs`. */
  function SortBy<T>(xs: seq<T>, cmp: (T, T) -> int): (r: seq<T>)
    ensures |r| == |xs|
    ensures multiset(r) == multiset(xs)
    decreases |xs|
  {
    if xs == [] then []
    else
      assert xs == xs[..|xs| - 1] + [xs[|xs| - 1]];
      Insert(SortBy(xs[..|xs| - 1], cmp), xs[|xs| - 1], cmp)
  }

  /** No element of `s` compares above a later one. */
  ghost predicate Sorted<T>(s: seq<T>, cmp: (T, T) -> int) {
    forall i, j :: 0 <= i < j < |s| ==> cmp(s[i], s[j]) <= 0
  }

  /**
   * On the elements of `dom` the comparator is a total preorder: of two
   * elements at least one does not compare above the other, and "does not
   * compare above" is transitive.
   */
  ghost predicate TotalPreorderOn<T>(dom: set<T>, cmp: (T, T) -> int) {
    && (forall a, b :: a in dom && b in dom ==> cmp(a, b) <= 0 || cmp(b, a) <= 0)
    && (forall a, b, c :: a in dom && b in dom && c in dom && cmp(a, b) <= 0 && cmp(b, c) <= 0 ==> cmp(a, c) <= 0)
  }

  /** Inserting into a sorted sequence keeps it sorted. */
  lemma {:induction false} InsertSorted<T>(s: seq<T>, x: T, cmp: (T, T) -> int, dom: set<T>)
    requires TotalPreorderOn(dom, cmp)
    requires x in dom && forall i :: 0 <= i < |s| ==> s[i] in dom
    requires Sorted(s, cmp)
    ensures Sorted(Insert(s, x, cmp), cmp)
    decreases |s|
  {
    if s != [] {
      var last := s[|s| - 1];
      var init := s[..|s| - 1];
      if cmp(last, x) > 0 {
        InsertSorted(init, x, cmp, dom);
        assert cmp(x, last) <= 0;
        InsertBelow(s, x, cmp);
        SortedSnoc(Insert(init, x, cmp), last, cmp);
      } else {
        InsertAtEnd(s, x, cmp, dom);
      }
    }
  }

  /** An element no element of sorted `s` exceeds goes at the end, keeping `s` sorted. */
  lemma InsertAtEnd<T>(s: seq<T>, x: T, cmp: (T, T) -> int, dom: set<T>)
    requires TotalPreorderOn(dom, cmp)
    requires x in dom && forall i :: 0 <= i < |s| ==> s[i] in dom
    requires Sorted(s, cmp) && s != [] && cmp(s[|s| - 1], x) <= 0
    ensures Sorted(Insert(s, x, cmp), cmp)
  {
    forall i | 0 <= i < |s| ensures cmp(s[i], x) <= 0 {
      if i < |s| - 1 {
        assert cmp(s[i], s[|s| - 1]) <= 0;
      }
    }
    SortedSnoc(s, x, cmp);
  }

  /** Every element inserted before `last` is at most `last`, when `s` is sorted. */
  lemma InsertBelow<T>(s: seq<T>, x: T, cmp: (T, T) -> int)
    requires s != [] && Sorted(s, cmp) && cmp(x, s[|s| - 1]) <= 0
    ensures var t := Insert(s[..|s| - 1], x, cmp);
      forall k :: 0 <= k < |t| ==> cmp(t[k], s[|s| - 1]) <= 0
  {
    var init := s[..|s| - 1];
    var t := Insert(init, x, cmp);
    forall k | 0 <= k < |t| ensures cmp(t[k], s[|s| - 1]) <= 0 {
      if t[k] != x {
        var i :| 0 <= i < |init| && init[i] == t[k];
        assert s[i] == t[k];
      }
    }
  }

  /** A sorted sequence followed by an element no element exceeds is sorted. */
  lemma SortedSnoc<T>(t: seq<T>, last: T, cmp: (T, T) -> int)
    requires Sorted(t, cmp) && forall k :: 0 <= k < |t| ==> cmp(t[k], last) <= 0
    ensures Sorted(t + [last], cmp)
  {
    var u := t + [last];
    forall i, j | 0 <= i < j < |u| ensures cmp(u[i], u[j]) <= 0 {
      assert u[i] == t[i];
      if j < |t| { assert u[j] == t[j]; }
    }
  }

  /** Sorting by a comparator that totally preorders the elements yields a sorted sequence. */
  lemma {:induction false} SortBySorted<T>(xs: seq<T>, cmp: (T, T) -> int, dom: set<T>)
    requires TotalPreorderOn(dom, cmp)
    requires forall i :: 0 <= i < |xs| ==> xs[i] in dom
    ensures Sorted(SortBy(xs, cmp), cmp)
    decreases |xs|
  {
    if xs != [] {
      var init := xs[..|xs| - 1];
      SortBySorted(init, cmp, dom);
      var t := SortBy(init, cmp);
      forall k | 0 <= k < |t| ensures t[k] in dom {
        assert t[k] in multiset(init);
        var i :| 0 <= i < |init| && init[i] == t[k];
        assert xs[i] == t[k];
      }
      InsertSorted(t, xs[|xs| - 1], cmp, dom);
    }
  }

  // ---------------------------------------------------------------------------
  // The table sort
  // ---------------------------------------------------------------------------

  function RowCompare(cfg: SortConfig): (Obj, Obj) -> int {
    (a: Obj, b: Obj) => Compare(Get(a, cfg.key), Get(b, cfg.key), cfg.direction)
  }

  /** `sortedData`: the filtered rows unchanged for an empty key, else sorted by the key. */
  function SortRows(rows: seq<Obj>, cfg: SortConfig): (r: seq<Obj>)
    ensures cfg.key == "" ==> r == rows
    ensures multiset(r) == multiset(rows)
  {
    if cfg.key == "" then rows else SortBy(rows, RowCompare(cfg))
  }

  /** Every row's value under the key is a string, or every one is a number. */
  ghost predicate UniformKey(rows: seq<Obj>, key: string) {
    || (forall i :: 0 <= i < |rows| ==> Get(rows[i], key).Str?)
    || (forall i :: 0 <= i < |rows| ==> Get(rows[i], key).Num?)
  }

  lemma LessStrings(a: string, b: string)
    ensures Less(Str(a), Str(b)) == LexLess(a, b)
  {
  }

  /** Two strings keys are comparable, and "not above" between them is transitive. */
  lemma CompareStrings(a: string, b: string, c: string, direction: string)
    ensures Compare(Str(a), Str(b), direction) <= 0 || Compare(Str(b), Str(a), direction) <= 0
    ensures Compare(Str(a), Str(b), direction) <= 0 && Compare(Str(b), Str(c), direction) <= 0 ==>
      Compare(Str(a), Str(c), direction) <= 0
  {
    LessStrings(a, b); LessStrings(b, a); LessStrings(b, c);
    LessStrings(c, b); LessStrings(a, c); LessStrings(c, a);
    LexLessTotal(a, b);
    LexLessTotal(b, c);
    if Compare(Str(a), Str(b), direction) <= 0 && Compare(Str(b), Str(c), direction) <= 0 {
      if direction == "asc" {
        if LexLess(c, a) && a != b {
          LexLessTransitive(c, a, b);
        }
      } else {
        if LexLess(a, c) && b != c {
          LexLessTransitive(a, c, b);
        }
      }
    }
  }

  /** The same two facts for number keys. */
  lemma CompareNumbers(a: int, b: int, c: int, direction: string)
    ensures Compare(Num(a), Num(b), direction) <= 0 || Compare(Num(b), Num(a), direction) <= 0
    ensures Compare(Num(a), Num(b), direction) <= 0 && Compare(Num(b), Num(c), direction) <= 0 ==>
      Compare(Num(a), Num(c), direction) <= 0
  {
  }

  /** The rows' values under the key, as a set. */
  ghost function RowSet(rows: seq<Obj>): set<Obj> {
    set i | 0 <= i < |rows| :: rows[i]
  }

  lemma UniformKeyPreorder(rows: seq<Obj>, cfg: SortConfig)
    requires UniformKey(rows, cfg.key)
    ensures TotalPreorderOn(RowSet(rows), RowCompare(cfg))
  {
    var cmp := RowCompare(cfg);
    var dom := RowSet(rows);
    var strings := forall i :: 0 <= i < |rows| ==> Get(rows[i], cfg.key).Str?;
    forall a, b, c | a in dom && b in dom && c in dom
      ensures cmp(a, b) <= 0 || cmp(b, a) <= 0
      ensures cmp(a, b) <= 0 && cmp(b, c) <= 0 ==> cmp(a, c) <= 0
    {
      var i :| 0 <= i < |rows| && rows[i] == a;
      var j :| 0 <= j < |rows| && rows[j] == b;
      var k :| 0 <= k < |rows| && rows[k] == c;
      var ka, kb, kc := Get(a, cfg.key), Get(b, cfg.key), Get(c, cfg.key);
      if strings {
        CompareStrings(ka.s, kb.s, kc.s, cfg.direction);
      } else {
        CompareNumbers(ka.n, kb.n, kc.n, cfg.direction);
      }
    }
  }

  /**
   * With a non-empty key whose values are all strings or all numbers, the
   * sorted rows are a permutation in which no row compares above a later one:
   * ascending for "asc", descending otherwise.
   */
  lemma SortRowsOrdered(rows: seq<Obj>, cfg: SortConfig)
    requires cfg.key != ""
    requires UniformKey(rows, cfg.key)
    ensures multiset(SortRows(rows, cfg)) == multiset(rows)
    ensures forall i, j :: 0 <= i < j < |rows| ==>
      Compare(Get(SortRows(rows, cfg)[i], cfg.key), Get(SortRows(rows, cfg)[j], cfg.key), cfg.direction) <= 0
  {
    UniformKeyPreorder(rows, cfg);
    SortBySorted(rows, RowCompare(cfg), RowSet(rows));
  }
}

=== FILE: table_view.dfy ===
/**
 * The view pipeline every table repeats: `filteredData` from the search box,
 * `sortedData` from the sort configuration, and the current page of it.
 */
module TableView {
  import opened JsValue
  import opened JsObject
  import opened Seqs
  import opened Search
  import opened Sorting
  import opened Paging

  /** `sortedData`: the filtered rows, sorted; throws when the filter throws. */
  function Sorted(rows: seq<Obj>, m: Obj -> Completion<bool>, cfg: SortConfig): (r: Completion<seq<Obj>>)
    ensures r.Throw? <==> FilterThrowing(rows, m).Throw?
    ensures r.Normal? ==> multiset(r.value) == multiset(FilterThrowing(rows, m).value)
    ensures r.Normal? && cfg.key == "" ==> r.value == FilterThrowing(rows, m).value
  {
    match FilterThrowing(rows, m)
    case Throw => Throw
    case Normal(filtered) => Normal(SortRows(filtered, cfg))
  }

  /** `paginatedData`: page `p` of the sorted rows. */
  function Shown(rows: seq<Obj>, m: Obj -> Completion<bool>, cfg: SortConfig, p: int): (r: Completion<seq<Obj>>)
    ensures r.Throw? <==> FilterThrowing(rows, m).Throw?
    ensures r.Normal? ==> |r.value| <= PageSize
  {
    match Sorted(rows, m, cfg)
    case Throw => Throw
    case Normal(sorted) => Normal(Page(sorted, p))
  }

  /**
   * Every row on screen is one of the table's rows that the search accepts,
   * and the pages of the sorted rows hold each accepted row exactly as often
   * as the table does.
   */
  lemma ShownRowsMatch(rows: seq<Obj>, m: Obj -> Completion<bool>, cfg: SortConfig, p: int)
    requires Shown(rows, m, cfg, p).Normal?
    ensures forall o :: o in Shown(rows, m, cfg, p).value ==> o in rows && Holds(m, o)
    ensures forall o :: multiset(Sorted(rows, m, cfg).value)[o] == if Holds(m, o) then multiset(rows)[o] else 0
    ensures FirstPages(Sorted(rows, m, cfg).value, TotalPages(|Sorted(rows, m, cfg).value|)) == Sorted(rows, m, cfg).value
  {
    var sorted := Sorted(rows, m, cfg).value;
    var keep := x => Holds(m, x);
    forall o ensures multiset(sorted)[o] == if Holds(m, o) then multiset(rows)[o] else 0 {
      FilterCount(rows, keep, o);
    }
    PageMembers(sorted, p);
    forall o | o in sorted ensures o in rows && Holds(m, o) {
      assert multiset(sorted)[o] > 0;
    }
    AllPages(sorted);
  }
}

=== FILE: tenant_login.dfy ===
/**
 * The tenant login page: the URL slug selects the brand from the tenants
 * configuration, falling back to the first tenant, and is remembered as the
 * theme code.
 */
module TenantLogin {
  import opened Wrappers
  import opened JsValue
  import opened JsObject
  import opened Seqs

  /** The tenant's `id` is strictly equal to the slug. */
  predicate IsFor(tenant: Obj, slug: Value) {
    StrictEquals(Get(tenant, "id"), slug)
  }

  /**
   * `tenants.find(b => b.id === tenant) || tenants[0]`: the first tenant
   * with the slug as id, otherwise the first tenant; nothing for an empty
   * configuration.
   */
  function Brand(tenants: seq<Obj>, slug: Value): (r: Option<Obj>)
    ensures r.None? <==> tenants == []
    ensures r.Some? ==> r.value in tenants
    ensures forall i :: (0 <= i < |tenants| && IsFor(tenants[i], slug) &&
      forall j :: 0 <= j < i ==> !IsFor(tenants[j], slug)) ==> r == Some(tenants[i])
    ensures tenants != [] && (forall i :: 0 <= i < |tenants| ==> !IsFor(tenants[i], slug)) ==>
      r == Some(tenants[0])
  {
    var i := FindIndex(tenants, t => IsFor(t, slug));
    if i >= 0 then Some(tenants[i]) else if tenants == [] then None else Some(tenants[0])
  }

  /** Tenants whose ids are distinct strings are each reached by their own id. */
  lemma BrandOfOwnId(tenants: seq<Obj>, k: int)
    requires 0 <= k < |tenants| && Get(tenants[k], "id").Str?
    requires forall i, j :: 0 <= i < j < |tenants| ==> Get(tenants[i], "id") != Get(tenants[j], "id")
    ensures Brand(tenants, Get(tenants[k], "id")) == Some(tenants[k])
  {
    var slug := Get(tenants[k], "id");
    forall j | 0 <= j < k ensures !IsFor(tenants[j], slug) {
      assert Get(tenants[j], "id") != slug;
    }
  }

  /** A tenant with an id is never chosen for a missing slug unless it comes first. */
  lemma MissingSlugFallsBack(tenants: seq<Obj>)
    requires tenants != []
    requires forall i :: 0 <= i < |tenants| ==> "id" in tenants[i] && tenants[i]["id"].Str?
    ensures Brand(tenants, Undefined) == Some(tenants[0])
  {
  }

  /** `if (tenant) localStorage.setItem("themecode", tenant)`: the stored value, if any. */
  function ThemeCode(slug: Value): (r: Option<Value>)
    ensures r.Some? <==> Truthy(slug)
    ensures r.Some? ==> r.value == slug
  {
    if Truthy(slug) then Some(slug) else None
  }

  /**
   * The stored theme code and the displayed brand agree: when the slug picks
   * a tenant by its id, the theme code is stored exactly when that id is
   * truthy, and it is that id.
   */
  lemma ThemeCodeOfBrand(tenants: seq<Obj>, slug: Value, k: int)
    requires 0 <= k < |tenants| && IsFor(tenants[k], slug)
    requires forall j :: 0 <= j < k ==> !IsFor(tenants[j], slug)
    ensures Brand(tenants, slug) == Some(tenants[k])
    ensures ThemeCode(slug).Some? <==> Truthy(Get(tenants[k], "id"))
    ensures ThemeCode(slug).Some? ==> ThemeCode(slug).value == Get(tenants[k], "id")
  {
  }
}

=== FILE: text.dfy ===
/**
 * String primitives the dashboard leans on: `toLowerCase`/`toUpperCase`,
 * `includes`, `trim`, `split` and the string form of `replace`.
 * Case mapping covers ASCII letters only.
 */
module Text {

  // ---------------------------------------------------------------------------
  // Case mapping
  // ---------------------------------------------------------------------------

  function LowerChar(c: char): char {
    if 'A' <= c <= 'Z' then (c as int + 32) as char else c
  }

  function UpperChar(c: char): char {
    if 'a' <= c <= 'z' then (c as int - 32) as char else c
  }

  /** `s.toLowerCase()` on ASCII letters. */
  function Lower(s: string): (r: string)
    ensures |r| == |s|
    ensures forall i :: 0 <= i < |s| ==> r[i] == LowerChar(s[i])
  {
    seq(|s|, i requires 0 <= i < |s| => LowerChar(s[i]))
  }

  /** `s.toUpperCase()` on ASCII letters. */
  function Upper(s: string): (r: string)
    ensures |r| == |s|
    ensures forall i :: 0 <= i < |s| ==> r[i] == UpperChar(s[i])
  {
    seq(|s|, i requires 0 <= i < |s| => UpperChar(s[i]))
  }

  /** Lower-casing twice is lower-casing once, and leaves no upper-case ASCII letter. */
  lemma LowerIdempotent(s: string)
    ensures Lower(Lower(s)) == Lower(s)
    ensures forall i :: 0 <= i < |s| ==> !('A' <= Lower(s)[i] <= 'Z')
  {
  }

  // ---------------------------------------------------------------------------
  // Substring search (`String.prototype.includes`)
  // ---------------------------------------------------------------------------

  ghost predicate OccursAt(needle: string, hay: string, i: int) {
    0 <= i <= |hay| - |needle| && hay[i..i + |needle|] == needle
  }

  /** `needle` is a contiguous infix of `hay`. */
  ghost predicate Occurs(needle: string, hay: string) {
    exists i :: OccursAt(needle, hay, i)
  }

  lemma OccursShift(needle: string, hay: string)
    requires |hay| > 0 && !OccursAt(needle, hay, 0)
    ensures Occurs(needle, hay) <==> Occurs(needle, hay[1..])
  {
    if Occurs(needle, hay) {
      var i :| OccursAt(needle, hay, i);
      assert i >= 1;
      assert hay[1..][i - 1..i - 1 + |needle|] == hay[i..i + |needle|];
      assert OccursAt(needle, hay[1..], i - 1);
    }
    if Occurs(needle, hay[1..]) {
      var j :| OccursAt(needle, hay[1..], j);
      assert hay[j + 1..j + 1 + |needle|] == hay[1..][j..j + |needle|];
      assert OccursAt(needle, hay, j + 1);
    }
  }

  /** `hay.includes(needle)`: true exactly when `needle` occurs in `hay`. */
  function Includes(hay: string, needle: string): (b: bool)
    ensures b <==> Occurs(needle, hay)
    decreases |hay|
  {
    if |needle| <= |hay| && hay[..|needle|] == needle then
      assert OccursAt(needle, hay, 0);
      true
    else if |hay| <= |needle| then
      false
    else
      OccursShift(needle, hay);
      Includes(hay[1..], needle)
  }

  /** The empty string is included in every string. */
  lemma IncludesEmpty(hay: string)
    ensures Includes(hay, "")
  {
    assert OccursAt("", hay, 0);
  }

  /** A one-character needle is included exactly when the character occurs. */
  lemma IncludesChar(hay: string, c: char)
    ensures Includes(hay, [c]) <==> c in hay
  {
    if c in hay {
      var i :| 0 <= i < |hay| && hay[i] == c;
      assert hay[i..i + 1] == [c];
      assert OccursAt([c], hay, i);
    }
    if Occurs([c], hay) {
      var i :| OccursAt([c], hay, i);
      assert hay[i] == hay[i..i + 1][0];
    }
  }

  /** Case-insensitive `includes`, as the tables' search box uses it. */
  function IncludesFolded(field: string, query: string): bool {
    Includes(Lower(field), Lower(query))
  }

  // ---------------------------------------------------------------------------
  // Whitespace and `trim`
  // ---------------------------------------------------------------------------

  /** ECMAScript WhiteSpace and LineTerminator code points. */
  predicate IsSpace(c: char) {
    || c == '\t' || c == '\n' || c == '\U{B}' || c == '\U{C}' || c == '\r' || c == ' '
    || c == '\U{A0}' || c == '\U{1680}' || ('\U{2000}' <= c <= '\U{200A}')
    || c == '\U{2028}' || c == '\U{2029}' || c == '\U{202F}' || c == '\U{205F}'
    || c == '\U{3000}' || c == '\U{FEFF}'
  }

  ghost predicate AllSpace(s: string) {
    forall i :: 0 <= i < |s| ==> IsSpace(s[i])
  }

  /** The first position at or after `i` that is not whitespace, or `|s|`. */
  function SkipSpace(s: string, i: nat): (j: nat)
    requires i <= |s|
    ensures i <= j <= |s|
    ensures forall k :: i <= k < j ==> IsSpace(s[k])
    ensures j < |s| ==> !IsSpace(s[j])
    decreases |s| - i
  {
    if i < |s| && IsSpace(s[i]) then SkipSpace(s, i + 1) else i
  }

  /**
   * Going back from `j` but not below `i`, the position just after the last
   * character that is not whitespace.
   */
  function SkipSpaceBack(s: string, i: nat, j: nat): (e: nat)
    requires i <= j <= |s|
    ensures i <= e <= j
    ensures forall k :: e <= k < j ==> IsSpace(s[k])
    ensures e > i ==> !IsSpace(s[e - 1])
    decreases j - i
  {
    if j > i && IsSpace(s[j - 1]) then SkipSpaceBack(s, i, j - 1) else j
  }

  /** Number of leading whitespace characters of `s`. */
  function LeadingSpace(s: string): (n: nat)
    ensures n <= |s|
  {
    SkipSpace(s, 0)
  }

  /** `s.trimStart()`: `s` without its leading whitespace. */
  function TrimStart(s: string): (r: string)
    ensures r == s[LeadingSpace(s)..]
    ensures AllSpace(s[..LeadingSpace(s)])
    ensures r == [] || !IsSpace(r[0])
  {
    s[SkipSpace(s, 0)..]
  }

  /** `s.trim()`: the infix of `s` left after removing whitespace at both ends. */
  function Trim(s: string): (r: string)
    ensures r == [] <==> AllSpace(s)
    ensures r == [] || (!IsSpace(r[0]) && !IsSpace(r[|r| - 1]))
    ensures LeadingSpace(s) + |r| <= |s| && r == s[LeadingSpace(s)..LeadingSpace(s) + |r|]
  {
    var a := SkipSpace(s, 0);
    var b := SkipSpaceBack(s, a, |s|);
    assert a == b ==> AllSpace(s);
    assert a < b ==> !IsSpace(s[b - 1]);
    s[a..b]
  }

  /** A string without whitespace is its own trim. */
  lemma TrimNoSpace(s: string)
    requires forall i :: 0 <= i < |s| ==> !IsSpace(s[i])
    ensures Trim(s) == s
  {
    if s != [] {
      assert !IsSpace(s[0]) && !IsSpace(s[|s| - 1]);
    }
  }

  // ---------------------------------------------------------------------------
  // `split` on a one-character separator, and its inverse `join`
  // ---------------------------------------------------------------------------

  /** `s.split(sep)`: the maximal separator-free fields of `s`, in order. */
  function Split(s: string, sep: char): (parts: seq<string>)
    ensures |parts| >= 1
    ensures forall i :: 0 <= i < |parts| ==> sep !in parts[i]
    decreases |s|
  {
    if s == [] then [""]
    else
      var rest := Split(s[1..], sep);
      if s[0] == sep then [""] + rest
      else [[s[0]] + rest[0]] + rest[1..]
  }

  /** `parts.join(sep)`. */
  function Join(parts: seq<string>, sep: char): string
    decreases |parts|
  {
    if |parts| == 0 then ""
    else if |parts| == 1 then parts[0]
    else parts[0] + [sep] + Join(parts[1..], sep)
  }

  /** Splitting and joining back on the same separator gives the original string. */
  lemma {:induction false} JoinSplit(s: string, sep: char)
    ensures Join(Split(s, sep), sep) == s
    decreases |s|
  {
    if s != [] {
      var rest := Split(s[1..], sep);
      JoinSplit(s[1..], sep);
      if s[0] == sep {
        assert Split(s, sep) == [""] + rest;
        assert ([""] + rest)[1..] == rest;
      } else {
        var parts := Split(s, sep);
        assert parts == [[s[0]] + rest[0]] + rest[1..];
        if |rest| > 1 {
          assert parts[1..] == rest[1..];
          assert Join(rest, sep) == rest[0] + [sep] + Join(rest[1..], sep);
        }
      }
    }
  }

  /** A separator-free string splits into itself alone. */
  lemma {:induction false} SplitNoSeparator(a: string, sep: char)
    requires sep !in a
    ensures Split(a, sep) == [a]
    decreases |a|
  {
    if a != [] {
      SplitNoSeparator(a[1..], sep);
      assert [a[0]] + a[1..] == a;
    }
  }

  /** The first field of `a + [sep] + b` is `a`; the remaining fields are those of `b`. */
  lemma {:induction false} SplitAfterField(a: string, sep: char, b: string)
    requires sep !in a
    ensures Split(a + [sep] + b, sep) == [a] + Split(b, sep)
    decreases |a|
  {
    var s := a + [sep] + b;
    if a == [] {
      assert s[1..] == b;
    } else {
      assert s[1..] == a[1..] + [sep] + b;
      SplitAfterField(a[1..], sep, b);
      assert [a[0]] + a[1..] == a;
    }
  }

  // ---------------------------------------------------------------------------
  // First occurrence and `replace` with a one-character string pattern
  // ---------------------------------------------------------------------------

  /** `s.indexOf(c)`: the first position of `c`, or -1. */
  function IndexOf(s: string, c: char): (i: int)
    ensures -1 <= i < |s|
    ensures i == -1 <==> c !in s
    ensures 0 <= i ==> s[i] == c && c !in s[..i]
    decreases |s|
  {
    if s == [] then -1
    else if s[0] == c then 0
    else
      var k := IndexOf(s[1..], c);
      assert s == [s[0]] + s[1..];
      if k == -1 then -1
      else
        assert s[..k + 1] == [s[0]] + s[1..][..k];
        k + 1
  }

  /**
   * `s.replace(from, to)` with a string pattern: only the first occurrence of
   * `from` is replaced; every other character is kept.
   */
  function ReplaceFirst(s: string, from: char, to: char): (r: string)
    ensures |r| == |s|
    ensures from !in s ==> r == s
    ensures from in s ==> var i := IndexOf(s, from);
      && r[i] == to
      && from !in s[..i]
      && forall k :: 0 <= k < |s| && k != i ==> r[k] == s[k]
  {
    var i := IndexOf(s, from);
    if i == -1 then s else s[i := to]
  }

  /** The first `from` is the one after a prefix that has none. */
  lemma ReplaceFirstAfter(a: string, from: char, to: char, b: string)
    requires from !in a
    ensures ReplaceFirst(a + [from] + b, from, to) == a + [to] + b
  {
    var s := a + [from] + b;
    assert s[..|a|] == a && s[|a|] == from;
  }
}

=== FILE: user_table.dfy ===
/**
 * The users table: rows built from the users response, the add and edit
 * handlers with their required-field guard, the active toggle, the local
 * delete, the four-field search and the single expanded row.
 */
module UserTable {
  import opened JsValue
  import opened JsObject
  import opened Text
  import opened Seqs
  import opened Search
  import opened EntityList

  const Dash := "\U{2014}"
  const MaskedPassword := "********"

  // ---------------------------------------------------------------------------
  // Rows
  // ---------------------------------------------------------------------------

  /** `formatDate`: an empty or missing date prints as "", others via the locale formatter. */
  function FormatDate(v: Value, format: Value -> string): (r: string)
    ensures !Truthy(v) ==> r == ""
  {
    if !Truthy(v) then "" else format(v)
  }

  /** One API user as a table row. */
  function MapUser(u: Obj, format: Value -> string): (row: Obj)
    ensures Get(row, "id") == Get(u, "id") && Get(row, "email") == Get(u, "email")
    ensures Get(row, "companyName") == (if Truthy(Get(u, "company_name")) then Get(u, "company_name") else Str(Dash))
    ensures Get(row, "roleId") == (if Truthy(Get(u, "role_id")) then Get(u, "role_id") else Str(Dash))
    ensures Get(row, "departmentId") == (if Truthy(Get(u, "department_id")) then Get(u, "department_id") else Str(Dash))
    ensures Get(row, "password") == (if Truthy(Get(u, "password_hash")) then Get(u, "password_hash") else Str(MaskedPassword))
    ensures Get(row, "createdAt").Str?
  {
    map[
      "id" := Get(u, "id"),
      "companyId" := Get(u, "company_id"),
      "companyName" := Or(Get(u, "company_name"), Str(Dash)),
      "roleId" := Or(Get(u, "role_id"), Str(Dash)),
      "departmentId" := Or(Get(u, "department_id"), Str(Dash)),
      "name" := Get(u, "name"),
      "email" := Get(u, "email"),
      "password" := Or(Get(u, "password_hash"), Str(MaskedPassword)),
      "active" := Get(u, "is_active"),
      "userType" := Get(u, "user_type"),
      "createdAt" := Str(FormatDate(Get(u, "created_at"), format))]
  }

  /** The users response: a list of users, or a single user. */
  datatype Response = Many(users: seq<Obj>) | One(user: Obj)

  /** `(Array.isArray(data) ? data : [data]).map(...)`. */
  function MapResponse(data: Response, format: Value -> string): (rows: seq<Obj>)
    ensures data.One? ==> rows == [MapUser(data.user, format)]
    ensures data.Many? ==> |rows| == |data.users|
    ensures data.Many? ==> forall i :: 0 <= i < |rows| ==> rows[i] == MapUser(data.users[i], format)
  {
    var users := if data.Many? then data.users else [data.user];
    seq(|users|, i requires 0 <= i < |users| => MapUser(users[i], format))
  }

  /** The users a response carries, in order. */
  function Users(data: Response): seq<Obj> {
    if data.Many? then data.users else [data.user]
  }

  /**
   * The API fields behind a row's searched cells: `email` and `user_type`
   * are copied, so they must be strings or absent; `company_name` falls
   * back to a dash, so a falsy value is fine too.
   */
  predicate ApiSearchable(u: Obj) {
    && (Get(u, "email").Str? || Nullish(Get(u, "email")))
    && (Get(u, "user_type").Str? || Nullish(Get(u, "user_type")))
    && (Get(u, "company_name").Str? || !Truthy(Get(u, "company_name")))
  }

  /** A mapped row can be searched without throwing exactly when its API user is `ApiSearchable`. */
  lemma MapUserSearchable(u: Obj, format: Value -> string)
    ensures Searchable(MapUser(u, format)) <==> ApiSearchable(u)
  {
    var row := MapUser(u, format);
    assert Get(row, "userType") == Get(u, "user_type");
    if Searchable(row) {
      assert Get(row, "email").Str? || Nullish(Get(row, "email"));
      assert Get(row, "userType").Str? || Nullish(Get(row, "userType"));
      assert Get(row, "companyName").Str? || Nullish(Get(row, "companyName"));
    }
  }

  /**
   * The table as fetched: when every API user has string (or absent) email,
   * type and company name, the search never throws and keeps, in order,
   * exactly the rows it finds.
   */
  lemma FetchedUsersSearch(data: Response, format: Value -> string, search: string)
    requires forall i :: 0 <= i < |Users(data)| ==> ApiSearchable(Users(data)[i])
    ensures FilterUsers(MapResponse(data, format), search).Normal?
    ensures Subseq(FilterUsers(MapResponse(data, format), search).value, MapResponse(data, format))
    ensures forall o :: o in FilterUsers(MapResponse(data, format), search).value <==>
      o in MapResponse(data, format) && Found(o, search)
  {
    var rows := MapResponse(data, format);
    forall i | 0 <= i < |rows| ensures Searchable(rows[i]) {
      assert rows[i] == MapUser(Users(data)[i], format);
      MapUserSearchable(Users(data)[i], format);
    }
    FilterUsersSound(rows, search);
  }

  // ---------------------------------------------------------------------------
  // Add and edit
  // ---------------------------------------------------------------------------

  /** `name`, `email` and `password` are all truthy. */
  predicate RequiredFilled(u: Obj) {
    Truthy(Get(u, "name")) && Truthy(Get(u, "email")) && Truthy(Get(u, "password"))
  }

  datatype AddOutcome = MissingFields | Post(payload: Obj)

  /**
   * `handleAddUser` up to the request: the guard on the three required
   * fields comes first; the ids are converted with `Number`, the stored
   * company id defaulting to 0.
   */
  function HandleAddUser(newUser: Obj, storedCompanyId: Value): (r: AddOutcome)
    ensures r.MissingFields? <==> !RequiredFilled(newUser)
    ensures r.Post? ==> Get(r.payload, "company_id") == ToNumber(Or(storedCompanyId, Num(0)))
    ensures r.Post? ==> Get(r.payload, "role_id") == ToNumber(Get(newUser, "role_id"))
    ensures r.Post? ==> Get(r.payload, "department_id") == ToNumber(Get(newUser, "department_id"))
    ensures r.Post? ==> forall k :: k in {"name", "email", "password"} ==> Get(r.payload, k) == Get(newUser, k)
  {
    if !RequiredFilled(newUser) then MissingFields
    else Post(map[
      "company_id" := ToNumber(Or(storedCompanyId, Num(0))),
      "role_id" := ToNumber(Get(newUser, "role_id")),
      "department_id" := ToNumber(Get(newUser, "department_id")),
      "name" := Get(newUser, "name"),
      "email" := Get(newUser, "email"),
      "password" := Get(newUser, "password")])
  }

  /**
   * With no company id stored, and with the role and department pickers
   * left at "", every id in the payload is 0.
   */
  lemma AddUserDefaultIds(newUser: Obj)
    requires RequiredFilled(newUser)
    requires Get(newUser, "role_id") == Str("") && Get(newUser, "department_id") == Str("")
    ensures var p := HandleAddUser(newUser, Null).payload;
      Get(p, "company_id") == Num(0) && Get(p, "role_id") == Num(0) && Get(p, "department_id") == Num(0)
  {
    NumberOfEmpty();
    var p := HandleAddUser(newUser, Null).payload;
    assert Or(Null, Num(0)) == Num(0);
    assert Get(p, "company_id") == ToNumber(Num(0));
    assert Get(p, "role_id") == ToNumber(Str(""));
    assert Get(p, "department_id") == ToNumber(Str(""));
  }

  /**
   * The role and department pickers hold `String(id)` of the chosen option,
   * and the session holds `String(companyId)`: the payload carries exactly
   * those ids back as numbers.
   */
  lemma PickedIdsRoundTrip(newUser: Obj, companyId: int, roleId: int, departmentId: int)
    requires RequiredFilled(newUser)
    requires Get(newUser, "role_id") == Str(ToStr(Num(roleId)))
    requires Get(newUser, "department_id") == Str(ToStr(Num(departmentId)))
    ensures HandleAddUser(newUser, Str(ToStr(Num(companyId)))).Post?
    ensures var p := HandleAddUser(newUser, Str(ToStr(Num(companyId)))).payload;
      Get(p, "company_id") == Num(companyId) && Get(p, "role_id") == Num(roleId) &&
      Get(p, "department_id") == Num(departmentId)
  {
    NumberOfString(companyId);
    NumberOfString(roleId);
    NumberOfString(departmentId);
    assert Truthy(Str(ToStr(Num(companyId))));
  }

  /** The list after a successful add: the server's record, unmapped, at the end. */
  function AddCreated(users: seq<Obj>, created: Obj): (r: seq<Obj>)
    ensures |r| == |users| + 1 && r[..|users|] == users && r[|users|] == created
  {
    Append(users, created)
  }

  datatype EditOutcome = EditMissingFields | Edited(users: seq<Obj>)

  /** `handleEditUser`: the guard, then `u.id === editUser.id ? {...editUser} : u`. */
  function HandleEditUser(users: seq<Obj>, editUser: Obj): (r: EditOutcome)
    ensures r.EditMissingFields? <==> !RequiredFilled(editUser)
    ensures r.Edited? ==> |r.users| == |users|
    ensures r.Edited? ==> forall k :: 0 <= k < |users| ==>
      r.users[k] == if HasId(users[k], IdOf(editUser)) then editUser else users[k]
  {
    if !RequiredFilled(editUser) then EditMissingFields
    else Edited(MapWhere(users, u => HasId(u, IdOf(editUser)), _ => editUser))
  }

  /** Saving the same edit twice is saving it once. */
  lemma HandleEditUserIdempotent(users: seq<Obj>, editUser: Obj)
    requires RequiredFilled(editUser)
    ensures HandleEditUser(HandleEditUser(users, editUser).users, editUser) == HandleEditUser(users, editUser)
  {
  }

  // ---------------------------------------------------------------------------
  // Active toggle and delete
  // ---------------------------------------------------------------------------

  /** `{...u, active: !u.active}`. */
  function FlipActive(u: Obj): Obj {
    u["active" := Bool(!Truthy(Get(u, "active")))]
  }

  /** `handleToggleActive`: every user with the id has `active` negated; nothing else changes. */
  function ToggleActive(users: seq<Obj>, id: Value): (r: seq<Obj>)
    ensures |r| == |users|
    ensures forall k :: 0 <= k < |users| && !HasId(users[k], id) ==> r[k] == users[k]
    ensures forall k :: 0 <= k < |users| && HasId(users[k], id) ==>
      Get(r[k], "active") == Bool(!Truthy(Get(users[k], "active"))) &&
      forall key :: key != "active" ==> Get(r[k], key) == Get(users[k], key)
  {
    MapWhere(users, u => HasId(u, id), FlipActive)
  }

  /** Toggling twice restores the list when the matching users' `active` is a boolean. */
  lemma ToggleActiveTwice(users: seq<Obj>, id: Value)
    requires forall k :: 0 <= k < |users| && HasId(users[k], id) ==> Get(users[k], "active").Bool?
    ensures ToggleActive(ToggleActive(users, id), id) == users
  {
    forall k | 0 <= k < |users| && HasId(users[k], id)
      ensures HasId(FlipActive(users[k]), id) && FlipActive(FlipActive(users[k])) == users[k]
    {
      assert "active" in users[k];
    }
    MapWhereTwice(users, u => HasId(u, id), FlipActive);
  }

  /**
   * A user whose `active` is missing is switched on by the first toggle and
   * off by the second: the list does not come back.
   */
  lemma ToggleActiveMissingField(u: Obj)
    requires "active" !in u
    ensures Get(FlipActive(FlipActive(u)), "active") == Bool(false)
    ensures FlipActive(FlipActive(u)) != u
  {
    assert "active" in FlipActive(FlipActive(u));
  }

  /** `prev.filter(u => u.id !== userToDelete.id)`. */
  function DeleteUser(users: seq<Obj>, target: Obj): (r: seq<Obj>)
    ensures forall o :: o in r <==> o in users && !HasId(o, IdOf(target))
    ensures Subseq(r, users)
  {
    RemoveByIdKeeps(users, IdOf(target));
    RemoveById(users, IdOf(target))
  }

  // ---------------------------------------------------------------------------
  // Search
  // ---------------------------------------------------------------------------

  /**
   * `u.companyId?.toString()…includes(q) || u.email?.toLowerCase()…
   * || u.userType?.toLowerCase()… || u.companyName?.toLowerCase()…`.
   */
  function Matches(u: Obj, search: string): Completion<bool> {
    OrElse(OrElse(OrElse(
      OptStringIncludes(Get(u, "companyId"), search),
      OptLowerIncludes(Get(u, "email"), search)),
      OptLowerIncludes(Get(u, "userType"), search)),
      OptLowerIncludes(Get(u, "companyName"), search))
  }

  function FilterUsers(users: seq<Obj>, search: string): Completion<seq<Obj>> {
    FilterThrowing(users, u => Matches(u, search))
  }

  /** The field is a string containing the query, ignoring case. */
  predicate FieldContains(u: Obj, key: string, search: string) {
    Get(u, key).Str? && IncludesFolded(Get(u, key).s, search)
  }

  /** The three fields searched with `toLowerCase` are strings or absent. */
  predicate Searchable(u: Obj) {
    forall key :: key in {"email", "userType", "companyName"} ==> Get(u, key).Str? || Nullish(Get(u, key))
  }

  /**
   * On searchable users the search does not throw, and keeps, in order,
   * exactly the users whose printed company id or whose email, user type or
   * company name contains the query.
   */
  lemma FilterUsersSound(users: seq<Obj>, search: string)
    requires forall i :: 0 <= i < |users| ==> Searchable(users[i])
    ensures FilterUsers(users, search).Normal?
    ensures Subseq(FilterUsers(users, search).value, users)
    ensures forall o :: o in FilterUsers(users, search).value <==> o in users && Found(o, search)
  {
    var m := u => Matches(u, search);
    forall i | 0 <= i < |users| ensures m(users[i]).Normal? {
      MatchesMeaning(users[i], search);
    }
    FilterThrowingSubseq(users, m);
    forall o | o in users ensures Holds(m, o) <==> Found(o, search) {
      var i :| 0 <= i < |users| && users[i] == o;
      MatchesMeaning(users[i], search);
    }
    forall o ensures o in FilterUsers(users, search).value <==> o in users && Holds(m, o) {
      FilterMembers(users, x => Holds(m, x), o);
    }
  }

  /**
   * The user's printed company id, or its email, user type or company name
   * ignoring case, contains the query.
   */
  predicate Found(u: Obj, search: string) {
    || (!Nullish(Get(u, "companyId")) && IncludesFolded(ToStr(Get(u, "companyId")), search))
    || FieldContains(u, "email", search) || FieldContains(u, "userType", search)
    || FieldContains(u, "companyName", search)
  }

  /** On a searchable user the match does not throw and means `Found`. */
  lemma MatchesMeaning(u: Obj, search: string)
    requires Searchable(u)
    ensures Matches(u, search).Normal? && (Matches(u, search).value <==> Found(u, search))
  {
    assert Get(u, "email").Str? || Nullish(Get(u, "email"));
    assert Get(u, "userType").Str? || Nullish(Get(u, "userType"));
    assert Get(u, "companyName").Str? || Nullish(Get(u, "companyName"));
  }

  /**
   * The record appended after an add is the server's snake_case user: with
   * no `companyId`, `userType` or `companyName` it can only match by email.
   */
  lemma CreatedUserMatchesByEmail(created: Obj, search: string)
    requires "companyId" !in created && "userType" !in created && "companyName" !in created
    ensures Matches(created, search) == OptLowerIncludes(Get(created, "email"), search)
  {
  }
}

=== FILE: wrappers.dfy ===
/** Failure-compatible helper datatypes shared by every module of the model. */
module Wrappers {

  /** A value that may be missing: JavaScript's `null`/`undefined` at a typed position. */
  datatype Option<+T> = None | Some(value: T) {

    /** Returns the value in Some, or the given default. */
    function GetOr(default: T): T {
      match this
      case Some(v) => v
      case None => default
    }
  }
}
